=== FILE: README.md ===
# GIF player extension: a verified model of its core

This project models the core of a browser extension that takes over animated
GIF and WebP images on a page. It replaces each image with a canvas player
that can play, pause and seek, and it plays at one of eleven speeds.
The model covers these parts of the extension:

- **The GIF decoder** (`gifuct-js.js`):
  - the variable-width LZW decompressor of GIF89a, given twice: a functional
    state machine (`Lzw`) and an in-place array version (`LzwImpl`), with a
    proof that both give the same pixels;
  - the block parser (`GifParser`), with a byte-level encoder of GIF
    documents (`GifEncoding`) and a proof that parsing an encoded document
    gives back its frames;
  - the four-pass row deinterlacer (`Interlace`);
  - the conversion of indexed pixels to RGBA patches (`Decompress`).
- **The content script** (`content.js`):
  - the WebP animation-flag check, the image-URL classification and the
    minimum-size test (`Media`);
  - the playback controller (`Player`): drawing a patch, rendering a frame
    with disposal, seeking, play, pause and toggle, and the speed ladder.
- **The popup** (`popup.js`), in `Popup`:
  - language detection and `t` with its fallback chain and `{name}`
    substitution;
  - the per-domain disable list;
  - the typed filter that imports a pasted configuration.
- **The background script** (`background.js`): the install-time listener
  that fills in missing defaults (`Background`).

Supporting modules:

- `Wrappers`: `Option` and `Result`.
- `Bits`: powers of two and little-endian bit strings.
- `Text`: search, replace-first, ASCII lower-casing and ECMAScript `trim`.
- `Config`: JSON values and stored settings.

Bytes are `nat`s below 256. JavaScript reads past the end of a typed array
give `undefined`, which the source then turns into 0; the model writes
that out. Clocks, the DOM, storage and JSON parsing are parameters of the
model.

## Model

| member | source | states |
|---|---|---|
| Bits.BitsValueSplit | gifuct-js.js:34-44 | Reading a+b bits least-significant first is the first a bits plus the next b bits shifted left by a. |
| Bits.AppendByte | gifuct-js.js:36-37 | `datum \|= byte << bits` appends the byte's eight bits above the ones already held. |
| Lzw.ReadCode | gifuct-js.js:34-44 | A code is produced exactly when at least codeSize bits remain. It is below 2^codeSize and uses up exactly codeSize bits. |
| Lzw.Refill | gifuct-js.js:34-38 | Whole bytes are taken until codeSize bits are held or the data ends. No bit is lost or invented, and a reader that already holds enough bits is left alone. |
| Lzw.ReadCodeLsbFirst | gifuct-js.js:34-44 | Each code read is the next codeSize bits of the byte stream, least-significant bit first, and the bit buffer stays below 20 bits. |
| Lzw.Chain | gifuct-js.js:69-73 | The prefix-chain walk only pushes suffix-table bytes and keeps what the stack held. It stops at a root code or when the 4096-entry stack is full. |
| Lzw.Pop | gifuct-js.js:78-80 | Stack bytes are written in reverse push order from pi on, until the stack is empty or the buffer is full. Every other pixel is unchanged. |
| Lzw.AddEntry | gifuct-js.js:82-90 | Below 4096 entries, one entry (prefix, suffix) is added. The code size grows by one exactly when the next code reaches 2^codeSize and is still below 4096. At 4096 nothing changes. |
| Lzw.StepValid | gifuct-js.js:32-93 | One code's processing keeps the decoder invariant: code width 12 bits at most, at most 4096 table entries, table entries that are codes and bytes, and unwritten pixels still 0. It never changes an already written pixel, consumes input unless it stops, and leaves pixels alone when it stops. |
| Lzw.StepReadsNextCode | gifuct-js.js:46-61 | The next code is the next bits of the stream. A clear code resets the code size, the next code and the previous code; an end code stops without output; the first code after a clear emits its suffix byte. |
| Lzw.StepOutOfData | gifuct-js.js:40 | With fewer bits left than the code size, decoding stops and no pixel is written. |
| Lzw.EmitValid | gifuct-js.js:63-80 | A non-first code (including the code-not-yet-in-table case) writes at least one pixel, keeps earlier pixels, and keeps the output bytes below 256. |
| Lzw.Run | gifuct-js.js:32-93 | The main loop keeps the invariant and the buffer length, and never rewrites a pixel. It reports a full buffer exactly when every pixel was written. |
| Lzw.Decode | gifuct-js.js:5-96 | `lzwDecode` returns pixelCount bytes. Positions the stream never reached stay 0. |
| Lzw.DecodeEmpty | gifuct-js.js:40 | Decoding no data gives pixelCount zeros. |
| Lzw.DecodeEndFirst | gifuct-js.js:54 | A stream whose first code is the end code decodes to all zeros. |
| LzwImpl.Fill | gifuct-js.js:34-38 | The in-place refill loop computes the functional `Refill`. |
| LzwImpl.Walk | gifuct-js.js:69-73 | The in-place chain walk on the stack array computes `Chain`. |
| LzwImpl.Drain | gifuct-js.js:78-80 | The in-place stack drain into the pixel array computes `Pop`. |
| LzwImpl.FillTables | gifuct-js.js:19-22 | The table initialisation loop produces the functional initial tables. |
| LzwImpl.LzwDecode | gifuct-js.js:5-96 | The array implementation returns exactly the pixels of the functional decoder `Lzw.Decode`. |
| GifParser.MakeControl | gifuct-js.js:141-152 | A Graphic Control Extension's delay is 10 times its hundredths, with 0 meaning 100 ms. The transparent index is kept exactly when bit 0 of the packed field is 1. The disposal method is the value of bits 2-4. |
| GifEncoding.TableAfterRoundTrip | gifuct-js.js:124-130 | When bit 7 of the packed field is set, the colour table written after a descriptor reads back as itself and parsing resumes after its triples. When bit 7 is clear, no table is read and nothing is skipped. |
| GifParser.ImageSpendsControl | gifuct-js.js:161-202 | An image takes the pending control's delay, disposal and transparency, or 100, 0 and none without one. It uses its local table when present, else the global one, and the next image starts with no pending control. |
| GifParser.BlockAt | gifuct-js.js:135-209 | The block loop stops exactly at the end of input or at the trailer. Otherwise it moves forward and finds at most one image. |
| GifParser.Blocks | gifuct-js.js:135-209 | The loop only appends frames, in file order. |
| GifParser.Parse | gifuct-js.js:99-212 | `parseGIF` fails exactly when the input does not start with "GIF". Otherwise the screen size is the little-endian words at offsets 6 and 8. |
| GifEncoding.WordRoundTrip | gifuct-js.js:117-118 | A 16-bit value written little-endian reads back as itself. |
| GifEncoding.TableRoundTrip | gifuct-js.js:124-130 | A colour table written as RGB triples reads back as itself. |
| GifEncoding.ChunksRoundTrip | gifuct-js.js:179-186 | Data sub-blocks read back as the concatenation of their chunks, and reading ends just after the terminator. |
| GifEncoding.ChunksSkip | gifuct-js.js:153-160 | Skipping an unknown extension's sub-blocks lands just after its terminator. |
| GifEncoding.ControlStep | gifuct-js.js:141-152 | An encoded Graphic Control Extension is consumed whole and becomes the pending control. |
| GifEncoding.OtherStep | gifuct-js.js:153-160 | Any other encoded extension is skipped whole and keeps the pending control. |
| GifEncoding.ImageStep | gifuct-js.js:161-202 | An encoded image is consumed whole and yields its frame. The pending control is then spent. |
| GifEncoding.ReadImageRoundTrip | gifuct-js.js:161-202 | Reading an encoded image gives its descriptor, the local table or else the global one, its code size and its data. |
| GifEncoding.BlocksRoundTrip | gifuct-js.js:135-209 | The block loop over any well-formed encoded block list, ended by a trailer or the end of input, yields the frames the list describes. |
| GifEncoding.HeaderRead | gifuct-js.js:111-121 | An encoded header passes the signature check, and its screen size and packed field read back. |
| GifEncoding.ParseRoundTrip | gifuct-js.js:99-212 | Parsing any well-formed encoded document succeeds with the screen size and the frames the document describes. |
| Interlace.RowOrder | gifuct-js.js:217-234 | The pass order lists one destination row per stored row, each inside the image. |
| Interlace.PassRowsShape | gifuct-js.js:226 | A pass visits start, start+step, … for as long as the row is inside the image. |
| Interlace.RowOrderPermutation | gifuct-js.js:215-237 | The four passes visit every row exactly once. |
| Interlace.SourceRowLands | gifuct-js.js:224-233 | For every destination row, the stored row that the passes send there is known in closed form. |
| Interlace.EightRows | gifuct-js.js:217-222 | An 8-row image is stored in the order 0, 4, 2, 6, 1, 3, 5, 7. |
| Interlace.InterlaceRows | gifuct-js.js:215-237 | Interlacing stores row RowOrder[i] at position i. This is the inverse used by the round trip. |
| Interlace.DeinterlaceInterlace | gifuct-js.js:215-237 | Deinterlacing undoes interlacing for every image. |
| Interlace.DeinterlaceAt | gifuct-js.js:227-230 | Each output pixel (x, y) is pixel x of the stored row that the passes send to y. |
| Interlace.DeinterlaceFrom | gifuct-js.js:227-230 | Pixel x of the i-th stored row ends up at (x, RowOrder[i]). |
| Decompress.PatchAt | gifuct-js.js:266-275 | Pixel i of the patch has the table's colour for its index, or black past the table's end. Its alpha is 0 exactly when the index is the transparent index, and 255 otherwise. |
| Decompress.PatchAlphas | gifuct-js.js:274 | Every alpha in a patch is 0 or 255. |
| Decompress.PatchPixel | gifuct-js.js:246-275 | Stored pixel (x, src) lands as RGBA at (x, destination row of src), through the deinterlacer when the frame is interlaced. |
| Decompress.DecompressFrame | gifuct-js.js:244-279 | A decompressed frame keeps the delay, disposal and placement. Its patch is present exactly when asked for, and it has 4 bytes per pixel with binary alpha. |
| Decompress.DecompressFrames | gifuct-js.js:240-283 | `decompressFrames` gives one decompressed frame per parsed frame, in order. |
| Media.CheckWebPHeaderSpec | content.js:95-130 | The header check holds exactly when there are at least 24 bytes, the tags "RIFF", "WEBP" and "VP8X" sit at offsets 0, 8 and 12, and bit 1 of the flags byte (the animation flag) is set. |
| Media.CheckWebPHeaderInspects | content.js:95-130 | The header classification depends only on the three tags and the flags byte. |
| Media.IsTargetImageCaseBlind | content.js:816-835 | The classification of an image URL ignores letter case. |
| Media.WebPSourceIsWebP | content.js:66-68 | An image taken over for a ".webp" src is then played as WebP. |
| Media.MeetsMinSizeMonotone | content.js:837-840 | An image at least as large as a qualifying one qualifies too. One dimension alone can qualify. |
| Player.DrawGifPixels | content.js:632-651 | Drawing a GIF patch changes only the covered pixels. A covered pixel takes the patch pixel unless that one is fully transparent. |
| Player.DrawBitmapPixels | content.js:620-629 | Drawing a WebP bitmap clears the canvas and copies the bitmap where it lies. |
| Player.DrawGifIdempotent | content.js:632-651 | Drawing the same GIF patch twice is the same as drawing it once. |
| Player.DrawBitmapForgets | content.js:620-629 | After a WebP frame, the canvas no longer depends on what it held before. |
| Player.LoadGifFrame | content.js:422-423 | Each decoded GIF frame keeps its delay, disposal and placement, and is drawable. Its patch is the one `decompressFrames(gif, true)` built from the LZW-decoded, deinterlaced pixels. |
| Player.Composite | content.js:664-685 | After a frame, a clear is pending exactly for a GIF frame with disposal method 2. |
| Player.CompositePixels | content.js:664-685 | One rendered frame, pixel by pixel: an opaque covered patch pixel, else cleared if a clear was pending, else the old pixel. For WebP it is the bitmap, or the canvas untouched when there is no bitmap. |
| Player.Init | content.js:236-257 | After loading, the controller holds every loaded frame, the image kind and the screen size it was given. Frame 0 is drawn on a cleared canvas. The controller is paused at speed 1.0 with no timer, its counter is 0 and no clear is pending. |
| Player.AutoPlayDrawsFirstFrameOnce | content.js:248-257 | With autoplay, the picture after `play` is exactly one render of frame 0 on a cleared canvas. The early draw of frame 0 leaves no trace, and the counter moves to the next frame. |
| Player.BaseDelay | content.js:692 | `frame.delay \|\| 100` is positive for every non-negative delay. |
| Player.CyclicNext | content.js:677-680 | The frame counter's wrap-around is the next index modulo the frame count. |
| Player.RenderFrame | content.js:661-697 | `renderFrame` composites the current frame, advances the counter cyclically, and changes nothing else. While playing, it arms a timer of the frame's delay divided by the speed. |
| Player.RenderFrameDrawable | content.js:661-697 | Rendering keeps every frame drawable and the canvas at the screen size. |
| Player.Tick | content.js:693-695 | A timer firing while playing composites the frame the counter points at, advances the counter cyclically and re-arms the timer with that frame's delay divided by the speed. Nothing else changes. |
| Player.Play | content.js:733-739 | `play` is a no-op while playing. Otherwise it starts playback by rendering the current frame, advancing the counter and arming the timer. The speed, frames and size are kept. |
| Player.Pause | content.js:741-749 | `pause` stops playback and cancels the timer. The picture, frame and speed are kept. |
| Player.TogglePlay | content.js:725-731 | `togglePlay` flips the playing state by pausing or playing. |
| Player.ToggleTwice | content.js:725-739 | Pausing and resuming advances exactly one frame, cyclically. |
| Player.SeekToFrame | content.js:700-723 | Seeking lands on the requested frame and changes only the picture and the index. |
| Player.SeekToFrameDrawable | content.js:700-723 | Seeking keeps every frame drawable and the canvas at the screen size. |
| Player.SeekFromSlider | content.js:483-489 | A slider move leaves the controller paused, with no timer, on the chosen frame. The picture is the one `seekToFrame` redraws, and the speed, frames and size are kept. |
| Player.RendersReplay | content.js:661-697 | Rendering m frames from frame i composites frames i to i+m-1 in order. |
| Player.SeekMatchesRenders | content.js:700-723 | Seeking to frame k shows the same picture, with the same pending clear, as rendering k+1 frames from a cleared canvas. |
| Player.IncreaseSpeed | content.js:780-787 | Raising the speed touches only the speed. It is a no-op exactly at the top speed 4.0. |
| Player.DecreaseSpeed | content.js:789-796 | Lowering the speed touches only the speed. It is a no-op exactly at the bottom speed 0.1. |
| Player.LevelsIncreasing | content.js:776-778 | The speed ladder is strictly increasing. |
| Player.IndexOf | content.js:782 | `indexOf` gives the first position of a speed, or -1 when the speed is not on the ladder. |
| Player.IndexOfRung | content.js:782 | On the increasing ladder, `indexOf` of a rung is that rung's position. |
| Player.IncreaseSpeedStep | content.js:780-787 | Below the top, raising the speed gives the next larger ladder speed. |
| Player.DecreaseSpeedStep | content.js:789-796 | Above the bottom, lowering the speed gives the next smaller ladder speed. |
| Player.SpeedRoundTrip | content.js:780-796 | Below the top speed, raising and then lowering the speed restores the controller. |
| Player.IncreaseSpeedSaturates | content.js:780-787 | Enough raises always reach the top speed 4.0. |
| Text.FindFrom | popup.js:92 | The search returns the first occurrence at or after a position, or none when there is none. |
| Text.ReplaceFirstSpec | popup.js:92 | `String.replace` with a string pattern replaces only the first occurrence, and leaves a string without one unchanged. |
| Text.ReplaceFirstKeepsLater | popup.js:92 | A second, non-overlapping occurrence survives a replace. |
| Text.ToLowerChangesCapitals | content.js:817 | Lower-casing changes exactly the ASCII capitals, each to the letter 32 code points above it. No capital remains afterwards. |
| Text.ToLowerIdempotent | content.js:817 | Lower-casing twice is the same as lower-casing once. |
| Text.TrimStartSpec | popup.js:313 | Only leading white space is removed, and the result starts with a non-space. |
| Text.TrimEndSpec | popup.js:313 | Only trailing white space is removed, and the result ends with a non-space. |
| Text.TrimInside | popup.js:313 | `trim` returns the middle of the text, with only white space on either side. |
| Text.TrimEmptyIff | popup.js:313-315 | The trimmed text is empty exactly when the text is all white space. |
| Popup.DetectedTemplate | popup.js:74-89 | When the table holds "zh-CN" and "en", the detected language is always a key of it. A "zh" browser gets its Chinese string when that string is non-empty. Any other browser gets the English string, else the key. |
| Popup.TemplateChoice | popup.js:89 | The current language's string is used when non-empty, else the English one when non-empty, else the key itself. |
| Popup.TemplateNonEmpty | popup.js:89 | A non-empty key never translates to the empty string. |
| Popup.TemplateIsCandidate | popup.js:89 | The text is always the current-language entry, the English entry or the key. |
| Popup.EnglishNeedsNoFallback | popup.js:89 | In English, the fallback chain reduces to the entry or the key. |
| Popup.SubstituteNoPlaceholder | popup.js:91-93 | Parameters whose `{name}` does not occur leave the text unchanged. |
| Popup.TWithoutParams | popup.js:88-95 | `t` without parameters is the chosen template, which is non-empty for a non-empty key. |
| Popup.SubstituteOne | popup.js:91-93 | A single `{name}` occurrence is replaced by the parameter's value, with the rest of the text kept. |
| Popup.SubstituteFillsOnlyFirst | popup.js:91-93 | Only the first `{name}` is filled. A second occurrence stays in the text. |
| Popup.RemoveAllCounts | popup.js:246 | Filtering the domain out removes every copy of it and keeps every other domain as often as before. |
| Popup.DisableDomain | popup.js:241-244 | Disabling puts the domain in the list, adds nothing else, keeps the old list as a prefix, and keeps the list free of duplicates. |
| Popup.EnableDomain | popup.js:245-247 | Enabling removes every copy of the domain and keeps everything else, in order and with multiplicity. |
| Popup.DisableThenEnable | popup.js:239-249 | Disabling a domain that was not listed and then enabling it restores the list. |
| Popup.DisableIdempotent | popup.js:241-244 | Disabling twice is the same as disabling once. |
| Popup.ApplyFieldsSpec | popup.js:324-346 | An imported setting is written exactly when it is one of the fields and has that field's JSON type. Every other setting keeps its presence and value. |
| Popup.ImportWith | popup.js:312-352 | Import fails exactly for blank text, text that does not parse, or `null`. Blank text reports the empty-input message. |
| Popup.ImportBlank | popup.js:313-317 | Text that is all white space is refused as empty. |
| Popup.ImportObject | popup.js:321-346 | A parsed object imports successfully, with exactly the typed fields applied. |
| Popup.ImportNonObject | popup.js:321-348 | A parsed number, string, boolean or array imports successfully and changes nothing. |
| Popup.AcceptsImportFields | popup.js:324-346 | The fields taken are exactly: minWidth, minHeight and maxAutoLoadCount as numbers; autoPlayEnabled and autoLoadEnabled as booleans; disabledDomains as an array. |
| Background.CollectMissingSpec | background.js:18-22 | The defaults loop adds exactly the defaults whose key storage lacks, each with its default value. |
| Background.FillDefaultsWritesMissing | background.js:14-30 | What is written is exactly the missing default keys, each with its default. |
| Background.FillDefaultsWritesIff | background.js:24-28 | Storage is written exactly when some default key is missing. |
| Background.FillDefaultsKeepsStored | background.js:14-30 | No stored value is overwritten, however falsy. Afterwards every default key is present, no other key is added, and a second run writes nothing. |
| Background.OnInstalledFills | background.js:4-30 | For the shipped defaults, the listener keeps every stored value and a second run writes nothing. |
| Config.ValueOf | background.js:18 | The value found for a key is the one paired with it in the list. |

## Left out

- The DOM and the page: the wrapper, buttons, progress-bar styling, hover
  handling, copying to the display canvas, the mutation observer and
  page scanning. None of them affect the modelled state.
- `isAnimatedWebP`, `loadWebP` and `loadLegacyGif`: the network fetch and
  the browser's `ImageDecoder` are not modelled. `isAnimatedWebP` answers
  false on any fetch error. WebP frames enter the player as given
  bitmaps.
- `chrome.storage` and messaging, `loadConfig` and `saveConfig`: storage is
  a map parameter, and a write is the returned map.
- Real timers and `requestAnimationFrame`: the timer is an optional delay.
  The gap between the timer firing and the next render is not modelled.
- Floating point: speeds and delays are exact rationals. `playbackSpeed` is
  kept as a rung of the speed ladder, so `indexOf` returning -1 cannot
  arise in the player. `Player.IndexOf` models that case on its own.
- `JSON.parse` is a parameter (`None` when it throws).
- `navigator.language` being undefined is not modelled.
- The translation strings are data: `t` is proved for any table.
- Patterns with `$` in `String.replace` are not modelled. Substitution
  values are inserted literally.
- `toLowerCase` is modelled on ASCII letters only.
- Lzw.Decode: requires a minimum code size of at most 11. At 12 and above,
  the source's `1 << codeSize` and 4096-entry tables run into 32-bit shift
  wrap-around and reads past the tables, which are not modelled.
- Decompress.DecompressFrame: requires a colour table only when patches are
  being built for a frame with pixels. That is where the source reads
  `null[colorIndex]` and throws a `TypeError`, and that exception path is not
  modelled.
- Player.FrameOk: zero-area GIF frames are excluded. The source throws in
  `createImageData` for a zero width or height, and that exception path is
  not modelled.
- Player.SeekToFrame: requires the target to be a frame index. The slider
  only produces 0 to n-1, and other values would make the source read an
  undefined frame.
- Player.Init: requires at least one frame. The controller is only built
  after a successful load.
- Popup.TemplateChoice: requires the current language and English to be
  present in the table. The shipped table and `detectLanguage` guarantee
  this.

## Notes on the code

- Disposal method 2 clears the whole canvas before the next frame, not just
  the frame's rectangle. Method 3 behaves like 1, keeping the picture. The
  model follows the code.
- The delay armed after a render is that of the frame just drawn.
- `seekToFrame` itself does not pause. The slider handler pauses first, and
  `Player.SeekFromSlider` models the pair.
- `parseGIF` reports an error only for a missing "GIF" signature. Truncated
  input reads as zeros.
- The transparent index of a Graphic Control Extension read past the end of
  input is `undefined`, so it matches no pixel. The model gives no
  transparency there.

=== FILE: background.dfy ===
/**
 * The background script's `onInstalled` listener: every setting of
 * `DEFAULT_CONFIG` that storage does not hold yet receives its default, and
 * storage is written only when at least one was missing. `chrome.storage`
 * itself is the parameter `stored` and the result.
 */
module Background {
  import opened Config
  import opened Wrappers

  /** `DEFAULT_CONFIG`, in the order of its declaration. */
  const DefaultConfig: seq<(string, Value)> := [
    ("autoLoadEnabled", Bool(true)),
    ("autoPlayEnabled", Bool(true)),
    ("minWidth", Number(200.0)),
    ("minHeight", Number(100.0)),
    ("maxAutoLoadCount", Number(4.0)),
    ("disabledDomains", Array([]))
  ]

  lemma DefaultKeysDistinct()
    ensures DistinctKeys(DefaultConfig)
  {
  }

  /**
   * The loop over `Object.entries(DEFAULT_CONFIG)`: each entry whose key
   * reads as `undefined` in `stored` is added to `updates`.
   */
  function CollectMissing(stored: Settings, defaults: seq<(string, Value)>, updates: map<string, Value>)
    : (r: map<string, Value>)
    decreases |defaults|
  {
    if defaults == [] then updates
    else
      var (key, value) := defaults[0];
      CollectMissing(stored, defaults[1..], if key !in stored then updates[key := value] else updates)
  }

  /**
   * What the loop adds is exactly the defaults whose key is absent from
   * storage, each with its default value; whatever `updates` held before is
   * kept unless a later default of the same key replaces it.
   */
  lemma {:induction false} CollectMissingSpec(stored: Settings, defaults: seq<(string, Value)>,
                                              updates: map<string, Value>)
    requires DistinctKeys(defaults)
    ensures var r := CollectMissing(stored, defaults, updates);
      forall k :: (k in r <==> k in updates || (k in Keys(defaults) && k !in stored))
        && (k in Keys(defaults) && k !in stored ==> r[k] == ValueOf(defaults, k))
        && (k !in Keys(defaults) && k in updates ==> r[k] == updates[k])
    decreases |defaults|
  {
    if defaults != [] {
      var (key, value) := defaults[0];
      var next := if key !in stored then updates[key := value] else updates;
      assert DistinctKeys(defaults[1..]) by {
        forall i, j | 0 <= i < j < |defaults[1..]| ensures defaults[1..][i].0 != defaults[1..][j].0 {
          assert defaults[1..][i] == defaults[i + 1] && defaults[1..][j] == defaults[j + 1];
        }
      }
      CollectMissingSpec(stored, defaults[1..], next);
      assert Keys(defaults) == [key] + Keys(defaults[1..]);
      assert key !in Keys(defaults[1..]) by {
        forall i | 0 <= i < |defaults[1..]| ensures Keys(defaults[1..])[i] != key {
          assert defaults[1..][i] == defaults[i + 1];
        }
      }
    }
  }

  /**
   * The listener for a given `DEFAULT_CONFIG`: `Some(updates)` when
   * `chrome.storage.sync.set(updates)` is called, `None` when nothing was
   * missing and storage is not written.
   */
  function FillDefaults(stored: Settings, defaults: seq<(string, Value)>): (write: Option<map<string, Value>>)
  {
    var updates := CollectMissing(stored, defaults, map[]);
    if |updates| > 0 then Some(updates) else None
  }

  /** The `onInstalled` listener itself. */
  function OnInstalled(stored: Settings): (write: Option<map<string, Value>>)
  {
    FillDefaults(stored, DefaultConfig)
  }

  /** Storage after the listener has run. */
  function Apply(stored: Settings, write: Option<map<string, Value>>): (s: Settings)
  {
    match write
    case None => stored
    case Some(updates) => stored + updates
  }

  /**
   * Every update is a default for a key storage does not hold: the keys
   * written are a subset of the defaults' keys, each missing key is written
   * with its default, and no key storage holds is written.
   */
  lemma FillDefaultsWritesMissing(stored: Settings, defaults: seq<(string, Value)>)
    requires DistinctKeys(defaults)
    ensures FillDefaults(stored, defaults).Some? ==> var updates := FillDefaults(stored, defaults).value;
      forall k :: (k in updates <==> k in Keys(defaults) && k !in stored)
        && (k in updates ==> updates[k] == ValueOf(defaults, k))
  {
    CollectMissingSpec(stored, defaults, map[]);
  }

  /** Storage is written exactly when some default's key is missing from it. */
  lemma FillDefaultsWritesIff(stored: Settings, defaults: seq<(string, Value)>)
    requires DistinctKeys(defaults)
    ensures FillDefaults(stored, defaults).Some? <==> exists k :: k in Keys(defaults) && k !in stored
  {
    var updates := CollectMissing(stored, defaults, map[]);
    CollectMissingSpec(stored, defaults, map[]);
    if exists k :: k in Keys(defaults) && k !in stored {
      var k :| k in Keys(defaults) && k !in stored;
      assert k in updates;
    }
  }

  /**
   * A value storage already holds is never overwritten, however falsy it
   * is (`false`, `0`, `[]`, `null`): the test is for `undefined` only. After
   * the listener every default key is present, nothing else is added, and
   * a second run writes nothing.
   */
  lemma FillDefaultsKeepsStored(stored: Settings, defaults: seq<(string, Value)>)
    requires DistinctKeys(defaults)
    ensures var s := Apply(stored, FillDefaults(stored, defaults));
      && (forall k :: k in stored ==> k in s && s[k] == stored[k])
      && (forall k :: k in Keys(defaults) ==> k in s)
      && (forall k :: k in s ==> k in stored || k in Keys(defaults))
      && FillDefaults(s, defaults).None?
  {
    CollectMissingSpec(stored, defaults, map[]);
    var s := Apply(stored, FillDefaults(stored, defaults));
    FillDefaultsWritesIff(s, defaults);
  }

  /** The listener as shipped: `DEFAULT_CONFIG` has distinct keys, so the lemmas above apply to it. */
  lemma OnInstalledFills(stored: Settings)
    ensures var s := Apply(stored, OnInstalled(stored));
      && (forall k :: k in stored ==> k in s && s[k] == stored[k])
      && OnInstalled(s).None?
  {
    DefaultKeysDistinct();
    FillDefaultsKeepsStored(stored, DefaultConfig);
  }
}

=== FILE: bits.dfy ===
/**
 * Powers of two, the shift and mask operators on non-negative numbers, and
 * the value of a run of bits taken least-significant-bit first out of a byte
 * buffer (the bit order of the GIF LZW code stream).
 *
 * The operators are defined by halving and doubling one bit at a time so that
 * every proof about them is linear arithmetic.
 */
module Bits {

  /** An 8-bit value as stored in a `Uint8Array`. */
  type byte = x: nat | x < 256

  function Pow2(n: nat): (r: nat)
    ensures r >= 1
  {
    if n == 0 then 1 else 2 * Pow2(n - 1)
  }

  /** `x << k`, for a value that stays inside the 32-bit accumulator. */
  function Shl(x: nat, k: nat): nat
  {
    if k == 0 then x else 2 * Shl(x, k - 1)
  }

  /** `x >> k` on a non-negative value. */
  function Shr(x: nat, k: nat): nat
  {
    if k == 0 then x else Shr(x / 2, k - 1)
  }

  /** `x & (2^k - 1)`: the low `k` bits of `x`. */
  function LowBits(x: nat, k: nat): nat
  {
    if k == 0 then 0 else x % 2 + 2 * LowBits(x / 2, k - 1)
  }

  lemma {:induction false} Pow2Monotone(a: nat, b: nat)
    requires a <= b
    ensures Pow2(a) <= Pow2(b)
  {
    if a < b {
      Pow2Monotone(a, b - 1);
    }
  }

  lemma Pow2Small()
    ensures Pow2(0) == 1 && Pow2(1) == 2 && Pow2(2) == 4 && Pow2(3) == 8
    ensures Pow2(4) == 16 && Pow2(5) == 32 && Pow2(6) == 64 && Pow2(7) == 128
    ensures Pow2(8) == 256 && Pow2(9) == 512 && Pow2(10) == 1024
    ensures Pow2(11) == 2048 && Pow2(12) == 4096
  {
  }

  lemma {:induction false} LowBitsBound(x: nat, k: nat)
    ensures LowBits(x, k) < Pow2(k)
  {
    if k > 0 {
      LowBitsBound(x / 2, k - 1);
    }
  }

  /** Masking and shifting undo `lo + (hi << k)` when `lo` fits in `k` bits. */
  lemma {:induction false} LowHigh(x: nat, k: nat, lo: nat, hi: nat)
    requires lo < Pow2(k) && x == lo + Shl(hi, k)
    ensures LowBits(x, k) == lo && Shr(x, k) == hi
  {
    if k > 0 {
      LowHigh(x / 2, k - 1, lo / 2, hi);
    }
  }

  /** A value below 2^n shifted right by n is zero. */
  lemma {:induction false} ShrBelow(x: nat, n: nat)
    requires x < Pow2(n)
    ensures Shr(x, n) == 0
  {
    if n > 0 {
      ShrBelow(x / 2, n - 1);
    }
  }

  lemma {:induction false} ShrStep(x: nat, k: nat)
    ensures Shr(x, k + 1) == Shr(x, k) / 2
  {
    if k > 0 {
      ShrStep(x / 2, k - 1);
    }
  }

  /** Bit `p` of the buffer, counting from the least significant bit of byte 0. */
  function BitAt(data: seq<byte>, p: nat): (r: nat)
    requires p < 8 * |data|
    ensures r < 2
  {
    Shr(data[p / 8], p % 8) % 2
  }

  /** The number formed by the `n` bits starting at bit `p`, the first one least significant. */
  function BitsValue(data: seq<byte>, p: nat, n: nat): nat
    requires p + n <= 8 * |data|
    decreases n
  {
    if n == 0 then 0 else BitAt(data, p) + 2 * BitsValue(data, p + 1, n - 1)
  }

  lemma {:induction false} BitsValueBound(data: seq<byte>, p: nat, n: nat)
    requires p + n <= 8 * |data|
    ensures BitsValue(data, p, n) < Pow2(n)
    decreases n
  {
    if n > 0 {
      BitsValueBound(data, p + 1, n - 1);
    }
  }

  /** A run of `a + b` bits is its first `a` bits plus the next `b` bits shifted up by `a`. */
  lemma {:induction false} BitsValueSplit(data: seq<byte>, p: nat, a: nat, b: nat)
    requires p + a + b <= 8 * |data|
    ensures BitsValue(data, p, a + b) == BitsValue(data, p, a) + Shl(BitsValue(data, p + a, b), a)
    decreases a
  {
    if a > 0 {
      BitsValueSplit(data, p + 1, a - 1, b);
      var rest := BitsValue(data, p + a, b);
      assert p + 1 + (a - 1) == p + a;
      assert BitsValue(data, p, a + b) == BitAt(data, p) + 2 * BitsValue(data, p + 1, a - 1 + b);
      assert BitsValue(data, p, a) == BitAt(data, p) + 2 * BitsValue(data, p + 1, a - 1);
      assert Shl(rest, a) == 2 * Shl(rest, a - 1);
    }
  }

  /** The bits of byte `i` from bit `k` upwards (bit `q` of the buffer) make up that byte shifted right by `k`. */
  lemma {:induction false} ByteBitsFrom(data: seq<byte>, i: nat, k: nat, q: nat)
    requires i < |data| && k <= 8 && q == 8 * i + k
    ensures BitsValue(data, q, 8 - k) == Shr(data[i], k)
    decreases 8 - k
  {
    if k == 8 {
      Pow2Small();
      ShrBelow(data[i], 8);
    } else {
      ByteBitsFrom(data, i, k + 1, q + 1);
      ShrStep(data[i], k);
      assert q / 8 == i && q % 8 == k;
      assert BitsValue(data, q, 8 - k) == BitAt(data, q) + 2 * BitsValue(data, q + 1, 8 - (k + 1));
    }
  }

  /** Reading on across a byte boundary appends that whole byte above the bits read so far. */
  lemma AppendByte(data: seq<byte>, p: nat, k: nat, i: nat)
    requires i < |data| && p + k == 8 * i
    ensures BitsValue(data, p, k + 8) == BitsValue(data, p, k) + Shl(data[i], k)
  {
    BitsValueSplit(data, p, k, 8);
    ByteBits(data, i);
    var q := p + k;
    assert q == 8 * i;
    assert BitsValue(data, q, 8) == data[i];
  }

  /** The eight bits of byte `i`, least significant first, make up that byte. */
  lemma ByteBits(data: seq<byte>, i: nat)
    requires i < |data|
    ensures BitsValue(data, 8 * i, 8) == data[i]
  {
    ByteBitsFrom(data, i, 0, 8 * i);
  }

  /** One more row of `b` cells: the product distributes over `a + 1`. */
  lemma MulSucc(a: nat, b: nat)
    ensures (a + 1) * b == a * b + b
  {
  }

  lemma Quarter(x: nat)
    ensures x / 2 / 2 == x / 4
  {
  }

  lemma ThreeLowBits(q: nat)
    ensures q % 2 + 2 * ((q / 2) % 2) + 4 * ((q / 4) % 2) == q % 8
  {
  }

  /**
   * The two packed-field readings the GIF decoder writes as arithmetic:
   * bit 0 is `b % 2` and the three bits from bit 2 are `(b >> 2) & 7`.
   */
  lemma {:induction false} PackedFields(b: byte)
    ensures BitAt([b], 0) == b % 2
    ensures BitsValue([b], 2, 3) == (b / 4) % 8
  {
    var q := b / 4;
    assert Shr(b, 2) == q by { ShrStep(b, 1); Quarter(b); }
    assert Shr(b, 3) == q / 2 by { ShrStep(b, 2); }
    assert Shr(b, 4) == q / 4 by { ShrStep(b, 3); ShrStep(b, 2); Quarter(q); }
    assert BitsValue([b], 2, 3) == q % 2 + 2 * ((q / 2) % 2) + 4 * ((q / 4) % 2);
    ThreeLowBits(q);
  }
}

=== FILE: config.dfy ===
/**
 * The extension's stored settings as `chrome.storage.sync` holds them: a
 * map from setting name to a JSON value. A name that is not in the map is
 * `undefined`.
 */
module Config {

  /** A JSON value, as `JSON.parse` produces it or storage returns it. */
  datatype Value =
    | Null
    | Bool(b: bool)
    | Number(n: real)
    | Text(s: string)
    | Array(items: seq<Value>)
    | Object(fields: map<string, Value>)

  /** The stored settings: a setting that is absent reads as `undefined`. */
  type Settings = map<string, Value>

  /** The first components of a list of pairs, in order. */
  function Keys<V>(pairs: seq<(string, V)>): (ks: seq<string>)
    ensures |ks| == |pairs| && forall i :: 0 <= i < |pairs| ==> ks[i] == pairs[i].0
  {
    if pairs == [] then [] else [pairs[0].0] + Keys(pairs[1..])
  }

  /** No key appears twice in a list of pairs (the keys of a JavaScript object literal). */
  predicate DistinctKeys<V>(pairs: seq<(string, V)>)
  {
    forall i, j :: 0 <= i < j < |pairs| ==> pairs[i].0 != pairs[j].0
  }

  /** The value paired with `key`, when the key appears. */
  function ValueOf<V>(pairs: seq<(string, V)>, key: string): (v: V)
    requires key in Keys(pairs)
    ensures exists i :: 0 <= i < |pairs| && pairs[i].0 == key && pairs[i].1 == v
  {
    if pairs[0].0 == key then pairs[0].1 else ValueOf(pairs[1..], key)
  }
}

=== FILE: decompress.dfy ===
/**
 * `decompressFrames`: each parsed frame's LZW data decoded to colour indices,
 * put back into row order when the frame is interlaced, and turned into an
 * RGBA "patch" of `width * height` pixels.
 */
module Decompress {
  import opened Bits
  import opened Wrappers
  import opened GifParser
  import Lzw
  import Interlace

  datatype Dims = Dims(width: nat, height: nat, left: nat, top: nat)

  /** One decompressed frame; `patch` is present when patches were asked for. */
  datatype Frame = Frame(delay: nat, disposal: nat, dims: Dims, patch: Option<seq<byte>>)

  /** `colorTable[colorIndex] || [0, 0, 0]`: an index past the table gives black. */
  function ColorOf(table: seq<Rgb>, index: byte): Rgb
  {
    if index < |table| then table[index] else Rgb(0, 0, 0)
  }

  /** Alpha: 0 for the transparent index, 255 for every other one. */
  function AlphaOf(transparent: Option<byte>, index: byte): byte
  {
    if transparent == Some(index) then 0 else 255
  }

  /** The four bytes one colour index becomes. */
  function Rgba(table: seq<Rgb>, transparent: Option<byte>, index: byte): (px: seq<byte>)
  {
    var c := ColorOf(table, index);
    [c.r, c.g, c.b, AlphaOf(transparent, index)]
  }

  /** The patch loop: four bytes per colour index, in the order of the indices. */
  function BuildPatch(pixels: seq<byte>, table: seq<Rgb>, transparent: Option<byte>): (patch: seq<byte>)
    ensures |patch| == 4 * |pixels|
    decreases |pixels|
  {
    if |pixels| == 0 then []
    else Rgba(table, transparent, pixels[0]) + BuildPatch(pixels[1..], table, transparent)
  }

  /**
   * Pixel `i` of the patch occupies bytes `4 * i` to `4 * i + 3`: the table
   * colour of index `pixels[i]` (black past the table) and an alpha that is
   * 0 exactly when that index is the transparent one, 255 otherwise.
   */
  lemma {:induction false} PatchAt(pixels: seq<byte>, table: seq<Rgb>, transparent: Option<byte>, i: nat)
    requires i < |pixels|
    ensures var patch := BuildPatch(pixels, table, transparent);
      && (pixels[i] < |table| ==> patch[4 * i] == table[pixels[i]].r && patch[4 * i + 1] == table[pixels[i]].g
                                  && patch[4 * i + 2] == table[pixels[i]].b)
      && (pixels[i] >= |table| ==> patch[4 * i] == 0 && patch[4 * i + 1] == 0 && patch[4 * i + 2] == 0)
      && (patch[4 * i + 3] == 0 <==> transparent == Some(pixels[i]))
      && (patch[4 * i + 3] == 0 || patch[4 * i + 3] == 255)
    decreases i
  {
    var patch := BuildPatch(pixels, table, transparent);
    var head := Rgba(table, transparent, pixels[0]);
    var rest := BuildPatch(pixels[1..], table, transparent);
    assert patch == head + rest;
    if i > 0 {
      PatchAt(pixels[1..], table, transparent, i - 1);
      assert pixels[1..][i - 1] == pixels[i];
      assert patch[4 * i] == rest[4 * (i - 1)];
      assert patch[4 * i + 1] == rest[4 * (i - 1) + 1];
      assert patch[4 * i + 2] == rest[4 * (i - 1) + 2];
      assert patch[4 * i + 3] == rest[4 * (i - 1) + 3];
    }
  }

  /** Every alpha byte of a patch is 0 or 255. */
  lemma PatchAlphas(pixels: seq<byte>, table: seq<Rgb>, transparent: Option<byte>)
    ensures var patch := BuildPatch(pixels, table, transparent);
      forall i :: 0 <= i < |pixels| ==> patch[4 * i + 3] == 0 || patch[4 * i + 3] == 255
  {
    forall i | 0 <= i < |pixels|
      ensures BuildPatch(pixels, table, transparent)[4 * i + 3] in {0, 255}
    {
      PatchAt(pixels, table, transparent, i);
    }
  }

  /**
   * What `decompressFrames` needs of a frame: a code size the decoder
   * handles, and, when patches are built, a colour table if there are
   * pixels to look up in it.
   */
  predicate Decodable(f: RawFrame, buildPatch: bool)
  {
    && f.minCodeSize <= Lzw.MaxMinCodeSize
    && (buildPatch && f.width * f.height > 0 ==> f.colorTable.Some?)
  }

  /** The colour indices in row order: the decoder output, deinterlaced if the frame is interlaced. */
  function Indices(decoded: seq<byte>, width: nat, height: nat, interlaced: bool): (pixels: seq<byte>)
    requires |decoded| == width * height
    ensures |pixels| == width * height
  {
    if interlaced then Interlace.Deinterlace(decoded, width, height) else decoded
  }

  /** The image row that row `src` of the decoder output belongs on. */
  function DestRow(height: nat, interlaced: bool, src: nat): nat
    requires src < height
  {
    if interlaced then Interlace.RowOrder(height)[src] else src
  }

  /** The patch of a frame whose decoder output is `decoded`. */
  function FramePatch(decoded: seq<byte>, width: nat, height: nat, interlaced: bool,
                      table: seq<Rgb>, transparent: Option<byte>): (patch: seq<byte>)
    requires |decoded| == width * height
    ensures |patch| == 4 * (width * height)
  {
    BuildPatch(Indices(decoded, width, height, interlaced), table, transparent)
  }

  /** The four bytes of pixel `i` of a patch are `Rgba` of its colour index. */
  lemma PatchSlice(pixels: seq<byte>, table: seq<Rgb>, transparent: Option<byte>, i: nat)
    requires i < |pixels|
    ensures BuildPatch(pixels, table, transparent)[4 * i .. 4 * i + 4] == Rgba(table, transparent, pixels[i])
  {
    PatchAt(pixels, table, transparent, i);
  }

  /**
   * The colour index the decoder produced at column `x` of its row `src` is
   * drawn at column `x` of row `DestRow(height, interlaced, src)` of the
   * patch: the same row for a progressive frame, the row the interlace
   * passes give for an interlaced one.
   */
  lemma PatchPixel(decoded: seq<byte>, width: nat, height: nat, interlaced: bool,
                   table: seq<Rgb>, transparent: Option<byte>, src: nat, x: nat)
    requires |decoded| == width * height && src < height && x < width
    ensures src * width + x < width * height && DestRow(height, interlaced, src) * width + x < width * height
    ensures var i := DestRow(height, interlaced, src) * width + x;
      FramePatch(decoded, width, height, interlaced, table, transparent)[4 * i .. 4 * i + 4]
      == Rgba(table, transparent, decoded[src * width + x])
  {
    var i := IndicesFrom(decoded, width, height, interlaced, src, x);
    PatchSlice(Indices(decoded, width, height, interlaced), table, transparent, i);
  }

  /** Row `src` of the decoder output, column `x`, is index `i` of the rows put in order. */
  lemma IndicesFrom(decoded: seq<byte>, width: nat, height: nat, interlaced: bool, src: nat, x: nat)
    returns (i: nat)
    requires |decoded| == width * height && src < height && x < width
    ensures src * width + x < width * height && i == DestRow(height, interlaced, src) * width + x
    ensures i < width * height && Indices(decoded, width, height, interlaced)[i] == decoded[src * width + x]
  {
    Interlace.DeinterlaceFrom(decoded, width, height, src, x);
    i := DestRow(height, interlaced, src) * width + x;
  }

  /**
   * One iteration of the frame loop: timing, disposal and placement copied
   * from the parsed frame, and, when patches are asked for, the patch built
   * from the decoder output for `width * height` pixels.
   */
  function DecompressFrame(f: RawFrame, buildPatch: bool): (r: Frame)
    requires Decodable(f, buildPatch)
    ensures r.delay == f.delay && r.disposal == f.disposal
    ensures r.dims == Dims(f.width, f.height, f.left, f.top)
    ensures r.patch.Some? <==> buildPatch
    ensures r.patch.Some? ==> |r.patch.value| == 4 * (f.width * f.height)
    ensures r.patch.Some? ==> r.patch.value == FramePatch(Lzw.Decode(f.minCodeSize, f.data, f.width * f.height),
      f.width, f.height, f.interlaced, if f.colorTable.Some? then f.colorTable.value else [], f.transparent)
    ensures r.patch.Some? ==>
      forall i :: 0 <= i < f.width * f.height ==> r.patch.value[4 * i + 3] == 0 || r.patch.value[4 * i + 3] == 255
  {
    var dims := Dims(f.width, f.height, f.left, f.top);
    if !buildPatch then Frame(f.delay, f.disposal, dims, None)
    else
      var pixelCount := f.width * f.height;
      var decoded := Lzw.Decode(f.minCodeSize, f.data, pixelCount);
      var table := if f.colorTable.Some? then f.colorTable.value else [];
      PatchAlphas(Indices(decoded, f.width, f.height, f.interlaced), table, f.transparent);
      Frame(f.delay, f.disposal, dims, Some(FramePatch(decoded, f.width, f.height, f.interlaced, table, f.transparent)))
  }

  /** `decompressFrames(gif, buildPatch)`: one result per parsed frame, in order. */
  method DecompressFrames(gif: Gif, buildPatch: bool) returns (frames: seq<Frame>)
    requires forall i :: 0 <= i < |gif.frames| ==> Decodable(gif.frames[i], buildPatch)
    ensures |frames| == |gif.frames|
    ensures forall i :: 0 <= i < |frames| ==> frames[i] == DecompressFrame(gif.frames[i], buildPatch)
  {
    frames := [];
    var k := 0;
    while k < |gif.frames|
      invariant k <= |gif.frames| && |frames| == k
      invariant forall i :: 0 <= i < k ==> frames[i] == DecompressFrame(gif.frames[i], buildPatch)
    {
      frames := frames + [DecompressFrame(gif.frames[k], buildPatch)];
      k := k + 1;
    }
  }
}

=== FILE: gif_encoding.dfy ===
/**
 * A GIF file described block by block, its byte encoding, and what the
 * block list means independently of any byte position: which frames it
 * holds and which Graphic Control Extension applies to each. Parsing the
 * encoding of a well-formed description gives exactly that meaning.
 */
module GifEncoding {
  import opened Bits
  import opened Wrappers
  import opened GifParser

  /** A 16-bit field as its two bytes, least significant first. */
  datatype U16 = U16(lo: byte, hi: byte)

  function Value(u: U16): nat
  {
    u.lo + 256 * u.hi
  }

  /** The blocks that may follow the logical screen descriptor. */
  datatype Block =
    | ControlBlock(blockSize: byte, packed: byte, delay: U16, transparentIndex: byte, terminator: byte)
    | ImageBlock(left: U16, top: U16, width: U16, height: U16, packed: byte,
                 table: seq<Rgb>, minCodeSize: byte, chunks: seq<seq<byte>>)
    | OtherExtension(tag: byte, chunks: seq<seq<byte>>)
    | Filler(b: byte)

  /**
   * A whole file: version, logical screen descriptor, global colour table,
   * blocks, and optionally a trailer followed by anything at all.
   */
  datatype Document = Document(
    version: seq<byte>, width: U16, height: U16, packed: byte, background: byte, aspect: byte,
    globalTable: seq<Rgb>, blocks: seq<Block>, trailer: Option<seq<byte>>)

  predicate ChunksOk(chunks: seq<seq<byte>>)
  {
    forall i :: 0 <= i < |chunks| ==> 1 <= |chunks[i]| <= 255
  }

  /** A colour table is present exactly when bit 7 says so, with the size bits 0-2 give. */
  predicate TableOk(packed: byte, table: seq<Rgb>)
  {
    |table| == if HasTable(packed) then TableSize(packed) else 0
  }

  predicate BlockOk(b: Block)
  {
    match b
    case ControlBlock(_, _, _, _, _) => true
    case ImageBlock(_, _, _, _, packed, table, _, chunks) => TableOk(packed, table) && ChunksOk(chunks)
    case OtherExtension(tag, chunks) => tag != GraphicControlLabel && ChunksOk(chunks)
    case Filler(b) => b != ExtensionIntroducer && b != ImageSeparator && b != Trailer
  }

  predicate DocumentOk(d: Document)
  {
    && |d.version| == 3
    && TableOk(d.packed, d.globalTable)
    && AllOk(d.blocks)
  }

  // ---------------------------------------------------------------------------
  // Encoding
  // ---------------------------------------------------------------------------

  function LittleEndian16(u: U16): (e: seq<byte>)
    ensures |e| == 2
  {
    [u.lo, u.hi]
  }

  function EncodeTable(t: seq<Rgb>): (e: seq<byte>)
    ensures |e| == 3 * |t|
  {
    if |t| == 0 then [] else [t[0].r, t[0].g, t[0].b] + EncodeTable(t[1..])
  }

  /** Sub-blocks: a size byte before each chunk, then the zero-size terminator. */
  function EncodeChunks(chunks: seq<seq<byte>>): (e: seq<byte>)
    requires ChunksOk(chunks)
    ensures |e| >= 1
  {
    if |chunks| == 0 then [0] else [|chunks[0]| as byte] + chunks[0] + EncodeChunks(chunks[1..])
  }

  function Flatten(chunks: seq<seq<byte>>): seq<byte>
  {
    if |chunks| == 0 then [] else chunks[0] + Flatten(chunks[1..])
  }

  /** The ten bytes of an image descriptor, separator included. */
  function ImageHead(b: Block): (e: seq<byte>)
    requires b.ImageBlock? && BlockOk(b)
    ensures |e| == 10
  {
    [ImageSeparator] + LittleEndian16(b.left) + LittleEndian16(b.top) + LittleEndian16(b.width)
      + LittleEndian16(b.height) + [b.packed]
  }

  function EncodeBlock(b: Block): (e: seq<byte>)
    requires BlockOk(b)
    ensures |e| >= 1
  {
    match b
    case ControlBlock(blockSize, packed, delay, ti, terminator) =>
      [ExtensionIntroducer, GraphicControlLabel, blockSize, packed] + LittleEndian16(delay) + [ti, terminator]
    case ImageBlock(_, _, _, _, _, table, minCodeSize, chunks) =>
      ImageHead(b) + EncodeTable(table) + [minCodeSize] + EncodeChunks(chunks)
    case OtherExtension(tag, chunks) => [ExtensionIntroducer, tag] + EncodeChunks(chunks)
    case Filler(b) => [b]
  }

  /** The encoding of each block, in order. */
  function BlockParts(bs: seq<Block>): seq<seq<byte>>
    requires AllOk(bs)
  {
    if |bs| == 0 then [] else [EncodeBlock(bs[0])] + BlockParts(bs[1..])
  }

  function EncodeBlocks(bs: seq<Block>): seq<byte>
    requires AllOk(bs)
  {
    Flatten(BlockParts(bs))
  }

  const Signature: seq<byte> := ['G' as byte, 'I' as byte, 'F' as byte]

  /** The header and logical screen descriptor: 13 bytes. */
  function EncodeHeader(d: Document): (e: seq<byte>)
    requires DocumentOk(d)
    ensures |e| == 13
  {
    Signature + d.version + LittleEndian16(d.width) + LittleEndian16(d.height) + [d.packed, d.background, d.aspect]
  }

  function Encode(d: Document): seq<byte>
    requires DocumentOk(d)
  {
    EncodeHeader(d) + EncodeTable(d.globalTable) + EncodeBlocks(d.blocks)
      + TrailerPart(d)
  }

  // ---------------------------------------------------------------------------
  // What a block list means
  // ---------------------------------------------------------------------------

  /**
   * A Graphic Control Extension block as GIF89a defines its fields: the delay
   * in hundredths of a second (shown in milliseconds, 0 read as 100), the
   * transparent index if bit 0 of the packed field is set, the disposal
   * method in bits 2-4.
   */
  function ControlOf(b: Block): Control
    requires b.ControlBlock?
  {
    var delay := Value(b.delay);
    Control(if delay == 0 then 100 else 10 * delay,
            if BitAt([b.packed], 0) == 1 then Some(b.transparentIndex) else None,
            BitsValue([b.packed], 2, 3))
  }

  /** An image block as a frame: its own colour table if bit 7 says it has one, else the global one. */
  function FrameOf(b: Block, gc: Option<Control>, global: Option<seq<Rgb>>): RawFrame
    requires b.ImageBlock?
  {
    NewFrame(Value(b.left), Value(b.top), Value(b.width), Value(b.height), b.packed,
             if HasTable(b.packed) then Some(b.table) else global,
             b.minCodeSize, Flatten(b.chunks), gc)
  }

  /** The Graphic Control Extension pending after block `b`: its own, none after an image, else unchanged. */
  function ControlAfter(b: Block, gc: Option<Control>): Option<Control>
  {
    match b
    case ControlBlock(_, _, _, _, _) => Some(ControlOf(b))
    case ImageBlock(_, _, _, _, _, _, _, _) => None
    case _ => gc
  }

  /** The frames block `b` contributes: one for an image, none otherwise. */
  function FramesOfBlock(b: Block, gc: Option<Control>, global: Option<seq<Rgb>>): seq<RawFrame>
  {
    if b.ImageBlock? then [FrameOf(b, gc, global)] else []
  }

  /**
   * The frames of a block list: each image takes the most recent Graphic
   * Control Extension since the previous image, and the global table when
   * it has no local one; other blocks contribute nothing.
   */
  function FramesOf(bs: seq<Block>, gc: Option<Control>, global: Option<seq<Rgb>>): seq<RawFrame>
  {
    if |bs| == 0 then
      []
    else
      FramesOfBlock(bs[0], gc, global) + FramesOf(bs[1..], ControlAfter(bs[0], gc), global)
  }

  function Interpret(d: Document): Gif
  {
    Gif(Value(d.width), Value(d.height),
        FramesOf(d.blocks, None, if HasTable(d.packed) then Some(d.globalTable) else None))
  }

  // ---------------------------------------------------------------------------
  // Reading back what was written
  // ---------------------------------------------------------------------------

  /** `e` sits in `bytes` at `pos`. */
  predicate Holds(bytes: seq<byte>, pos: nat, e: seq<byte>)
  {
    pos + |e| <= |bytes| && forall i :: 0 <= i < |e| ==> bytes[pos + i] == e[i]
  }

  lemma HoldsAt(bytes: seq<byte>, pos: nat, e: seq<byte>, i: nat)
    requires Holds(bytes, pos, e) && i < |e|
    ensures pos + i < |bytes| && At(bytes, pos + i) == e[i]
  {
  }

  lemma HoldsSplit(bytes: seq<byte>, pos: nat, a: seq<byte>, b: seq<byte>)
    requires Holds(bytes, pos, a + b)
    ensures Holds(bytes, pos, a) && Holds(bytes, pos + |a|, b)
  {
    forall i | 0 <= i < |a|
      ensures bytes[pos + i] == a[i]
    {
      assert (a + b)[i] == a[i];
    }
    forall i | 0 <= i < |b|
      ensures bytes[pos + |a| + i] == b[i]
    {
      assert (a + b)[|a| + i] == b[i];
    }
  }

  lemma WordRoundTrip(bytes: seq<byte>, pos: nat, w: U16)
    requires Holds(bytes, pos, LittleEndian16(w))
    ensures Word(bytes, pos) == Value(w)
  {
    HoldsAt(bytes, pos, LittleEndian16(w), 0);
    HoldsAt(bytes, pos, LittleEndian16(w), 1);
  }

  lemma {:induction false} TableRoundTrip(bytes: seq<byte>, pos: nat, t: seq<Rgb>)
    requires Holds(bytes, pos, EncodeTable(t))
    ensures ReadTable(bytes, pos, |t|) == t
    decreases |t|
  {
    if |t| > 0 {
      var head: seq<byte> := [t[0].r, t[0].g, t[0].b];
      HoldsSplit(bytes, pos, head, EncodeTable(t[1..]));
      TableRoundTrip(bytes, pos + 3, t[1..]);
      HoldsAt(bytes, pos, head, 0);
      HoldsAt(bytes, pos, head, 1);
      HoldsAt(bytes, pos, head, 2);
      var r := ReadTable(bytes, pos, |t|);
      var rest := ReadTable(bytes, pos + 3, |t| - 1);
      forall i | 0 <= i < |t|
        ensures r[i] == t[i]
      {
        if i > 0 {
          assert pos + 3 * i == pos + 3 + 3 * (i - 1);
          assert r[i] == rest[i - 1];
        }
      }
    }
  }

  lemma WindowHolds(bytes: seq<byte>, pos: nat, e: seq<byte>)
    requires Holds(bytes, pos, e)
    ensures Window(bytes, pos, |e|) == e
  {
    var w := Window(bytes, pos, |e|);
    forall i | 0 <= i < |e|
      ensures w[i] == e[i]
    {
      HoldsAt(bytes, pos, e, i);
    }
  }

  /** The first sub-block of an encoding: its size byte, then its data, then the rest. */
  lemma ChunkHead(bytes: seq<byte>, pos: nat, chunks: seq<seq<byte>>)
    requires ChunksOk(chunks) && |chunks| > 0 && Holds(bytes, pos, EncodeChunks(chunks))
    ensures ChunksOk(chunks[1..])
    ensures At(bytes, pos) == |chunks[0]|
    ensures Window(bytes, pos + 1, |chunks[0]|) == chunks[0]
    ensures Holds(bytes, pos + 1 + |chunks[0]|, EncodeChunks(chunks[1..]))
    ensures |EncodeChunks(chunks)| == 1 + |chunks[0]| + |EncodeChunks(chunks[1..])|
  {
    var c := chunks[0];
    var size: seq<byte> := [|c| as byte];
    assert ChunksOk(chunks[1..]);
    var tail := EncodeChunks(chunks[1..]);
    assert EncodeChunks(chunks) == size + (c + tail);
    HoldsSplit(bytes, pos, size, c + tail);
    HoldsSplit(bytes, pos + 1, c, tail);
    HoldsAt(bytes, pos, size, 0);
    WindowHolds(bytes, pos + 1, c);
  }

  /** Reading encoded sub-blocks gives back their data and lands just after them. */
  lemma {:induction false} ChunksRoundTrip(bytes: seq<byte>, pos: nat, chunks: seq<seq<byte>>)
    requires ChunksOk(chunks) && Holds(bytes, pos, EncodeChunks(chunks))
    ensures SubBlocks(bytes, pos) == (Flatten(chunks), pos + |EncodeChunks(chunks)|)
    decreases |chunks|
  {
    if |chunks| == 0 {
      HoldsAt(bytes, pos, [0], 0);
    } else {
      ChunkHead(bytes, pos, chunks);
      ChunksRoundTrip(bytes, pos + 1 + |chunks[0]|, chunks[1..]);
    }
  }

  /** Skipping encoded sub-blocks lands just after them. */
  lemma {:induction false} ChunksSkip(bytes: seq<byte>, pos: nat, chunks: seq<seq<byte>>)
    requires ChunksOk(chunks) && Holds(bytes, pos, EncodeChunks(chunks))
    ensures SkipSubBlocks(bytes, pos) == pos + |EncodeChunks(chunks)|
    decreases |chunks|
  {
    if |chunks| == 0 {
      HoldsAt(bytes, pos, [0], 0);
    } else {
      ChunkHead(bytes, pos, chunks);
      ChunksSkip(bytes, pos + 1 + |chunks[0]|, chunks[1..]);
    }
  }

  /** Any slice of something held is held where it starts. */
  lemma HoldsSlice(bytes: seq<byte>, pos: nat, e: seq<byte>, i: nat, j: nat)
    requires Holds(bytes, pos, e) && i <= j <= |e|
    ensures Holds(bytes, pos + i, e[i..j])
  {
    forall k | 0 <= k < j - i
      ensures bytes[pos + i + k] == e[i..j][k]
    {
      assert bytes[pos + (i + k)] == e[i + k];
    }
  }

  /** A Graphic Control Extension is read as `ControlOf` says and takes 8 bytes. */
  lemma ControlStep(bytes: seq<byte>, pos: nat, b: Block, gc: Option<Control>, global: Option<seq<Rgb>>)
    requires b.ControlBlock? && BlockOk(b) && Holds(bytes, pos, EncodeBlock(b))
    ensures BlockAt(bytes, pos, gc, global) == Next(pos + 8, Some(ControlOf(b)), [])
  {
    var e := EncodeBlock(b);
    HoldsAt(bytes, pos, e, 0);
    HoldsAt(bytes, pos, e, 1);
    HoldsAt(bytes, pos, e, 3);
    HoldsAt(bytes, pos, e, 6);
    HoldsSlice(bytes, pos, e, 4, 6);
    assert e[4..6] == LittleEndian16(b.delay);
    WordRoundTrip(bytes, pos + 4, b.delay);
    assert ReadControl(bytes, pos + 2) == ControlOf(b);
  }

  /** An extension other than a Graphic Control Extension is skipped whole. */
  lemma OtherStep(bytes: seq<byte>, pos: nat, b: Block, gc: Option<Control>, global: Option<seq<Rgb>>)
    requires b.OtherExtension? && BlockOk(b) && Holds(bytes, pos, EncodeBlock(b))
    ensures BlockAt(bytes, pos, gc, global) == Next(pos + |EncodeBlock(b)|, gc, [])
  {
    var e := EncodeBlock(b);
    var head: seq<byte> := [ExtensionIntroducer, b.tag];
    assert e == head + EncodeChunks(b.chunks);
    HoldsSplit(bytes, pos, head, EncodeChunks(b.chunks));
    HoldsAt(bytes, pos, head, 0);
    HoldsAt(bytes, pos, head, 1);
    ChunksSkip(bytes, pos + 2, b.chunks);
  }

  /** A byte that introduces no block is stepped over. */
  lemma FillerStep(bytes: seq<byte>, pos: nat, b: Block, gc: Option<Control>, global: Option<seq<Rgb>>)
    requires b.Filler? && BlockOk(b) && Holds(bytes, pos, EncodeBlock(b))
    ensures BlockAt(bytes, pos, gc, global) == Next(pos + 1, gc, [])
  {
    HoldsAt(bytes, pos, EncodeBlock(b), 0);
  }

  lemma ImageHeadRead(bytes: seq<byte>, pos: nat, b: Block)
    requires b.ImageBlock? && BlockOk(b) && Holds(bytes, pos, ImageHead(b))
    ensures At(bytes, pos) == ImageSeparator && At(bytes, pos + 9) == b.packed
    ensures Word(bytes, pos + 1) == Value(b.left) && Word(bytes, pos + 3) == Value(b.top)
    ensures Word(bytes, pos + 5) == Value(b.width) && Word(bytes, pos + 7) == Value(b.height)
  {
    var e := ImageHead(b);
    HoldsAt(bytes, pos, e, 0);
    HoldsAt(bytes, pos, e, 9);
    HoldsSlice(bytes, pos, e, 1, 3);
    HoldsSlice(bytes, pos, e, 3, 5);
    HoldsSlice(bytes, pos, e, 5, 7);
    HoldsSlice(bytes, pos, e, 7, 9);
    assert e[1..3] == LittleEndian16(b.left);
    assert e[3..5] == LittleEndian16(b.top);
    assert e[5..7] == LittleEndian16(b.width);
    assert e[7..9] == LittleEndian16(b.height);
    WordRoundTrip(bytes, pos + 1, b.left);
    WordRoundTrip(bytes, pos + 3, b.top);
    WordRoundTrip(bytes, pos + 5, b.width);
    WordRoundTrip(bytes, pos + 7, b.height);
  }

  /** Where the parts of an encoded image block sit. */
  lemma ImageParts(bytes: seq<byte>, pos: nat, b: Block)
    requires b.ImageBlock? && BlockOk(b) && Holds(bytes, pos, EncodeBlock(b))
    ensures Holds(bytes, pos, ImageHead(b))
    ensures Holds(bytes, pos + 10, EncodeTable(b.table))
    ensures At(bytes, pos + 10 + 3 * |b.table|) == b.minCodeSize
    ensures Holds(bytes, pos + 11 + 3 * |b.table|, EncodeChunks(b.chunks))
    ensures |EncodeBlock(b)| == 11 + 3 * |b.table| + |EncodeChunks(b.chunks)|
  {
    var head := ImageHead(b);
    var table := EncodeTable(b.table);
    var code: seq<byte> := [b.minCodeSize];
    var chunks := EncodeChunks(b.chunks);
    HoldsSplit(bytes, pos, head + table + code, chunks);
    HoldsSplit(bytes, pos, head + table, code);
    HoldsSplit(bytes, pos, head, table);
    HoldsAt(bytes, pos + 10 + |table|, code, 0);
  }

  /** A colour table written after its packed field reads back, and is skipped, whole. */
  lemma TableAfterRoundTrip(bytes: seq<byte>, flags: nat, pos: nat, packed: byte, t: seq<Rgb>)
    requires At(bytes, flags) == packed && TableOk(packed, t) && Holds(bytes, pos, EncodeTable(t))
    ensures TableAfter(bytes, flags, pos) == if HasTable(packed) then Some(t) else None
    ensures SkipTable(bytes, flags, pos) == pos + 3 * |t|
  {
    if HasTable(packed) {
      TableRoundTrip(bytes, pos, t);
    }
  }

  /** An image block is read back as `FrameOf` says and ends where its encoding ends. */
  lemma ReadImageRoundTrip(bytes: seq<byte>, pos: nat, b: Block, gc: Option<Control>, global: Option<seq<Rgb>>)
    requires b.ImageBlock? && BlockOk(b) && Holds(bytes, pos, EncodeBlock(b))
    ensures At(bytes, pos) == ImageSeparator
    ensures ReadImage(bytes, pos + 1, gc, global) == (FrameOf(b, gc, global), pos + |EncodeBlock(b)|)
  {
    ImageParts(bytes, pos, b);
    ImageHeadRead(bytes, pos, b);
    TableAfterRoundTrip(bytes, pos + 9, pos + 10, b.packed, b.table);
    ChunksRoundTrip(bytes, pos + 11 + 3 * |b.table|, b.chunks);
  }

  lemma ImageStep(bytes: seq<byte>, pos: nat, b: Block, gc: Option<Control>, global: Option<seq<Rgb>>)
    requires b.ImageBlock? && BlockOk(b) && Holds(bytes, pos, EncodeBlock(b))
    ensures BlockAt(bytes, pos, gc, global) == Next(pos + |EncodeBlock(b)|, None, [FrameOf(b, gc, global)])
  {
    ReadImageRoundTrip(bytes, pos, b, gc, global);
  }

  predicate AllOk(bs: seq<Block>)
  {
    forall i :: 0 <= i < |bs| ==> BlockOk(bs[i])
  }

  /** The block loop stops at `pos`: the input ends there or a trailer stands there. */
  predicate StopsAt(bytes: seq<byte>, pos: nat)
  {
    pos >= |bytes| || bytes[pos] == Trailer
  }

  /** The pieces lie one after another in `bytes` from `pos`, the last one ending at `end`. */
  predicate Laid(bytes: seq<byte>, pos: nat, end: nat, parts: seq<seq<byte>>)
    decreases |parts|
  {
    if |parts| == 0 then pos == end else Holds(bytes, pos, parts[0]) && Laid(bytes, pos + |parts[0]|, end, parts[1..])
  }

  /** Concatenated pieces held in `bytes` lie there one after another. */
  lemma {:induction false} FlattenLaid(bytes: seq<byte>, pos: nat, parts: seq<seq<byte>>)
    requires Holds(bytes, pos, Flatten(parts))
    ensures Laid(bytes, pos, pos + |Flatten(parts)|, parts)
    decreases |parts|
  {
    if |parts| > 0 {
      HoldsSplit(bytes, pos, parts[0], Flatten(parts[1..]));
      FlattenLaid(bytes, pos + |parts[0]|, parts[1..]);
    }
  }

  /** Past the first block of a laid-out list the rest is laid out. */
  lemma BlocksHead(bytes: seq<byte>, pos: nat, end: nat, bs: seq<Block>)
    returns (next: nat)
    requires AllOk(bs) && |bs| > 0 && Laid(bytes, pos, end, BlockParts(bs))
    ensures BlockOk(bs[0]) && AllOk(bs[1..])
    ensures Holds(bytes, pos, EncodeBlock(bs[0])) && next == pos + |EncodeBlock(bs[0])|
    ensures Laid(bytes, next, end, BlockParts(bs[1..]))
  {
    assert BlockOk(bs[0]) && AllOk(bs[1..]);
    var parts := BlockParts(bs);
    assert parts[0] == EncodeBlock(bs[0]);
    assert parts[1..] == BlockParts(bs[1..]);
    next := pos + |EncodeBlock(bs[0])|;
  }

  lemma FramesOfCons(frames: seq<RawFrame>, bs: seq<Block>, gc: Option<Control>, global: Option<seq<Rgb>>)
    requires |bs| > 0
    ensures (frames + FramesOfBlock(bs[0], gc, global)) + FramesOf(bs[1..], ControlAfter(bs[0], gc), global)
         == frames + FramesOf(bs, gc, global)
  {
    var here := FramesOfBlock(bs[0], gc, global);
    var rest := FramesOf(bs[1..], ControlAfter(bs[0], gc), global);
    assert (frames + here) + rest == frames + (here + rest);
  }

  /** One pass of the block loop over an encoded block moves past it, as `ControlAfter` and `FramesOfBlock` say. */
  lemma BlockStep(bytes: seq<byte>, pos: nat, b: Block, gc: Option<Control>, global: Option<seq<Rgb>>)
    requires BlockOk(b) && Holds(bytes, pos, EncodeBlock(b))
    ensures BlockAt(bytes, pos, gc, global) == Next(pos + |EncodeBlock(b)|, ControlAfter(b, gc), FramesOfBlock(b, gc, global))
  {
    match b
    case ControlBlock(_, _, _, _, _) =>
      ControlStep(bytes, pos, b, gc, global);
    case ImageBlock(_, _, _, _, _, _, _, _) =>
      ImageStep(bytes, pos, b, gc, global);
    case OtherExtension(_, _) =>
      OtherStep(bytes, pos, b, gc, global);
    case Filler(_) =>
      FillerStep(bytes, pos, b, gc, global);
  }

  /** The block loop over an encoded block list collects exactly `FramesOf` that list. */
  /** The block loop over a laid-out list moves past its first block. */
  lemma BlocksNext(bytes: seq<byte>, pos: nat, end: nat, bs: seq<Block>,
                   gc: Option<Control>, global: Option<seq<Rgb>>, frames: seq<RawFrame>)
    returns (next: nat)
    requires AllOk(bs) && |bs| > 0 && Laid(bytes, pos, end, BlockParts(bs))
    ensures AllOk(bs[1..]) && Laid(bytes, next, end, BlockParts(bs[1..]))
    ensures Blocks(bytes, pos, gc, global, frames)
         == Blocks(bytes, next, ControlAfter(bs[0], gc), global, frames + FramesOfBlock(bs[0], gc, global))
  {
    next := BlocksHead(bytes, pos, end, bs);
    BlockStep(bytes, pos, bs[0], gc, global);
  }

  lemma {:induction false} BlocksRoundTrip(bytes: seq<byte>, pos: nat, end: nat, bs: seq<Block>,
                                           gc: Option<Control>, global: Option<seq<Rgb>>, frames: seq<RawFrame>)
    requires AllOk(bs) && Laid(bytes, pos, end, BlockParts(bs)) && StopsAt(bytes, end)
    ensures Blocks(bytes, pos, gc, global, frames) == frames + FramesOf(bs, gc, global)
    decreases |bs|
  {
    if |bs| == 0 {
      assert frames + [] == frames;
    } else {
      var next := BlocksNext(bytes, pos, end, bs, gc, global, frames);
      BlocksRoundTrip(bytes, next, end, bs[1..], ControlAfter(bs[0], gc), global, frames + FramesOfBlock(bs[0], gc, global));
      FramesOfCons(frames, bs, gc, global);
    }
  }

  lemma HeaderRead(bytes: seq<byte>, d: Document)
    requires DocumentOk(d) && Holds(bytes, 0, EncodeHeader(d))
    ensures IsGifSignature(bytes)
    ensures Word(bytes, 6) == Value(d.width) && Word(bytes, 8) == Value(d.height) && At(bytes, 10) == d.packed
  {
    var e := EncodeHeader(d);
    HoldsAt(bytes, 0, e, 0);
    HoldsAt(bytes, 0, e, 1);
    HoldsAt(bytes, 0, e, 2);
    HoldsAt(bytes, 0, e, 10);
    HoldsSlice(bytes, 0, e, 6, 8);
    HoldsSlice(bytes, 0, e, 8, 10);
    assert e[6..8] == LittleEndian16(d.width);
    assert e[8..10] == LittleEndian16(d.height);
    WordRoundTrip(bytes, 6, d.width);
    WordRoundTrip(bytes, 8, d.height);
  }

  lemma HoldsWhole(bytes: seq<byte>)
    ensures Holds(bytes, 0, bytes)
  {
  }

  lemma HoldsFour(bytes: seq<byte>, a: seq<byte>, b: seq<byte>, c: seq<byte>, t: seq<byte>)
    requires Holds(bytes, 0, a + (b + (c + t)))
    ensures Holds(bytes, 0, a) && Holds(bytes, |a|, b) && Holds(bytes, |a| + |b|, c)
    ensures Holds(bytes, |a| + |b| + |c|, t)
  {
    HoldsSplit(bytes, 0, a, b + (c + t));
    HoldsSplit(bytes, |a|, b, c + t);
    HoldsSplit(bytes, |a| + |b|, c, t);
  }

  function TrailerPart(d: Document): (e: seq<byte>)
    ensures d.trailer.Some? <==> |e| > 0
    ensures d.trailer.Some? ==> e[0] == Trailer
  {
    if d.trailer.Some? then [Trailer] + d.trailer.value else []
  }

  /** An encoded file: header, global colour table, blocks, then the optional trailer part. */
  lemma EncodeShape(d: Document)
    requires DocumentOk(d)
    ensures Encode(d) == EncodeHeader(d) + (EncodeTable(d.globalTable) + (EncodeBlocks(d.blocks) + TrailerPart(d)))
  {
  }

  /** Where the parts of an encoded file sit. */
  lemma DocumentParts(d: Document)
    requires DocumentOk(d)
    ensures var bytes := Encode(d);
      && Holds(bytes, 0, EncodeHeader(d))
      && Holds(bytes, 13, EncodeTable(d.globalTable))
      && Holds(bytes, 13 + 3 * |d.globalTable|, EncodeBlocks(d.blocks))
      && Holds(bytes, 13 + 3 * |d.globalTable| + |EncodeBlocks(d.blocks)|, TrailerPart(d))
  {
    EncodeShape(d);
    HoldsWhole(Encode(d));
    HoldsFour(Encode(d), EncodeHeader(d), EncodeTable(d.globalTable), EncodeBlocks(d.blocks), TrailerPart(d));
  }

  /** After the blocks of an encoded file the block loop stops: at the trailer, or at the end. */
  lemma DocumentStops(d: Document)
    requires DocumentOk(d)
    ensures StopsAt(Encode(d), 13 + 3 * |d.globalTable| + |EncodeBlocks(d.blocks)|)
  {
    DocumentParts(d);
    var p := 13 + 3 * |d.globalTable| + |EncodeBlocks(d.blocks)|;
    if d.trailer.Some? {
      HoldsAt(Encode(d), p, TrailerPart(d), 0);
    } else {
      EncodeShape(d);
    }
  }

  /**
   * Parsing the encoding of a well-formed file succeeds with the screen size
   * written and exactly the frames the block list describes.
   */
  lemma ParseRoundTrip(d: Document)
    requires DocumentOk(d)
    ensures Parse(Encode(d)) == Success(Interpret(d))
  {
    var bytes := Encode(d);
    DocumentParts(d);
    DocumentStops(d);
    HeaderRead(bytes, d);
    var global := if HasTable(d.packed) then Some(d.globalTable) else None;
    TableAfterRoundTrip(bytes, 10, 13, d.packed, d.globalTable);
    var start := 13 + 3 * |d.globalTable|;
    FlattenLaid(bytes, start, BlockParts(d.blocks));
    BlocksRoundTrip(bytes, start, start + |EncodeBlocks(d.blocks)|, d.blocks, None, global, []);
    assert [] + FramesOf(d.blocks, None, global) == FramesOf(d.blocks, None, global);
    ParseOf(bytes, global, start, FramesOf(d.blocks, None, global));
  }

  /** `Parse` assembled from its parts. */
  lemma ParseOf(bytes: seq<byte>, global: Option<seq<Rgb>>, start: nat, frames: seq<RawFrame>)
    requires IsGifSignature(bytes) && TableAfter(bytes, 10, 13) == global && SkipTable(bytes, 10, 13) == start
    requires Blocks(bytes, start, None, global, []) == frames
    ensures Parse(bytes) == Success(Gif(Word(bytes, 6), Word(bytes, 8), frames))
  {
  }
}

=== FILE: gif_parser.dfy ===
/**
 * `parseGIF`: the GIF89a block structure read into a logical screen size and
 * a list of raw frames (each still LZW-compressed).
 *
 * The source reads with `bytes[pos++]` and never checks the length: a read
 * past the end yields `undefined`, which every later use turns into 0 (a
 * bitwise operator, a `Uint8Array` store, a `> 0` test). `At` models that.
 * The one place where `undefined` is not 0 is the transparent index of a
 * Graphic Control Extension, which then matches no colour index; there the
 * model has `None`.
 */
module GifParser {
  import opened Bits
  import opened Wrappers

  datatype Rgb = Rgb(r: byte, g: byte, b: byte)

  /** What a Graphic Control Extension contributes to the next image. */
  datatype Control = Control(delay: nat, transparent: Option<byte>, disposal: nat)

  /** One image as stored in the file: descriptor, colour table and compressed data. */
  datatype RawFrame = RawFrame(
    left: nat, top: nat, width: nat, height: nat,
    colorTable: Option<seq<Rgb>>,
    minCodeSize: byte,
    data: seq<byte>,
    delay: nat,
    disposal: nat,
    transparent: Option<byte>,
    interlaced: bool)

  datatype Gif = Gif(width: nat, height: nat, frames: seq<RawFrame>)

  datatype ParseError = InvalidGif

  const ExtensionIntroducer: byte := 0x21
  const ImageSeparator: byte := 0x2C
  const Trailer: byte := 0x3B
  const GraphicControlLabel: byte := 0xF9

  /** `bytes[pos]`, with a read past the end giving 0. */
  function At(bytes: seq<byte>, pos: nat): (b: byte)
    ensures pos < |bytes| ==> b == bytes[pos]
    ensures pos >= |bytes| ==> b == 0
  {
    if pos < |bytes| then bytes[pos] else 0
  }

  /** `readByte() | (readByte() << 8)`: a little-endian 16-bit word. */
  function Word(bytes: seq<byte>, pos: nat): (w: nat)
    ensures w < 0x1_0000
  {
    At(bytes, pos) + 256 * At(bytes, pos + 1)
  }

  /** `n` bytes from `pos`, each read as `At` reads it. */
  function Window(bytes: seq<byte>, pos: nat, n: nat): (w: seq<byte>)
    ensures |w| == n && forall i :: 0 <= i < n ==> w[i] == At(bytes, pos + i)
  {
    seq<byte>(n, i requires 0 <= i < n => At(bytes, pos + i))
  }

  /** Bit 7 of a packed field: a colour table follows. */
  predicate HasTable(packed: byte) { packed >= 0x80 }

  /** `2 << (packed & 0x07)` entries. */
  function TableSize(packed: byte): (n: nat)
    ensures 2 <= n <= 256
  {
    Pow2Small();
    Pow2Monotone(packed % 8 + 1, 8);
    Pow2Monotone(1, packed % 8 + 1);
    Pow2(packed % 8 + 1)
  }

  /** `n` colour triples starting at `pos`. */
  function ReadTable(bytes: seq<byte>, pos: nat, n: nat): (t: seq<Rgb>)
    ensures |t| == n
    ensures forall i :: 0 <= i < n ==>
      t[i] == Rgb(At(bytes, pos + 3 * i), At(bytes, pos + 3 * i + 1), At(bytes, pos + 3 * i + 2))
  {
    seq(n, i requires 0 <= i < n => Rgb(At(bytes, pos + 3 * i), At(bytes, pos + 3 * i + 1), At(bytes, pos + 3 * i + 2)))
  }

  /**
   * The fields of a Graphic Control Extension: delay in hundredths of a
   * second scaled to milliseconds, 0 replaced by 100; the transparent index
   * when bit 0 of the packed field is set; disposal method from bits 2-4.
   */
  function MakeControl(packed: byte, delay: nat, transparentIndex: Option<byte>): (c: Control)
    ensures c.delay > 0 && c.disposal < 8
    ensures c.delay == if delay == 0 then 100 else 10 * delay
    ensures c.transparent == if BitAt([packed], 0) == 1 then transparentIndex else None
    ensures c.disposal == BitsValue([packed], 2, 3)
  {
    PackedFields(packed);
    Control(if delay * 10 == 0 then 100 else delay * 10,
            if packed % 2 == 1 then transparentIndex else None,
            (packed / 4) % 8)
  }

  /** The Graphic Control Extension whose block-size byte is at `pos`. */
  function ReadControl(bytes: seq<byte>, pos: nat): Control
  {
    MakeControl(At(bytes, pos + 1), Word(bytes, pos + 2),
                if pos + 4 < |bytes| then Some(bytes[pos + 4]) else None)
  }

  /**
   * Data sub-blocks from `pos`: each a size byte and that many bytes, until a
   * size of 0. Returns the concatenated data and the position after the
   * terminator.
   */
  function SubBlocks(bytes: seq<byte>, pos: nat): (r: (seq<byte>, nat))
    ensures r.1 > pos
    decreases |bytes| - pos
  {
    var n := At(bytes, pos);
    if n == 0 then
      ([], pos + 1)
    else
      var rest := SubBlocks(bytes, pos + 1 + n);
      (Window(bytes, pos + 1, n) + rest.0, rest.1)
  }

  /** The loop that skips an unknown extension: `pos += blockSize` without reading the data. */
  function SkipSubBlocks(bytes: seq<byte>, pos: nat): (next: nat)
    ensures next > pos
    decreases |bytes| - pos
  {
    var n := At(bytes, pos);
    if n == 0 then pos + 1 else SkipSubBlocks(bytes, pos + 1 + n)
  }

  /**
   * The colour table whose packed field is at `flags` and whose entries
   * would start at `pos`: present exactly when bit 7 is set.
   */
  function TableAfter(bytes: seq<byte>, flags: nat, pos: nat): (t: Option<seq<Rgb>>)
    ensures t.Some? <==> HasTable(At(bytes, flags))
    ensures t.Some? ==> t.value == ReadTable(bytes, pos, TableSize(At(bytes, flags)))
  {
    var packed := At(bytes, flags);
    if HasTable(packed) then Some(ReadTable(bytes, pos, TableSize(packed))) else None
  }

  /** The position after that colour table: `pos` itself when there is none. */
  function SkipTable(bytes: seq<byte>, flags: nat, pos: nat): (next: nat)
    ensures next == pos + if HasTable(At(bytes, flags)) then 3 * TableSize(At(bytes, flags)) else 0
  {
    var packed := At(bytes, flags);
    pos + (if HasTable(packed) then 3 * TableSize(packed) else 0)
  }

  /**
   * The image whose descriptor starts at `pos` (just after the separator),
   * given the pending Graphic Control Extension and the global colour table;
   * also the position after its data.
   */
  function ReadImage(bytes: seq<byte>, pos: nat, gc: Option<Control>, global: Option<seq<Rgb>>)
    : (r: (RawFrame, nat))
    ensures r.1 > pos
  {
    var local := TableAfter(bytes, pos + 8, pos + 9);
    var codePos := SkipTable(bytes, pos + 8, pos + 9);
    var data := SubBlocks(bytes, codePos + 1);
    var frame := NewFrame(
      Word(bytes, pos), Word(bytes, pos + 2), Word(bytes, pos + 4), Word(bytes, pos + 6),
      At(bytes, pos + 8), if local.Some? then local else global, At(bytes, codePos), data.0, gc);
    (frame, data.1)
  }

  /**
   * The frame record: timing, disposal and transparency from the pending
   * Graphic Control Extension if there is one (else delay 100, disposal 0,
   * no transparency), the interlace flag from bit 6 of the packed field.
   */
  function NewFrame(left: nat, top: nat, width: nat, height: nat, packed: byte,
                    colorTable: Option<seq<Rgb>>, minCodeSize: byte, data: seq<byte>,
                    gc: Option<Control>): RawFrame
  {
    RawFrame(left, top, width, height, colorTable, minCodeSize, data,
             if gc.Some? then gc.value.delay else 100,
             if gc.Some? then gc.value.disposal else 0,
             if gc.Some? then gc.value.transparent else None,
             (packed / 64) % 2 == 1)
  }

  /** What one pass of the block loop does: stop, or move on with the frames it found. */
  datatype Step = Stop | Next(pos: nat, gc: Option<Control>, found: seq<RawFrame>)

  /**
   * One pass of the block loop at `pos`: a Graphic Control Extension is read
   * and kept for the next image, any other extension is skipped, an image is
   * read, the trailer or the end of the input stops the loop, and any other
   * byte is stepped over.
   */
  function BlockAt(bytes: seq<byte>, pos: nat, gc: Option<Control>, global: Option<seq<Rgb>>): (s: Step)
    ensures s.Stop? <==> pos >= |bytes| || bytes[pos] == Trailer
    ensures s.Next? ==> s.pos > pos && |s.found| <= 1
  {
    if pos >= |bytes| then
      Stop
    else if bytes[pos] == ExtensionIntroducer then
      if At(bytes, pos + 1) == GraphicControlLabel then
        Next(pos + 8, Some(ReadControl(bytes, pos + 2)), [])
      else
        Next(SkipSubBlocks(bytes, pos + 2), gc, [])
    else if bytes[pos] == ImageSeparator then
      var image := ReadImage(bytes, pos + 1, gc, global);
      Next(image.1, None, [image.0])
    else if bytes[pos] == Trailer then
      Stop
    else
      Next(pos + 1, gc, [])
  }

  /**
   * An image block yields one frame and spends the pending Graphic Control
   * Extension: the frame takes the control's delay, disposal and
   * transparency (delay 100, disposal 0, none without one), its local colour
   * table of `2 << n` entries when bit 7 is set and the global one
   * otherwise, and the next image starts with no control.
   */
  lemma ImageSpendsControl(bytes: seq<byte>, pos: nat, gc: Option<Control>, global: Option<seq<Rgb>>)
    requires pos < |bytes| && bytes[pos] == ImageSeparator
    ensures var s := BlockAt(bytes, pos, gc, global);
      var packed := At(bytes, pos + 9);
      && s.Next? && s.gc.None? && |s.found| == 1
      && s.found[0].width == Word(bytes, pos + 5) && s.found[0].height == Word(bytes, pos + 7)
      && s.found[0].delay == (if gc.Some? then gc.value.delay else 100)
      && s.found[0].disposal == (if gc.Some? then gc.value.disposal else 0)
      && s.found[0].transparent == (if gc.Some? then gc.value.transparent else None)
      && s.found[0].colorTable == (if HasTable(packed) then Some(ReadTable(bytes, pos + 10, TableSize(packed))) else global)
      && (HasTable(packed) ==> |s.found[0].colorTable.value| == TableSize(packed))
  {
  }

  /** The block loop from `pos`: the frames found are appended to `frames`. */
  function Blocks(bytes: seq<byte>, pos: nat, gc: Option<Control>, global: Option<seq<Rgb>>,
                  frames: seq<RawFrame>): (r: seq<RawFrame>)
    ensures |r| >= |frames| && r[..|frames|] == frames
    decreases |bytes| - pos
  {
    match BlockAt(bytes, pos, gc, global)
    case Stop => frames
    case Next(next, gc', found) => Blocks(bytes, next, gc', global, frames + found)
  }

  /** The signature check of the header: the first three bytes spell "GIF". */
  predicate IsGifSignature(bytes: seq<byte>)
  {
    |bytes| >= 3 && bytes[0] == 'G' as byte && bytes[1] == 'I' as byte && bytes[2] == 'F' as byte
  }

  /**
   * `parseGIF(arrayBuffer)`: fails exactly when the signature is missing;
   * otherwise the logical screen size and every image found.
   */
  function Parse(bytes: seq<byte>): (r: Result<Gif, ParseError>)
    ensures r.Failure? <==> !IsGifSignature(bytes)
    ensures r.Success? ==> r.value.width == Word(bytes, 6) && r.value.height == Word(bytes, 8)
  {
    if !IsGifSignature(bytes) then
      Failure(InvalidGif)
    else
      Success(Gif(Word(bytes, 6), Word(bytes, 8), Blocks(bytes, SkipTable(bytes, 10, 13), None, TableAfter(bytes, 10, 13), [])))
  }
}

=== FILE: interlace.dfy ===
/**
 * `deinterlace`: an interlaced GIF image stores its rows in four passes —
 * every 8th row from row 0, every 8th row from row 4, every 4th row from
 * row 2, every 2nd row from row 1 (GIF89a Appendix E). Row `srcRow` of the
 * decoded data is copied to the row the passes reach `srcRow`-th.
 *
 * The image is handled row by row here; `Rows` and `Join` convert to and
 * from the flat row-major buffer the decoder works on.
 */
module Interlace {
  import opened Bits

  /** `for (let y = start; y < height; y += step)`: the rows one pass visits, in order. */
  function PassRows(height: nat, start: nat, step: nat): (rows: seq<nat>)
    requires step > 0
    decreases height - start
  {
    if start >= height then [] else [start] + PassRows(height, start + step, step)
  }

  /** The destination row of each source row: the four passes one after another. */
  function RowOrder(height: nat): (order: seq<nat>)
    ensures |order| == height
    ensures forall i :: 0 <= i < height ==> order[i] < height
  {
    var p0, p1, p2, p3 := PassRows(height, 0, 8), PassRows(height, 4, 8), PassRows(height, 2, 4), PassRows(height, 1, 2);
    PassesInRange(height, p0, p1, p2, p3);
    p0 + p1 + p2 + p3
  }

  /** The four passes together visit `height` rows, each below `height`. */
  lemma PassesInRange(height: nat, p0: seq<nat>, p1: seq<nat>, p2: seq<nat>, p3: seq<nat>)
    requires p0 == PassRows(height, 0, 8) && p1 == PassRows(height, 4, 8)
    requires p2 == PassRows(height, 2, 4) && p3 == PassRows(height, 1, 2)
    ensures |p0 + p1 + p2 + p3| == height
    ensures forall i :: 0 <= i < height ==> (p0 + p1 + p2 + p3)[i] < height
  {
    PassCounts(height);
    FitsSum(height, Counts(height), |p3|);
    PassRowsShape(height, 0, 8);
    PassRowsShape(height, 4, 8);
    PassRowsShape(height, 2, 4);
    PassRowsShape(height, 1, 2);
    forall i | 0 <= i < height
      ensures (p0 + p1 + p2 + p3)[i] < height
    {
      if i < |p0| {
        assert (p0 + p1 + p2 + p3)[i] == p0[i];
      } else if i < |p0| + |p1| {
        assert (p0 + p1 + p2 + p3)[i] == p1[i - |p0|];
      } else if i < |p0| + |p1| + |p2| {
        assert (p0 + p1 + p2 + p3)[i] == p2[i - |p0| - |p1|];
      } else {
        assert (p0 + p1 + p2 + p3)[i] == p3[i - |p0| - |p1| - |p2|];
      }
    }
  }

  /** The number of rows each pass visits. */
  function Counts(height: nat): (nat, nat, nat)
  {
    (|PassRows(height, 0, 8)|, |PassRows(height, 4, 8)|, |PassRows(height, 2, 4)|)
  }

  /**
   * Which source row lands on destination row `y`, given how many rows the
   * first three passes visit: the pass `y` belongs to by its residue modulo
   * 8, after the rows of all earlier passes.
   */
  function SourceOf(c: (nat, nat, nat), y: nat): nat
  {
    var q, r := y / 8, y % 8;
    if r == 0 then q
    else if r == 4 then c.0 + q
    else if r == 2 || r == 6 then c.0 + c.1 + 2 * q + r / 4
    else c.0 + c.1 + c.2 + 4 * q + r / 2
  }

  /** Where source row `i` lands, given the same counts: its pass, then its place in that pass. */
  function DestOf(c: (nat, nat, nat), i: nat): nat
  {
    if i < c.0 then 8 * i
    else if i < c.0 + c.1 then 4 + 8 * (i - c.0)
    else if i < c.0 + c.1 + c.2 then 2 + 4 * (i - c.0 - c.1)
    else 1 + 2 * (i - c.0 - c.1 - c.2)
  }

  /** The source row that `deinterlace` copies to row `y`. */
  function SourceRow(height: nat, y: nat): (src: nat)
    ensures y < height ==> src < height
  {
    PassCounts(height);
    if y < height then DestOfSource(height, Counts(height), |PassRows(height, 1, 2)|, y); SourceOf(Counts(height), y)
    else SourceOf(Counts(height), y)
  }

  /**
   * Row `i` of a pass is `start + i * step`, below `height`; the row after
   * the last would not be.
   */
  lemma {:induction false} PassRowsShape(height: nat, start: nat, step: nat)
    requires step > 0
    ensures var rows := PassRows(height, start, step);
      && (forall i :: 0 <= i < |rows| ==> rows[i] == start + i * step < height)
      && start + |rows| * step >= height
      && (|rows| > 0 ==> start + (|rows| - 1) * step < height)
    decreases height - start
  {
    if start < height {
      PassRowsShape(height, start + step, step);
      var rows := PassRows(height, start, step);
      var rest := PassRows(height, start + step, step);
      forall i | 0 <= i < |rows|
        ensures rows[i] == start + i * step < height
      {
        if i > 0 {
          assert rows[i] == rest[i - 1];
          MulSucc(i - 1, step);
        }
      }
      assert |rows| == |rest| + 1;
      MulSucc(|rest|, step);
    }
  }

  /** Each pass visits the fewest rows that take it to `height` or beyond. */
  predicate Fits(height: nat, c: (nat, nat, nat), c3: nat)
  {
    && c.0 * 8 >= height && (c.0 > 0 ==> (c.0 - 1) * 8 < height)
    && 4 + c.1 * 8 >= height && (c.1 > 0 ==> 4 + (c.1 - 1) * 8 < height)
    && 2 + c.2 * 4 >= height && (c.2 > 0 ==> 2 + (c.2 - 1) * 4 < height)
    && 1 + c3 * 2 >= height && (c3 > 0 ==> 1 + (c3 - 1) * 2 < height)
  }

  lemma PassCounts(height: nat)
    ensures Fits(height, Counts(height), |PassRows(height, 1, 2)|)
  {
    PassRowsShape(height, 0, 8);
    PassRowsShape(height, 4, 8);
    PassRowsShape(height, 2, 4);
    PassRowsShape(height, 1, 2);
  }

  /** Counting argument: the four passes visit `height` rows in all. */
  lemma FitsSum(height: nat, c: (nat, nat, nat), c3: nat)
    requires Fits(height, c, c3)
    ensures c.0 + c.1 + c.2 + c3 == height
  {
    var q, r := height / 8, height % 8;
    Euclid(height, q, r);
    if r == 0 {
      assert c.0 == q && c.1 == q && c.2 == 2 * q && c3 == 4 * q;
    } else if r == 1 {
      assert c.0 == q + 1 && c.1 == q && c.2 == 2 * q && c3 == 4 * q;
    } else if r == 2 {
      assert c.0 == q + 1 && c.1 == q && c.2 == 2 * q && c3 == 4 * q + 1;
    } else if r == 3 {
      assert c.0 == q + 1 && c.1 == q && c.2 == 2 * q + 1 && c3 == 4 * q + 1;
    } else if r == 4 {
      assert c.0 == q + 1 && c.1 == q && c.2 == 2 * q + 1 && c3 == 4 * q + 2;
    } else if r == 5 {
      assert c.0 == q + 1 && c.1 == q + 1 && c.2 == 2 * q + 1 && c3 == 4 * q + 2;
    } else if r == 6 {
      assert c.0 == q + 1 && c.1 == q + 1 && c.2 == 2 * q + 1 && c3 == 4 * q + 3;
    } else {
      assert c.0 == q + 1 && c.1 == q + 1 && c.2 == 2 * q + 2 && c3 == 4 * q + 3;
    }
  }

  /** Every destination row is reached from a source row that lands exactly there. */
  lemma DestOfSource(height: nat, c: (nat, nat, nat), c3: nat, y: nat)
    requires Fits(height, c, c3) && y < height
    ensures SourceOf(c, y) < height && DestOf(c, SourceOf(c, y)) == y
  {
    var q, r := y / 8, y % 8;
    Euclid(y, q, r);
    if r == 0 {
      RoundTrip0(height, c, c3, y, q);
    } else if r == 4 {
      RoundTrip1(height, c, c3, y, q);
    } else if r == 2 || r == 6 {
      RoundTrip2(height, c, c3, y, 2 * q + r / 4);
    } else {
      RoundTrip3(height, c, c3, y, 4 * q + r / 2);
    }
  }

  lemma RoundTrip0(height: nat, c: (nat, nat, nat), c3: nat, y: nat, k: nat)
    requires Fits(height, c, c3) && y < height && y == 8 * k
    ensures SourceOf(c, y) < height && DestOf(c, SourceOf(c, y)) == y
  {
    SourceInPass0(c, k);
    DestInPass0(height, c, c3, k);
  }

  lemma RoundTrip1(height: nat, c: (nat, nat, nat), c3: nat, y: nat, k: nat)
    requires Fits(height, c, c3) && y < height && y == 8 * k + 4
    ensures SourceOf(c, y) < height && DestOf(c, SourceOf(c, y)) == y
  {
    SourceInPass1(c, k);
    DestInPass1(height, c, c3, k);
  }

  lemma RoundTrip2(height: nat, c: (nat, nat, nat), c3: nat, y: nat, k: nat)
    requires Fits(height, c, c3) && y < height && y == 4 * k + 2
    ensures SourceOf(c, y) < height && DestOf(c, SourceOf(c, y)) == y
  {
    SourceInPass2(c, k);
    DestInPass2(height, c, c3, k);
  }

  lemma RoundTrip3(height: nat, c: (nat, nat, nat), c3: nat, y: nat, k: nat)
    requires Fits(height, c, c3) && y < height && y == 2 * k + 1
    ensures SourceOf(c, y) < height && DestOf(c, SourceOf(c, y)) == y
  {
    SourceInPass3(c, k);
    DestInPass3(height, c, c3, k);
  }

  lemma DestInPass0(height: nat, c: (nat, nat, nat), c3: nat, k: nat)
    requires Fits(height, c, c3) && 8 * k < height
    ensures k < height && DestOf(c, k) == 8 * k
  {
  }

  lemma DestInPass1(height: nat, c: (nat, nat, nat), c3: nat, k: nat)
    requires Fits(height, c, c3) && 8 * k + 4 < height
    ensures c.0 + k < height && DestOf(c, c.0 + k) == 8 * k + 4
  {
    FitsSum(height, c, c3);
  }

  lemma DestInPass2(height: nat, c: (nat, nat, nat), c3: nat, k: nat)
    requires Fits(height, c, c3) && 4 * k + 2 < height
    ensures c.0 + c.1 + k < height && DestOf(c, c.0 + c.1 + k) == 4 * k + 2
  {
    FitsSum(height, c, c3);
  }

  lemma DestInPass3(height: nat, c: (nat, nat, nat), c3: nat, k: nat)
    requires Fits(height, c, c3) && 2 * k + 1 < height
    ensures c.0 + c.1 + c.2 + k < height && DestOf(c, c.0 + c.1 + c.2 + k) == 2 * k + 1
  {
    FitsSum(height, c, c3);
  }

  /** Every source row lands on a row below `height` that leads back to it. */
  lemma SourceOfDest(height: nat, c: (nat, nat, nat), c3: nat, i: nat)
    requires Fits(height, c, c3) && i < height
    ensures DestOf(c, i) < height && SourceOf(c, DestOf(c, i)) == i
  {
    FitsSum(height, c, c3);
    if i < c.0 {
      SourceInPass0(c, i);
    } else if i < c.0 + c.1 {
      SourceInPass1(c, i - c.0);
    } else if i < c.0 + c.1 + c.2 {
      SourceInPass2(c, i - c.0 - c.1);
    } else {
      LandsInPass3(height, c, c3, i);
    }
  }

  lemma LandsInPass3(height: nat, c: (nat, nat, nat), c3: nat, i: nat)
    requires Fits(height, c, c3) && c.0 + c.1 + c.2 <= i < height
    requires c.0 + c.1 + c.2 + c3 == height
    ensures DestOf(c, i) < height && SourceOf(c, DestOf(c, i)) == i
  {
    SourceInPass3(c, i - c.0 - c.1 - c.2);
  }

  /** Euclidean division by 8, stated once. */
  lemma Euclid(y: nat, q: nat, r: nat)
    requires y == 8 * q + r && r < 8
    ensures y / 8 == q && y % 8 == r
  {
  }

  lemma SourceInPass0(c: (nat, nat, nat), k: nat)
    ensures SourceOf(c, 8 * k) == k
  {
    Euclid(8 * k, k, 0);
  }

  lemma SourceInPass1(c: (nat, nat, nat), k: nat)
    ensures SourceOf(c, 8 * k + 4) == c.0 + k
  {
    Euclid(8 * k + 4, k, 4);
  }

  lemma SourceInPass2(c: (nat, nat, nat), k: nat)
    ensures SourceOf(c, 4 * k + 2) == c.0 + c.1 + k
  {
    var q, b := k / 2, k % 2;
    Euclid(4 * k + 2, q, 4 * b + 2);
  }

  lemma SourceInPass3(c: (nat, nat, nat), k: nat)
    ensures SourceOf(c, 2 * k + 1) == c.0 + c.1 + c.2 + k
  {
    var q, b := k / 4, k % 4;
    Euclid(2 * k + 1, q, 2 * b + 1);
  }

  /** The pass order, position by position, is `DestOf`. */
  lemma RowOrderAt(height: nat, i: nat)
    requires i < |RowOrder(height)|
    ensures RowOrder(height)[i] == DestOf(Counts(height), i)
  {
    PassRowsShape(height, 0, 8);
    PassRowsShape(height, 4, 8);
    PassRowsShape(height, 2, 4);
    PassRowsShape(height, 1, 2);
    var p0, p1, p2, p3 := PassRows(height, 0, 8), PassRows(height, 4, 8), PassRows(height, 2, 4), PassRows(height, 1, 2);
    assert RowOrder(height) == p0 + p1 + p2 + p3;
    if i < |p0| {
      assert RowOrder(height)[i] == p0[i];
    } else if i < |p0| + |p1| {
      assert RowOrder(height)[i] == p1[i - |p0|];
    } else if i < |p0| + |p1| + |p2| {
      assert RowOrder(height)[i] == p2[i - |p0| - |p1|];
    } else {
      assert RowOrder(height)[i] == p3[i - |p0| - |p1| - |p2|];
    }
  }

  /** The pass order puts source row `SourceRow(height, y)` on row `y`. */
  lemma SourceRowLands(height: nat, y: nat)
    requires y < height
    ensures RowOrder(height)[SourceRow(height, y)] == y
  {
    PassCounts(height);
    DestOfSource(height, Counts(height), |PassRows(height, 1, 2)|, y);
    RowOrderAt(height, SourceRow(height, y));
  }

  /** The pass order visits every row below `height` exactly once. */
  lemma RowOrderPermutation(height: nat)
    ensures forall i, j :: 0 <= i < j < height ==> RowOrder(height)[i] != RowOrder(height)[j]
    ensures forall y :: 0 <= y < height ==> y in RowOrder(height)
  {
    PassCounts(height);
    var c, c3 := Counts(height), |PassRows(height, 1, 2)|;
    var order := RowOrder(height);
    forall i | 0 <= i < height
      ensures SourceOf(c, order[i]) == i
    {
      RowOrderAt(height, i);
      SourceOfDest(height, c, c3, i);
    }
    forall y | 0 <= y < height
      ensures y in order
    {
      SourceRowLands(height, y);
    }
  }

  /** For eight rows the passes give the order 0, 4, 2, 6, 1, 3, 5, 7. */
  lemma EightRows()
    ensures RowOrder(8) == [0, 4, 2, 6, 1, 3, 5, 7]
  {
    assert PassRows(8, 8, 8) == [] && PassRows(8, 12, 8) == [];
    assert PassRows(8, 0, 8) == [0];
    assert PassRows(8, 4, 8) == [4];
    assert PassRows(8, 2, 4) == [2, 6];
    assert PassRows(8, 1, 2) == [1, 3, 5, 7];
  }

  /**
   * The copy loop over rows: the `j`-th row of `order` receives source row
   * `src + j`. Rows the order does not name keep what `acc` holds.
   */
  function Scatter(rows: seq<seq<byte>>, order: seq<nat>, src: nat, acc: seq<seq<byte>>): (r: seq<seq<byte>>)
    requires src + |order| <= |rows|
    requires forall j :: 0 <= j < |order| ==> order[j] < |acc|
    ensures |r| == |acc|
    decreases |order|
  {
    if |order| == 0 then acc
    else Scatter(rows, order[1..], src + 1, acc[order[0] := rows[src]])
  }

  /**
   * When `order` names each row at most once, a row it names at position
   * `j` ends up holding source row `src + j` and every other row is untouched.
   */
  lemma {:induction false} ScatterAt(rows: seq<seq<byte>>, order: seq<nat>, src: nat, acc: seq<seq<byte>>, y: nat)
    requires src + |order| <= |rows|
    requires forall j :: 0 <= j < |order| ==> order[j] < |acc|
    requires forall i, j :: 0 <= i < j < |order| ==> order[i] != order[j]
    requires y < |acc|
    ensures forall j :: 0 <= j < |order| && order[j] == y ==> Scatter(rows, order, src, acc)[y] == rows[src + j]
    ensures y !in order ==> Scatter(rows, order, src, acc)[y] == acc[y]
    decreases |order|
  {
    if |order| > 0 {
      var acc' := acc[order[0] := rows[src]];
      ScatterAt(rows, order[1..], src + 1, acc', y);
      forall j | 0 <= j < |order| && order[j] == y
        ensures Scatter(rows, order, src, acc)[y] == rows[src + j]
      {
        if j == 0 {
          assert y !in order[1..] by {
            forall k | 0 <= k < |order[1..]|
              ensures order[1..][k] != y
            {
              assert order[1..][k] == order[k + 1];
            }
          }
        } else {
          assert order[1..][j - 1] == y;
        }
      }
      if y !in order {
        assert y !in order[1..];
      }
    }
  }

  /** The rows of the result before any is copied in: `new Uint8Array`, all zero. */
  function Blank(width: nat, height: nat): (r: seq<seq<byte>>)
    ensures |r| == height && forall y :: 0 <= y < height ==> r[y] == seq(width, _ => 0)
  {
    seq(height, _ => seq(width, _ => 0))
  }

  /** `deinterlace` on an image given as its rows: source rows in pass order. */
  function DeinterlaceRows(rows: seq<seq<byte>>, width: nat): (r: seq<seq<byte>>)
    ensures |r| == |rows|
  {
    RowOrderPermutation(|rows|);
    Scatter(rows, RowOrder(|rows|), 0, Blank(width, |rows|))
  }

  /** Destination row `y` holds source row `SourceRow(height, y)`. */
  lemma DeinterlaceRowsAt(rows: seq<seq<byte>>, width: nat, y: nat)
    requires y < |rows|
    ensures DeinterlaceRows(rows, width)[y] == rows[SourceRow(|rows|, y)]
  {
    var h := |rows|;
    RowOrderPermutation(h);
    SourceRowLands(h, y);
    ScatterAt(rows, RowOrder(h), 0, Blank(width, h), y);
  }

  /** What an encoder writes: row `i` of the stream is image row `RowOrder(height)[i]`. */
  function InterlaceRows(rows: seq<seq<byte>>): (r: seq<seq<byte>>)
    ensures |r| == |rows|
    ensures forall i :: 0 <= i < |rows| ==> r[i] == rows[RowOrder(|rows|)[i]]
  {
    RowOrderPermutation(|rows|);
    seq(|rows|, i requires 0 <= i < |rows| => rows[RowOrder(|rows|)[i]])
  }

  /** Deinterlacing undoes interlacing, whatever the row width. */
  lemma DeinterlaceInterlace(rows: seq<seq<byte>>, width: nat)
    ensures DeinterlaceRows(InterlaceRows(rows), width) == rows
  {
    var h := |rows|;
    var r := DeinterlaceRows(InterlaceRows(rows), width);
    forall y | 0 <= y < h
      ensures r[y] == rows[y]
    {
      DeinterlaceRowsAt(InterlaceRows(rows), width, y);
      SourceRowLands(h, y);
    }
  }

  /** The rows of a row-major buffer: row `y` is the `width` bytes from `y * width`. */
  function Rows(pixels: seq<byte>, width: nat, height: nat): (rows: seq<seq<byte>>)
    requires |pixels| == width * height
    ensures |rows| == height
    ensures forall y :: 0 <= y < height ==> |rows[y]| == width
    decreases height
  {
    if height == 0 then []
    else
      MulSucc(height - 1, width);
      [pixels[..width]] + Rows(pixels[width..], width, height - 1)
  }

  lemma {:induction false} RowsAt(pixels: seq<byte>, width: nat, height: nat, y: nat, x: nat)
    requires |pixels| == width * height && y < height && x < width
    ensures y * width + x < |pixels| && Rows(pixels, width, height)[y][x] == pixels[y * width + x]
    decreases y
  {
    MulSucc(height - 1, width);
    var rest := pixels[width..];
    assert Rows(pixels, width, height) == [pixels[..width]] + Rows(rest, width, height - 1);
    if y > 0 {
      RowsAt(rest, width, height - 1, y - 1, x);
      MulSucc(y - 1, width);
      assert rest[(y - 1) * width + x] == pixels[y * width + x];
    }
  }

  /** The row-major buffer of a list of rows. */
  function Join(rows: seq<seq<byte>>): (pixels: seq<byte>)
    decreases |rows|
  {
    if |rows| == 0 then [] else rows[0] + Join(rows[1..])
  }

  lemma {:induction false} JoinLength(rows: seq<seq<byte>>, width: nat)
    requires forall y :: 0 <= y < |rows| ==> |rows[y]| == width
    ensures |Join(rows)| == |rows| * width
    decreases |rows|
  {
    if |rows| > 0 {
      JoinLength(rows[1..], width);
      MulSucc(|rows| - 1, width);
    }
  }

  /** In rows of one width, row `y`, column `x` sits at `y * width + x` of the joined buffer. */
  lemma {:induction false} JoinAt(rows: seq<seq<byte>>, width: nat, y: nat, x: nat)
    requires forall y :: 0 <= y < |rows| ==> |rows[y]| == width
    requires y < |rows| && x < width
    ensures y * width + x < |Join(rows)| && Join(rows)[y * width + x] == rows[y][x]
    decreases y
  {
    JoinLength(rows[1..], width);
    if y > 0 {
      JoinAt(rows[1..], width, y - 1, x);
      MulSucc(y - 1, width);
    }
  }

  /**
   * `deinterlace(pixels, width, height)` on the row-major buffer `lzwDecode`
   * returns, which always holds `width * height` entries.
   */
  function Deinterlace(pixels: seq<byte>, width: nat, height: nat): (r: seq<byte>)
    requires |pixels| == width * height
    ensures |r| == |pixels|
  {
    var rows := DeinterlaceRows(Rows(pixels, width, height), width);
    DeinterlaceRowsWidth(Rows(pixels, width, height), width);
    JoinLength(rows, width);
    Join(rows)
  }

  /** Deinterlacing keeps every row `width` bytes long. */
  lemma DeinterlaceRowsWidth(rows: seq<seq<byte>>, width: nat)
    requires forall y :: 0 <= y < |rows| ==> |rows[y]| == width
    ensures forall y :: 0 <= y < |rows| ==> |DeinterlaceRows(rows, width)[y]| == width
  {
    forall y | 0 <= y < |rows|
      ensures |DeinterlaceRows(rows, width)[y]| == width
    {
      DeinterlaceRowsAt(rows, width, y);
    }
  }

  /**
   * `result[y * width + x] = pixels[srcRow * width + x]`: each pixel of row
   * `y` comes from the same column of source row `SourceRow(height, y)`.
   */
  lemma DeinterlaceAt(pixels: seq<byte>, width: nat, height: nat, y: nat, x: nat)
    requires |pixels| == width * height && y < height && x < width
    ensures y * width + x < |pixels| && SourceRow(height, y) * width + x < |pixels|
    ensures Deinterlace(pixels, width, height)[y * width + x] == pixels[SourceRow(height, y) * width + x]
  {
    var src := Rows(pixels, width, height);
    var rows := DeinterlaceRows(src, width);
    DeinterlaceRowsWidth(src, width);
    JoinLength(rows, width);
    JoinAt(rows, width, y, x);
    DeinterlaceRowsAt(src, width, y);
    RowsAt(pixels, width, height, SourceRow(height, y), x);
  }

  /**
   * The copy loop read forwards: the `src`-th row the passes visit,
   * `RowOrder(height)[src]`, receives row `src` of the input.
   */
  lemma DeinterlaceFrom(pixels: seq<byte>, width: nat, height: nat, src: nat, x: nat)
    requires |pixels| == width * height && src < height && x < width
    ensures RowOrder(height)[src] * width + x < |pixels| && src * width + x < |pixels|
    ensures Deinterlace(pixels, width, height)[RowOrder(height)[src] * width + x] == pixels[src * width + x]
  {
    PassCounts(height);
    RowOrderAt(height, src);
    SourceOfDest(height, Counts(height), |PassRows(height, 1, 2)|, src);
    DeinterlaceAt(pixels, width, height, RowOrder(height)[src], x);
  }
}

=== FILE: lzw.dfy ===
/**
 * The GIF variable-width LZW decoder (GIF89a, Appendix F) as a functional
 * state machine: one `Step` per code read, `Run` until the output is full,
 * an end code arrives or the input runs out of bits.
 *
 * The tables keep their JavaScript shapes: `prefix` and `suffix` hold 4096
 * entries each and are NOT cleared by a clear code, `suffix` entries are
 * bytes (a `Uint8Array`), and the pixel buffer is allocated full-size and
 * zero-filled up front.
 */
module Lzw {
  import opened Bits
  import opened Wrappers

  /** Size of `prefix`, `suffix` and the pixel stack: the 12-bit code space. */
  const MaxStackSize: nat := 4096

  /** Largest minimum code size whose codes still fit the 12-bit tables. */
  const MaxMinCodeSize: nat := 11

  function ClearCode(minCodeSize: nat): nat { Pow2(minCodeSize) }

  function EndCode(minCodeSize: nat): nat { Pow2(minCodeSize) + 1 }

  // ---------------------------------------------------------------------------
  // Bit reader: `datum` holds `bits` not-yet-used bits; `bi` is the next byte.
  // ---------------------------------------------------------------------------

  datatype Reader = Reader(datum: nat, bits: nat, bi: nat)

  /** Number of stream bits handed out as codes so far. */
  function Consumed(r: Reader): int { 8 * r.bi - r.bits }

  /** Bits still available: those in `datum` plus the unread bytes. */
  function BitsLeft(data: seq<byte>, r: Reader): int { 8 * (|data| - r.bi) + r.bits }

  /**
   * `datum` is exactly the next `bits` bits of the stream, least significant
   * first. In particular `datum < 2^bits`, which is why the source's
   * `datum |= byte << bits` is the addition written in `TakeByte`.
   */
  ghost predicate Aligned(data: seq<byte>, r: Reader)
  {
    && r.bi <= |data|
    && 0 <= Consumed(r)
    && r.datum == BitsValue(data, Consumed(r), r.bits)
  }

  /** `datum |= data[bi++] << bits; bits += 8`. */
  function TakeByte(data: seq<byte>, r: Reader): (r': Reader)
    requires r.bi < |data|
    ensures r'.bi == r.bi + 1 && r'.bits == r.bits + 8
    ensures Consumed(r') == Consumed(r) && BitsLeft(data, r') == BitsLeft(data, r)
  {
    Reader(r.datum + Shl(data[r.bi], r.bits), r.bits + 8, r.bi + 1)
  }

  /** Take whole bytes until `codeSize` bits are held or the data ends. */
  function Refill(data: seq<byte>, codeSize: nat, r: Reader): (r': Reader)
    requires r.bi <= |data|
    ensures r'.bi <= |data|
    ensures BitsLeft(data, r') == BitsLeft(data, r)
    ensures r'.bits >= codeSize || r'.bi == |data|
    ensures r.bits < codeSize + 8 ==> r'.bits < codeSize + 8
    ensures r.bits >= codeSize ==> r' == r
    decreases |data| - r.bi
  {
    if r.bits < codeSize && r.bi < |data| then Refill(data, codeSize, TakeByte(data, r)) else r
  }

  datatype ReadResult = Exhausted(rest: Reader) | Code(code: nat, rest: Reader)

  /** Read one `codeSize`-bit code (`datum & codeMask`, then `datum >>= codeSize`). */
  function ReadCode(data: seq<byte>, codeSize: nat, r: Reader): (res: ReadResult)
    requires r.bi <= |data| && codeSize >= 1
    ensures res.rest.bi <= |data|
    ensures res.Code? ==> res.code < Pow2(codeSize)
    ensures res.Code? ==> BitsLeft(data, res.rest) == BitsLeft(data, r) - codeSize
    ensures res.Exhausted? <==> BitsLeft(data, r) < codeSize
  {
    var r1 := Refill(data, codeSize, r);
    if r1.bits < codeSize then
      Exhausted(r1)
    else
      LowBitsBound(r1.datum, codeSize);
      Code(LowBits(r1.datum, codeSize), Reader(Shr(r1.datum, codeSize), r1.bits - codeSize, r1.bi))
  }

  /** Taking the next whole byte keeps `datum` aligned with the stream. */
  lemma AlignedTakeByte(data: seq<byte>, r: Reader)
    requires Aligned(data, r) && r.bi < |data|
    ensures Aligned(data, TakeByte(data, r))
  {
    AppendByte(data, Consumed(r), r.bits, r.bi);
  }

  lemma {:induction false} RefillAligned(data: seq<byte>, codeSize: nat, r: Reader)
    requires Aligned(data, r)
    ensures Aligned(data, Refill(data, codeSize, r))
    ensures Consumed(Refill(data, codeSize, r)) == Consumed(r)
    decreases |data| - r.bi
  {
    if r.bits < codeSize && r.bi < |data| {
      AlignedTakeByte(data, r);
      RefillAligned(data, codeSize, TakeByte(data, r));
    }
  }

  /**
   * Codes are read least-significant-bit first across byte boundaries: the
   * code handed out is the value of the next `codeSize` bits of the stream,
   * and the reader then stands exactly `codeSize` bits further on. While a
   * code is assembled `datum` stays below 2^(codeSize+8) <= 2^20, so the
   * source's 32-bit bitwise operators never lose a bit.
   */
  lemma ReadCodeLsbFirst(data: seq<byte>, codeSize: nat, r: Reader)
    requires Aligned(data, r) && 1 <= codeSize <= 12 && r.bits < 20
    ensures Refill(data, codeSize, r).datum < Pow2(20)
    ensures var res := ReadCode(data, codeSize, r);
      && Aligned(data, res.rest) && res.rest.bits < 20
      && (res.Code? ==>
            && Consumed(r) + codeSize <= 8 * |data|
            && res.code == BitsValue(data, Consumed(r), codeSize)
            && Consumed(res.rest) == Consumed(r) + codeSize)
  {
    var r1 := Refill(data, codeSize, r);
    RefillAligned(data, codeSize, r);
    BitsValueBound(data, Consumed(r1), r1.bits);
    Pow2Monotone(r1.bits, 20);
    var res := ReadCode(data, codeSize, r);
    if r1.bits < codeSize {
      assert res == Exhausted(r1);
    } else {
      AlignedSplit(data, r1, codeSize);
      assert res == Code(LowBits(r1.datum, codeSize), Reader(Shr(r1.datum, codeSize), r1.bits - codeSize, r1.bi));
    }
  }

  /** Masking off the low `c` held bits yields the next `c` stream bits; shifting them out stays aligned. */
  lemma AlignedSplit(data: seq<byte>, r: Reader, c: nat)
    requires Aligned(data, r) && c <= r.bits
    ensures LowBits(r.datum, c) == BitsValue(data, Consumed(r), c)
    ensures Aligned(data, Reader(Shr(r.datum, c), r.bits - c, r.bi))
  {
    var p := Consumed(r);
    BitsValueSplit(data, p, c, r.bits - c);
    BitsValueBound(data, p, c);
    LowHigh(r.datum, c, BitsValue(data, p, c), BitsValue(data, p + c, r.bits - c));
  }

  // ---------------------------------------------------------------------------
  // Decoder state
  // ---------------------------------------------------------------------------

  /**
   * The decoder's variables. `codeMask` is not stored: it is always
   * `2^codeSize - 1`. `oldCode == None` is the source's `nullCode`.
   */
  datatype Decoder = Decoder(
    codeSize: nat,
    nextCode: nat,
    prefix: seq<nat>,
    suffix: seq<nat>,
    reader: Reader,
    first: nat,
    oldCode: Option<nat>,
    pixels: seq<nat>,
    pi: nat)

  function CodeMask(s: Decoder): nat { Pow2(s.codeSize) - 1 }

  /** Full-size tables whose prefix entries are codes, and a previous code that is a code. */
  ghost predicate Shaped(s: Decoder)
  {
    && |s.prefix| == MaxStackSize && |s.suffix| == MaxStackSize
    && (forall i :: 0 <= i < MaxStackSize ==> s.prefix[i] < MaxStackSize)
    && (s.oldCode.Some? ==> s.oldCode.value < MaxStackSize)
    && s.pi <= |s.pixels|
  }

  /** The invariant every reachable decoder state satisfies. */
  ghost predicate Valid(minCodeSize: nat, data: seq<byte>, s: Decoder)
  {
    && minCodeSize <= MaxMinCodeSize
    && minCodeSize + 1 <= s.codeSize <= 12
    && s.nextCode <= MaxStackSize
    && Shaped(s)
    && (forall i :: 0 <= i < MaxStackSize ==> s.suffix[i] < 256)
    && (forall i :: 0 <= i < |s.pixels| ==> s.pixels[i] < 256)
    && (forall i :: s.pi <= i < |s.pixels| ==> s.pixels[i] == 0)
    && Aligned(data, s.reader) && s.reader.bits < 20
  }

  /** The initial tables: `suffix[c] = c` (stored mod 256) below the clear code, zeros elsewhere. */
  function InitialSuffix(minCodeSize: nat): (t: seq<nat>)
    ensures |t| == MaxStackSize
    ensures forall c :: 0 <= c < MaxStackSize ==> t[c] < 256
    ensures forall c :: 0 <= c < MaxStackSize && c < ClearCode(minCodeSize) ==> t[c] == c % 256
    ensures forall c :: 0 <= c < MaxStackSize && c >= ClearCode(minCodeSize) ==> t[c] == 0
  {
    seq(MaxStackSize, c => if c < ClearCode(minCodeSize) then c % 256 else 0)
  }

  function Init(minCodeSize: nat, pixelCount: nat): Decoder
  {
    Decoder(
      minCodeSize + 1,
      ClearCode(minCodeSize) + 2,
      seq(MaxStackSize, _ => 0),
      InitialSuffix(minCodeSize),
      Reader(0, 0, 0),
      0,
      None,
      seq(pixelCount, _ => 0),
      0)
  }

  lemma InitValid(minCodeSize: nat, data: seq<byte>, pixelCount: nat)
    requires minCodeSize <= MaxMinCodeSize
    ensures Valid(minCodeSize, data, Init(minCodeSize, pixelCount))
  {
    Pow2Monotone(minCodeSize, 11);
    Pow2Small();
  }

  /** A clear code: back to the initial code width and dictionary size, no previous code. */
  function Reset(minCodeSize: nat, s: Decoder): (r: Decoder)
  {
    s.(codeSize := minCodeSize + 1, nextCode := ClearCode(minCodeSize) + 2, oldCode := None)
  }

  /**
   * Walk a code's prefix chain, pushing suffix bytes, until a root code
   * (below the clear code) is reached or the stack is full.
   */
  function Chain(prefix: seq<nat>, suffix: seq<nat>, clear: nat, code: nat, stack: seq<nat>): (r: (nat, seq<nat>))
    requires |prefix| == MaxStackSize && |suffix| == MaxStackSize
    requires forall i :: 0 <= i < MaxStackSize ==> prefix[i] < MaxStackSize
    requires code < MaxStackSize && |stack| <= MaxStackSize
    ensures r.0 < MaxStackSize && |stack| <= |r.1| <= MaxStackSize
    ensures r.1[..|stack|] == stack
    ensures forall i :: |stack| <= i < |r.1| ==> r.1[i] in suffix
    ensures r.0 < clear || |r.1| == MaxStackSize
    decreases MaxStackSize - |stack|
  {
    if code >= clear && |stack| < MaxStackSize then
      Chain(prefix, suffix, clear, prefix[code], stack + [suffix[code]])
    else
      (code, stack)
  }

  /** Pop the stack into the output (`pixels[pi++] = stack[--top]`) while there is room. */
  function Pop(pixels: seq<nat>, pi: nat, stack: seq<nat>): (r: (seq<nat>, nat))
    requires pi <= |pixels|
    ensures |r.0| == |pixels| && pi <= r.1 <= |pixels|
    ensures r.1 - pi == if |stack| < |pixels| - pi then |stack| else |pixels| - pi
    ensures forall i :: 0 <= i < pi ==> r.0[i] == pixels[i]
    ensures forall i :: r.1 <= i < |pixels| ==> r.0[i] == pixels[i]
    ensures forall i :: pi <= i < r.1 ==> r.0[i] == stack[|stack| - 1 - (i - pi)]
    decreases |stack|
  {
    if |stack| > 0 && pi < |pixels| then
      Pop(pixels[pi := stack[|stack| - 1]], pi + 1, stack[..|stack| - 1])
    else
      (pixels, pi)
  }

  /**
   * Add the entry (prefix code, suffix byte) if the table has room, widening
   * the code by one bit when `nextCode` reaches `codeMask + 1` below 4096.
   */
  function AddEntry(s: Decoder, prefixCode: nat, suffixByte: nat): (r: Decoder)
    requires |s.prefix| == MaxStackSize && |s.suffix| == MaxStackSize
    ensures r.pixels == s.pixels && r.pi == s.pi && r.reader == s.reader && r.oldCode == s.oldCode
    ensures s.nextCode >= MaxStackSize ==> r == s
    ensures s.nextCode < MaxStackSize ==>
      && r.nextCode == s.nextCode + 1
      && r.prefix == s.prefix[s.nextCode := prefixCode]
      && r.suffix == s.suffix[s.nextCode := suffixByte]
    ensures r.codeSize == s.codeSize + 1 <==>
      s.nextCode < MaxStackSize && s.nextCode + 1 == CodeMask(s) + 1 && s.nextCode + 1 < MaxStackSize
    ensures r.codeSize == s.codeSize || r.codeSize == s.codeSize + 1
  {
    if s.nextCode < MaxStackSize then
      var n := s.nextCode + 1;
      s.(prefix := s.prefix[s.nextCode := prefixCode],
         suffix := s.suffix[s.nextCode := suffixByte],
         nextCode := n,
         codeSize := if n == CodeMask(s) + 1 && n < MaxStackSize then s.codeSize + 1 else s.codeSize)
    else
      s
  }

  /**
   * A code after the first one since a clear: expand it (or, for a code not
   * yet in the table, the previous code followed by its first byte) and
   * emit the bytes; the new first byte is remembered in `first`.
   */
  function Emit(minCodeSize: nat, s: Decoder, code: nat): (r: Decoder)
    requires Shaped(s) && s.oldCode.Some? && code < MaxStackSize && s.pi < |s.pixels|
  {
    var start := if code >= s.nextCode then (s.oldCode.value, [s.first % 256]) else (code, []);
    var chained := Chain(s.prefix, s.suffix, ClearCode(minCodeSize), start.0, start.1);
    var first := s.suffix[chained.0];
    var popped := Pop(s.pixels[s.pi := first], s.pi + 1, chained.1);
    s.(first := first, pixels := popped.0, pi := popped.1, oldCode := Some(code))
  }

  /** Emit the code's bytes, then add the entry (previous code, first byte). */
  function Expand(minCodeSize: nat, s: Decoder, code: nat): (r: Decoder)
    requires Shaped(s) && s.oldCode.Some? && code < MaxStackSize && s.pi < |s.pixels|
  {
    var e := Emit(minCodeSize, s, code);
    AddEntry(e, s.oldCode.value, e.first)
  }

  datatype Stop = PixelsFull | EndOfInformation | OutOfData

  datatype StepResult = Next(s: Decoder) | Halt(s: Decoder, why: Stop)

  /** One iteration of the decoder's main loop: read a code and act on it. */
  function Step(minCodeSize: nat, data: seq<byte>, s: Decoder): StepResult
    requires Valid(minCodeSize, data, s) && s.pi < |s.pixels|
  {
    match ReadCode(data, s.codeSize, s.reader)
    case Exhausted(r) => Halt(s.(reader := r), OutOfData)
    case Code(code, r) =>
      Pow2Monotone(s.codeSize, 12);
      Pow2Small();
      Dispatch(minCodeSize, s.(reader := r), code)
  }

  /** Act on a code that has just been read. */
  function Dispatch(minCodeSize: nat, s: Decoder, code: nat): StepResult
    requires Shaped(s) && s.pi < |s.pixels| && code < MaxStackSize
  {
    if code == ClearCode(minCodeSize) then Next(Reset(minCodeSize, s))
    else if code == EndCode(minCodeSize) then Halt(s, EndOfInformation)
    else if s.oldCode.None? then
      Next(s.(pixels := s.pixels[s.pi := s.suffix[code]], pi := s.pi + 1, oldCode := Some(code), first := code))
    else
      Next(Expand(minCodeSize, s, code))
  }

  lemma ChainBytes(prefix: seq<nat>, suffix: seq<nat>, clear: nat, code: nat, stack: seq<nat>)
    requires |prefix| == MaxStackSize && |suffix| == MaxStackSize
    requires forall i :: 0 <= i < MaxStackSize ==> prefix[i] < MaxStackSize
    requires forall i :: 0 <= i < MaxStackSize ==> suffix[i] < 256
    requires code < MaxStackSize && |stack| <= MaxStackSize
    requires forall i :: 0 <= i < |stack| ==> stack[i] < 256
    ensures var r := Chain(prefix, suffix, clear, code, stack);
      forall i :: 0 <= i < |r.1| ==> r.1[i] < 256
  {
    var r := Chain(prefix, suffix, clear, code, stack);
    forall i | 0 <= i < |r.1|
      ensures r.1[i] < 256
    {
      if i < |stack| {
        assert r.1[i] == r.1[..|stack|][i];
      } else {
        assert r.1[i] in suffix;
      }
    }
  }

  /** Every step keeps the invariant and uses up at least one bit of input. */
  lemma StepValid(minCodeSize: nat, data: seq<byte>, s: Decoder)
    requires Valid(minCodeSize, data, s) && s.pi < |s.pixels|
    ensures var st := Step(minCodeSize, data, s);
      && Valid(minCodeSize, data, st.s)
      && |st.s.pixels| == |s.pixels|
      && (st.Halt? ==> st.s.pixels == s.pixels && st.s.pi == s.pi)
      && (st.Next? ==> BitsLeft(data, st.s.reader) < BitsLeft(data, s.reader))
      && s.pi <= st.s.pi
      && (forall i :: 0 <= i < s.pi ==> st.s.pixels[i] == s.pixels[i])
  {
    ReadCodeLsbFirst(data, s.codeSize, s.reader);
    Pow2Monotone(s.codeSize, 12);
    Pow2Monotone(minCodeSize, 11);
    Pow2Small();
    var st := Step(minCodeSize, data, s);
    match ReadCode(data, s.codeSize, s.reader)
    case Exhausted(r) =>
      assert st == Halt(s.(reader := r), OutOfData);
    case Code(code, r) =>
      var s1 := s.(reader := r);
      assert Valid(minCodeSize, data, s1);
      if code == ClearCode(minCodeSize) {
        assert st == Next(Reset(minCodeSize, s1));
      } else if code == EndCode(minCodeSize) {
        assert st == Halt(s1, EndOfInformation);
      } else if s1.oldCode.None? {
        FirstCodeValid(minCodeSize, data, s1, code);
      } else {
        ExpandValid(minCodeSize, data, s1, code);
        assert st == Next(Expand(minCodeSize, s1, code));
      }
  }

  /** The first code after a clear emits one table byte and keeps the invariant. */
  lemma FirstCodeValid(minCodeSize: nat, data: seq<byte>, s: Decoder, code: nat)
    requires Valid(minCodeSize, data, s) && code < MaxStackSize && s.pi < |s.pixels|
    ensures Valid(minCodeSize, data,
      s.(pixels := s.pixels[s.pi := s.suffix[code]], pi := s.pi + 1, oldCode := Some(code), first := code))
  {
  }

  /** Popping bytes into a byte buffer whose tail is zero keeps it a byte buffer with a zero tail. */
  lemma PopBytes(pixels: seq<nat>, pi: nat, stack: seq<nat>)
    requires pi <= |pixels|
    requires forall i :: 0 <= i < |pixels| ==> pixels[i] < 256
    requires forall i :: pi <= i < |pixels| ==> pixels[i] == 0
    requires forall i :: 0 <= i < |stack| ==> stack[i] < 256
    ensures var r := Pop(pixels, pi, stack);
      && (forall i :: 0 <= i < |r.0| ==> r.0[i] < 256)
      && (forall i :: r.1 <= i < |r.0| ==> r.0[i] == 0)
  {
    var r := Pop(pixels, pi, stack);
    forall i | 0 <= i < |r.0|
      ensures r.0[i] < 256
    {
      if pi <= i < r.1 {
        assert r.0[i] == stack[|stack| - 1 - (i - pi)];
      }
    }
  }

  /** Adding a byte entry whose prefix is a table code keeps the invariant. */
  lemma AddEntryValid(minCodeSize: nat, data: seq<byte>, s: Decoder, prefixCode: nat, suffixByte: nat)
    requires Valid(minCodeSize, data, s) && prefixCode < MaxStackSize && suffixByte < 256
    ensures Valid(minCodeSize, data, AddEntry(s, prefixCode, suffixByte))
  {
    var r := AddEntry(s, prefixCode, suffixByte);
    if r.codeSize == s.codeSize + 1 {
      assert Pow2(s.codeSize) < 4096;
      if s.codeSize >= 12 {
        Pow2Monotone(12, s.codeSize);
        Pow2Small();
      }
    }
  }

  lemma EmitValid(minCodeSize: nat, data: seq<byte>, s: Decoder, code: nat)
    requires Valid(minCodeSize, data, s)
    requires s.oldCode.Some? && code < MaxStackSize && s.pi < |s.pixels|
    ensures var e := Emit(minCodeSize, s, code);
      && Valid(minCodeSize, data, e) && e.first < 256
      && |e.pixels| == |s.pixels| && e.pi > s.pi
      && (forall i :: 0 <= i < s.pi ==> e.pixels[i] == s.pixels[i])
      && e.reader == s.reader && e.oldCode == Some(code)
      && e.codeSize == s.codeSize && e.nextCode == s.nextCode
      && e.prefix == s.prefix && e.suffix == s.suffix
  {
    var start := if code >= s.nextCode then (s.oldCode.value, [s.first % 256]) else (code, []);
    ChainBytes(s.prefix, s.suffix, ClearCode(minCodeSize), start.0, start.1);
    var chained := Chain(s.prefix, s.suffix, ClearCode(minCodeSize), start.0, start.1);
    var first := s.suffix[chained.0];
    PopBytes(s.pixels[s.pi := first], s.pi + 1, chained.1);
  }

  lemma ExpandValid(minCodeSize: nat, data: seq<byte>, s: Decoder, code: nat)
    requires Valid(minCodeSize, data, s)
    requires s.oldCode.Some? && code < MaxStackSize && s.pi < |s.pixels|
    ensures var r := Expand(minCodeSize, s, code);
      && Valid(minCodeSize, data, r)
      && |r.pixels| == |s.pixels| && r.pi > s.pi
      && (forall i :: 0 <= i < s.pi ==> r.pixels[i] == s.pixels[i])
      && r.reader == s.reader && r.oldCode == Some(code)
  {
    EmitValid(minCodeSize, data, s, code);
    var e := Emit(minCodeSize, s, code);
    AddEntryValid(minCodeSize, data, e, s.oldCode.value, e.first);
  }

  // ---------------------------------------------------------------------------
  // The whole decoder
  // ---------------------------------------------------------------------------

  /**
   * Run the main loop from `s` until the output is full, an end code is read
   * or the input runs out; the final state and why the loop stopped.
   */
  function Run(minCodeSize: nat, data: seq<byte>, s: Decoder): (r: (Decoder, Stop))
    requires Valid(minCodeSize, data, s)
    ensures Valid(minCodeSize, data, r.0)
    ensures |r.0.pixels| == |s.pixels| && s.pi <= r.0.pi
    ensures forall i :: 0 <= i < s.pi ==> r.0.pixels[i] == s.pixels[i]
    ensures r.1 == PixelsFull <==> r.0.pi == |r.0.pixels|
    decreases BitsLeft(data, s.reader)
  {
    if s.pi >= |s.pixels| then
      (s, PixelsFull)
    else
      StepValid(minCodeSize, data, s);
      match Step(minCodeSize, data, s)
      case Next(s') => Run(minCodeSize, data, s')
      case Halt(s', why) => (s', why)
  }

  /** `Run` takes one `Step` at a time. */
  lemma RunStep(minCodeSize: nat, data: seq<byte>, s: Decoder)
    requires Valid(minCodeSize, data, s) && s.pi < |s.pixels|
    ensures Valid(minCodeSize, data, Step(minCodeSize, data, s).s)
    ensures var st := Step(minCodeSize, data, s);
      Run(minCodeSize, data, s) == if st.Next? then Run(minCodeSize, data, st.s) else (st.s, st.why)
  {
    StepValid(minCodeSize, data, s);
  }

  /** The state the loop stops in when started from the initial tables, and why it stopped. */
  function Final(minCodeSize: nat, data: seq<byte>, pixelCount: nat): (r: (Decoder, Stop))
    requires minCodeSize <= MaxMinCodeSize
    ensures Valid(minCodeSize, data, r.0) && |r.0.pixels| == pixelCount
    ensures r.1 == PixelsFull <==> r.0.pi == pixelCount
  {
    InitValid(minCodeSize, data, pixelCount);
    Run(minCodeSize, data, Init(minCodeSize, pixelCount))
  }

  /**
   * `lzwDecode(minCodeSize, data, pixelCount)`: always exactly `pixelCount`
   * colour indices, each a byte; positions the code stream never reached
   * keep the zero the buffer was allocated with.
   */
  function Decode(minCodeSize: nat, data: seq<byte>, pixelCount: nat): (pixels: seq<byte>)
    requires minCodeSize <= MaxMinCodeSize
    ensures |pixels| == pixelCount
    ensures forall i :: Final(minCodeSize, data, pixelCount).0.pi <= i < pixelCount ==> pixels[i] == 0
  {
    ToBytes(Final(minCodeSize, data, pixelCount).0.pixels)
  }

  /** A buffer of values below 256, as bytes. */
  function ToBytes(s: seq<nat>): (b: seq<byte>)
    requires forall i :: 0 <= i < |s| ==> s[i] < 256
    ensures |b| == |s| && forall i :: 0 <= i < |s| ==> b[i] == s[i]
  {
    seq(|s|, i requires 0 <= i < |s| => s[i] as byte)
  }

  // ---------------------------------------------------------------------------
  // What one step does with the code it reads
  // ---------------------------------------------------------------------------

  /** With fewer than `codeSize` bits left the loop stops and the output is untouched. */
  lemma StepOutOfData(minCodeSize: nat, data: seq<byte>, s: Decoder)
    requires Valid(minCodeSize, data, s) && s.pi < |s.pixels|
    requires BitsLeft(data, s.reader) < s.codeSize
    ensures var st := Step(minCodeSize, data, s);
      st.Halt? && st.why == OutOfData && st.s.pixels == s.pixels && st.s.pi == s.pi
  {
  }

  /**
   * With enough bits left, the code acted on is the next `codeSize` bits of
   * the stream: a clear code restores the initial width and table size and
   * forgets the previous code, an end code stops the loop, the first code
   * after a clear emits its table byte, and any other code emits at least
   * one byte.
   */
  lemma StepReadsNextCode(minCodeSize: nat, data: seq<byte>, s: Decoder)
    requires Valid(minCodeSize, data, s) && s.pi < |s.pixels|
    requires BitsLeft(data, s.reader) >= s.codeSize
    ensures Consumed(s.reader) + s.codeSize <= 8 * |data|
    ensures BitsValue(data, Consumed(s.reader), s.codeSize) < MaxStackSize
    ensures var code := BitsValue(data, Consumed(s.reader), s.codeSize);
      var st := Step(minCodeSize, data, s);
      && (code == ClearCode(minCodeSize) ==>
            && st.Next? && st.s.codeSize == minCodeSize + 1
            && st.s.nextCode == ClearCode(minCodeSize) + 2 && st.s.oldCode == None
            && st.s.pixels == s.pixels && st.s.pi == s.pi)
      && (code == EndCode(minCodeSize) ==>
            st.Halt? && st.why == EndOfInformation && st.s.pixels == s.pixels && st.s.pi == s.pi)
      && (code != ClearCode(minCodeSize) && code != EndCode(minCodeSize) && s.oldCode == None ==>
            && st.Next? && st.s.pixels == s.pixels[s.pi := s.suffix[code]]
            && st.s.pi == s.pi + 1 && st.s.oldCode == Some(code))
      && (code != ClearCode(minCodeSize) && code != EndCode(minCodeSize) && s.oldCode != None ==>
            st.Next? && st.s.pi > s.pi && st.s.oldCode == Some(code))
  {
    ReadCodeLsbFirst(data, s.codeSize, s.reader);
    Pow2Monotone(s.codeSize, 12);
    Pow2Small();
    var res := ReadCode(data, s.codeSize, s.reader);
    var code := res.code;
    var s1 := s.(reader := res.rest);
    if code != ClearCode(minCodeSize) && code != EndCode(minCodeSize) && s.oldCode != None {
      ExpandValid(minCodeSize, data, s1, code);
    }
  }

  /** An empty code stream decodes to `pixelCount` zeros. */
  lemma DecodeEmpty(minCodeSize: nat, pixelCount: nat)
    requires minCodeSize <= MaxMinCodeSize
    ensures Decode(minCodeSize, [], pixelCount) == seq(pixelCount, _ => 0)
  {
    InitValid(minCodeSize, [], pixelCount);
    var s := Init(minCodeSize, pixelCount);
    if pixelCount > 0 {
      StepOutOfData(minCodeSize, [], s);
    }
    assert Final(minCodeSize, [], pixelCount).0.pi == 0;
  }

  /** A stream whose first code is the end code decodes to zeros. */
  lemma DecodeEndFirst(minCodeSize: nat, data: seq<byte>, pixelCount: nat)
    requires minCodeSize <= MaxMinCodeSize
    requires minCodeSize + 1 <= 8 * |data|
    requires BitsValue(data, 0, minCodeSize + 1) == EndCode(minCodeSize)
    ensures Decode(minCodeSize, data, pixelCount) == seq(pixelCount, _ => 0)
  {
    InitValid(minCodeSize, data, pixelCount);
    var s := Init(minCodeSize, pixelCount);
    if pixelCount > 0 {
      StepReadsNextCode(minCodeSize, data, s);
    }
    assert Final(minCodeSize, data, pixelCount).0.pi == 0;
  }
}

=== FILE: lzw_impl.dfy ===
/**
 * `lzwDecode` as the source writes it: fixed-size typed arrays for the
 * tables, the pixel stack and the output, updated in place, with the bit
 * accumulator and all counters as local variables. It is proved to compute
 * exactly the functional decoder `Lzw.Decode`.
 */
module LzwImpl {
  import opened Bits
  import opened Wrappers
  import opened Lzw

  /** The functional decoder state that the method's local variables stand for. */
  function Snapshot(
    codeSize: nat, nextCode: nat, prefix: seq<nat>, suffix: seq<nat>,
    datum: nat, bits: nat, bi: nat, first: nat, oldCode: int,
    pixels: seq<nat>, pi: nat): Decoder
  {
    Decoder(codeSize, nextCode, prefix, suffix, Reader(datum, bits, bi), first,
            if oldCode < 0 then None else Some(oldCode as nat), pixels, pi)
  }

  /** The refill loop: `while (bits < codeSize) { if (bi >= data.length) break; ... }`. */
  method Fill(data: seq<byte>, codeSize: nat, datum: nat, bits: nat, bi: nat)
    returns (datum': nat, bits': nat, bi': nat)
    requires bi <= |data|
    ensures Reader(datum', bits', bi') == Refill(data, codeSize, Reader(datum, bits, bi))
  {
    datum', bits', bi' := datum, bits, bi;
    while bits' < codeSize
      invariant bi' <= |data|
      invariant Refill(data, codeSize, Reader(datum', bits', bi')) == Refill(data, codeSize, Reader(datum, bits, bi))
      decreases |data| - bi'
    {
      if bi' >= |data| {
        break;
      }
      datum' := datum' + Shl(data[bi'], bits');
      bits' := bits' + 8;
      bi' := bi' + 1;
    }
  }

  /** The prefix-chain walk, pushing suffix bytes onto `stack[top..]`. */
  method Walk(prefix: array<nat>, suffix: array<nat>, stack: array<nat>, clear: nat, code: nat, top: nat)
    returns (code': nat, top': nat)
    requires prefix.Length == MaxStackSize && suffix.Length == MaxStackSize && stack.Length == MaxStackSize
    requires stack != prefix && stack != suffix
    requires forall i :: 0 <= i < MaxStackSize ==> prefix[i] < MaxStackSize
    requires code < MaxStackSize && top <= MaxStackSize
    modifies stack
    ensures top' <= MaxStackSize
    ensures (code', stack[..top']) == Chain(prefix[..], suffix[..], clear, code, old(stack[..top]))
  {
    code', top' := code, top;
    while code' >= clear
      invariant code' < MaxStackSize && top <= top' <= MaxStackSize
      invariant Chain(prefix[..], suffix[..], clear, code', stack[..top'])
             == Chain(prefix[..], suffix[..], clear, code, old(stack[..top]))
      decreases MaxStackSize - top'
    {
      if top' >= MaxStackSize {
        break;
      }
      stack[top'] := suffix[code'];
      assert stack[..top' + 1] == stack[..top'] + [suffix[code']];
      top' := top' + 1;
      code' := prefix[code'];
    }
  }

  /** `while (top > 0 && pi < pixelCount) pixels[pi++] = stack[--top]`. */
  method Drain(pixels: array<nat>, pi: nat, stack: array<nat>, top: nat)
    returns (pi': nat)
    requires pixels != stack && pi <= pixels.Length && top <= stack.Length
    modifies pixels
    ensures (pixels[..], pi') == Pop(old(pixels[..]), pi, stack[..top])
  {
    pi' := pi;
    var t: nat := top;
    while t > 0 && pi' < pixels.Length
      invariant t <= top <= stack.Length && pi <= pi' <= pixels.Length
      invariant Pop(pixels[..], pi', stack[..t]) == Pop(old(pixels[..]), pi, stack[..top])
      decreases t
    {
      ghost var before := pixels[..];
      assert stack[..t][..t - 1] == stack[..t - 1];
      t := t - 1;
      pixels[pi'] := stack[t];
      assert pixels[..] == before[pi' := stack[t]];
      pi' := pi' + 1;
    }
  }

  /**
   * The branch for a code after the first one since a clear, up to the
   * table update: walk the chain, emit the bytes, all in place.
   */
  method EmitInPlace(
    minCodeSize: nat, prefix: array<nat>, suffix: array<nat>, stack: array<nat>, pixels: array<nat>,
    nextCode: nat, first: nat, oldCode: nat, pi: nat, code: nat, ghost s: Decoder)
    returns (first': nat, pi': nat, top': nat)
    requires prefix.Length == MaxStackSize && suffix.Length == MaxStackSize && stack.Length == MaxStackSize
    requires stack != prefix && stack != suffix && pixels != stack
    requires s.prefix == prefix[..] && s.suffix == suffix[..] && s.pixels == pixels[..]
    requires s.nextCode == nextCode && s.first == first && s.oldCode == Some(oldCode) && s.pi == pi
    requires Shaped(s) && code < MaxStackSize && pi < pixels.Length
    modifies stack, pixels
    ensures top' == 0 || pi' == pixels.Length
    ensures Emit(minCodeSize, s, code)
         == s.(first := first', pixels := pixels[..], pi := pi', oldCode := Some(code))
  {
    var top: nat := 0;
    var c := code;
    if c >= nextCode {
      stack[top] := first % 256;
      top := top + 1;
      c := oldCode;
    }
    assert stack[..top] == (if code >= nextCode then [first % 256] else []);
    c, top := Walk(prefix, suffix, stack, ClearCode(minCodeSize), c, top);
    first' := suffix[c];
    pixels[pi] := first';
    assert pixels[..] == s.pixels[pi := first'];
    pi' := Drain(pixels, pi + 1, stack, top);
    top' := top - (pi' - (pi + 1));
  }

  /** `if (nextCode < MAX_STACK_SIZE) { prefix[nextCode] = oldCode; suffix[nextCode] = first; ... }`. */
  method AddInPlace(prefix: array<nat>, suffix: array<nat>, codeSize: nat, codeMask: nat, nextCode: nat,
                    prefixCode: nat, suffixByte: nat, ghost d: Decoder)
    returns (codeSize': nat, codeMask': nat, nextCode': nat)
    requires prefix.Length == MaxStackSize && suffix.Length == MaxStackSize && prefix != suffix
    requires d.prefix == prefix[..] && d.suffix == suffix[..]
    requires d.codeSize == codeSize && d.nextCode == nextCode
    requires codeMask == Pow2(codeSize) - 1
    modifies prefix, suffix
    ensures codeMask' == Pow2(codeSize') - 1
    ensures AddEntry(d, prefixCode, suffixByte)
         == d.(codeSize := codeSize', nextCode := nextCode', prefix := prefix[..], suffix := suffix[..])
  {
    codeSize', codeMask', nextCode' := codeSize, codeMask, nextCode;
    if nextCode < MaxStackSize {
      prefix[nextCode] := prefixCode;
      suffix[nextCode] := suffixByte;
      nextCode' := nextCode + 1;
      if nextCode' == codeMask + 1 && nextCode' < MaxStackSize {
        codeSize' := codeSize + 1;
        codeMask' := Pow2(codeSize') - 1;
      }
    }
  }

  /** The scalar variables of the source's main loop. `oldCode == -1` is `nullCode`. */
  datatype Regs = Regs(
    codeSize: nat, codeMask: nat, nextCode: nat,
    datum: nat, bits: nat, bi: nat,
    first: nat, oldCode: int, pi: nat, top: nat)

  function Abstract(g: Regs, prefix: seq<nat>, suffix: seq<nat>, pixels: seq<nat>): Decoder
  {
    Snapshot(g.codeSize, g.nextCode, prefix, suffix, g.datum, g.bits, g.bi, g.first, g.oldCode, pixels, g.pi)
  }

  /** What the loop keeps of the registers besides the decoder invariant. */
  predicate RegsOk(g: Regs, pixelCount: nat)
  {
    g.codeMask == Pow2(g.codeSize) - 1 && g.oldCode >= -1 && (g.top == 0 || g.pi >= pixelCount)
  }

  /** The refill loop followed by `code = datum & codeMask; datum >>= codeSize; bits -= codeSize`. */
  method ReadInPlace(data: seq<byte>, codeSize: nat, datum: nat, bits: nat, bi: nat) returns (res: ReadResult)
    requires bi <= |data| && codeSize >= 1
    ensures res == ReadCode(data, codeSize, Reader(datum, bits, bi))
  {
    var datum', bits', bi' := Fill(data, codeSize, datum, bits, bi);
    if bits' < codeSize {
      return Exhausted(Reader(datum', bits', bi'));
    }
    LowBitsBound(datum', codeSize);
    var code := LowBits(datum', codeSize);
    res := Code(code, Reader(Shr(datum', codeSize), bits' - codeSize, bi'));
  }

  /** The body of the main loop after a code has been read; `halted` when the source breaks out. */
  method DispatchInPlace(minCodeSize: nat, ghost data: seq<byte>,
                         prefix: array<nat>, suffix: array<nat>, stack: array<nat>, px: array<nat>,
                         g: Regs, code: nat)
    returns (g': Regs, halted: bool)
    requires prefix.Length == MaxStackSize && suffix.Length == MaxStackSize && stack.Length == MaxStackSize
    requires stack != prefix && stack != suffix && prefix != suffix
    requires px != prefix && px != suffix && px != stack
    requires Valid(minCodeSize, data, Abstract(g, prefix[..], suffix[..], px[..]))
    requires RegsOk(g, px.Length) && g.pi < px.Length && code < MaxStackSize
    modifies prefix, suffix, stack, px
    ensures var st := Dispatch(minCodeSize, Abstract(g, old(prefix[..]), old(suffix[..]), old(px[..])), code);
      && RegsOk(g', px.Length) && (halted <==> st.Halt?)
      && Abstract(g', prefix[..], suffix[..], px[..]) == st.s
  {
    var clear := ClearCode(minCodeSize);
    if code == clear {
      Pow2Monotone(minCodeSize, MaxMinCodeSize);
      return g.(codeSize := minCodeSize + 1, codeMask := Pow2(minCodeSize + 1) - 1,
                nextCode := clear + 2, oldCode := -1), false;
    }
    if code == clear + 1 {
      return g, true;
    }
    if g.oldCode == -1 {
      px[g.pi] := suffix[code];
      return g.(pi := g.pi + 1, oldCode := code, first := code), false;
    }
    ghost var s := Abstract(g, prefix[..], suffix[..], px[..]);
    var first, pi, top := EmitInPlace(minCodeSize, prefix, suffix, stack, px, g.nextCode, g.first,
                                      g.oldCode as nat, g.pi, code, s);
    ghost var e := Emit(minCodeSize, s, code);
    var cs, cm, nc := AddInPlace(prefix, suffix, g.codeSize, g.codeMask, g.nextCode, g.oldCode as nat, first, e);
    g' := Regs(cs, cm, nc, g.datum, g.bits, g.bi, first, code, pi, top);
    halted := false;
  }

  /** One pass of the main loop, in place. */
  method Iterate(minCodeSize: nat, data: seq<byte>,
                 prefix: array<nat>, suffix: array<nat>, stack: array<nat>, px: array<nat>, g: Regs)
    returns (g': Regs, halted: bool)
    requires prefix.Length == MaxStackSize && suffix.Length == MaxStackSize && stack.Length == MaxStackSize
    requires stack != prefix && stack != suffix && prefix != suffix
    requires px != prefix && px != suffix && px != stack
    requires Valid(minCodeSize, data, Abstract(g, prefix[..], suffix[..], px[..]))
    requires RegsOk(g, px.Length) && g.pi < px.Length
    modifies prefix, suffix, stack, px
    ensures var st := Step(minCodeSize, data, Abstract(g, old(prefix[..]), old(suffix[..]), old(px[..])));
      && RegsOk(g', px.Length) && (halted <==> st.Halt?)
      && Abstract(g', prefix[..], suffix[..], px[..]) == st.s
  {
    ghost var s := Abstract(g, prefix[..], suffix[..], px[..]);
    var res := ReadInPlace(data, g.codeSize, g.datum, g.bits, g.bi);
    var r := res.rest;
    var g1 := g.(datum := r.datum, bits := r.bits, bi := r.bi);
    if res.Exhausted? {
      return g1, true;
    }
    ReadCodeLsbFirst(data, g.codeSize, s.reader);
    Pow2Monotone(g.codeSize, 12);
    Pow2Small();
    g', halted := DispatchInPlace(minCodeSize, data, prefix, suffix, stack, px, g1, res.code);
  }

  /** `for (code = 0; code < clearCode; code++) { prefix[code] = 0; suffix[code] = code; }` on zeroed arrays. */
  method FillTables(minCodeSize: nat, prefix: array<nat>, suffix: array<nat>)
    requires minCodeSize <= MaxMinCodeSize
    requires prefix.Length == MaxStackSize && suffix.Length == MaxStackSize && prefix != suffix
    requires forall i :: 0 <= i < MaxStackSize ==> prefix[i] == 0 && suffix[i] == 0
    modifies prefix, suffix
    ensures prefix[..] == Init(minCodeSize, 0).prefix && suffix[..] == InitialSuffix(minCodeSize)
  {
    var clear := ClearCode(minCodeSize);
    Pow2Monotone(minCodeSize, MaxMinCodeSize);
    Pow2Small();
    var c := 0;
    while c < clear
      invariant c <= clear
      invariant forall i :: 0 <= i < MaxStackSize ==> prefix[i] == 0
      invariant forall i :: 0 <= i < MaxStackSize ==> suffix[i] == if i < c then i % 256 else 0
    {
      prefix[c] := 0;
      suffix[c] := c % 256;
      c := c + 1;
    }
  }

  /** One pass of the loop, seen from the functional decoder: the run it is part of goes on to the same end. */
  method Advance(minCodeSize: nat, data: seq<byte>,
                 prefix: array<nat>, suffix: array<nat>, stack: array<nat>, px: array<nat>, g: Regs,
                 ghost s: Decoder, ghost fin: (Decoder, Stop))
    returns (g': Regs, halted: bool, ghost s': Decoder)
    requires prefix.Length == MaxStackSize && suffix.Length == MaxStackSize && stack.Length == MaxStackSize
    requires stack != prefix && stack != suffix && prefix != suffix
    requires px != prefix && px != suffix && px != stack
    requires RegsOk(g, px.Length) && g.pi < px.Length
    requires Valid(minCodeSize, data, s) && s == Abstract(g, prefix[..], suffix[..], px[..])
    requires Run(minCodeSize, data, s) == fin
    modifies prefix, suffix, stack, px
    ensures RegsOk(g', px.Length) && Valid(minCodeSize, data, s')
    ensures s' == Abstract(g', prefix[..], suffix[..], px[..])
    ensures !halted ==> Run(minCodeSize, data, s') == fin && BitsLeft(data, s'.reader) < BitsLeft(data, s.reader)
    ensures halted ==> s' == fin.0
  {
    RunStep(minCodeSize, data, s);
    StepValid(minCodeSize, data, s);
    g', halted := Iterate(minCodeSize, data, prefix, suffix, stack, px, g);
    s' := Step(minCodeSize, data, s).s;
  }

  /** The decoding loop on the arrays: it ends where the functional run from the same state ends. */
  method RunLoop(minCodeSize: nat, data: seq<byte>,
                 prefix: array<nat>, suffix: array<nat>, stack: array<nat>, px: array<nat>, g: Regs,
                 ghost s0: Decoder)
    returns (g': Regs)
    requires prefix.Length == MaxStackSize && suffix.Length == MaxStackSize && stack.Length == MaxStackSize
    requires stack != prefix && stack != suffix && prefix != suffix
    requires px != prefix && px != suffix && px != stack
    requires RegsOk(g, px.Length) && Valid(minCodeSize, data, s0)
    requires s0 == Abstract(g, prefix[..], suffix[..], px[..])
    modifies prefix, suffix, stack, px
    ensures Abstract(g', prefix[..], suffix[..], px[..]) == Run(minCodeSize, data, s0).0
  {
    ghost var fin := Run(minCodeSize, data, s0);
    ghost var s := s0;
    g' := g;
    var halted := false;
    while g'.pi < px.Length && !halted
      invariant RegsOk(g', px.Length) && Valid(minCodeSize, data, s)
      invariant s == Abstract(g', prefix[..], suffix[..], px[..])
      invariant !halted ==> Run(minCodeSize, data, s) == fin
      invariant halted ==> s == fin.0
      decreases !halted, BitsLeft(data, s.reader)
    {
      g', halted, s := Advance(minCodeSize, data, prefix, suffix, stack, px, g', s, fin);
    }
  }

  /**
   * `lzwDecode(minCodeSize, data, pixelCount)`: the same bytes as the
   * functional decoder, computed with in-place arrays.
   */
  method LzwDecode(minCodeSize: nat, data: seq<byte>, pixelCount: nat) returns (pixels: seq<byte>)
    requires minCodeSize <= MaxMinCodeSize
    ensures pixels == Decode(minCodeSize, data, pixelCount)
  {
    var px := new nat[pixelCount](_ => 0);
    var prefix := new nat[MaxStackSize](_ => 0);
    var suffix := new nat[MaxStackSize](_ => 0);
    var stack := new nat[MaxStackSize](_ => 0);
    var clear := ClearCode(minCodeSize);
    FillTables(minCodeSize, prefix, suffix);
    var g := Regs(minCodeSize + 1, Pow2(minCodeSize + 1) - 1, clear + 2, 0, 0, 0, 0, -1, 0, 0);
    ghost var s := Init(minCodeSize, pixelCount);
    assert px[..] == s.pixels;
    assert Abstract(g, prefix[..], suffix[..], px[..]) == s;
    InitValid(minCodeSize, data, pixelCount);
    g := RunLoop(minCodeSize, data, prefix, suffix, stack, px, g, s);
    pixels := ToBytes(px[..]);
  }
}

=== FILE: media.dfy ===
/**
 * How the content script picks the images it takes over: URL classification
 * of GIF and WebP sources, the size threshold, and the check of a WebP
 * file's first bytes for the animation flag (RIFF container, "WEBP" form
 * type, an extended-format "VP8X" chunk whose flags byte has the animation
 * bit, RFC 9649 sections 2.4 and 2.7).
 */
module Media {
  import opened Bits
  import opened Text

  const Riff: seq<byte> := [0x52, 0x49, 0x46, 0x46]
  const WebpTag: seq<byte> := [0x57, 0x45, 0x42, 0x50]
  const Vp8xTag: seq<byte> := [0x56, 0x50, 0x38, 0x58]

  /** Offset of the VP8X flags byte; bit 1 of it is the animation flag. */
  const FlagsOffset: nat := 20

  /**
   * `checkWebPHeader(data)`: at least 24 bytes, "RIFF" at 0, "WEBP" at 8,
   * "VP8X" at 12, and the animation bit set in byte 20.
   */
  function CheckWebPHeader(data: seq<byte>): (animated: bool)
  {
    if |data| < 24 then false
    else if data[0] != 0x52 || data[1] != 0x49 || data[2] != 0x46 || data[3] != 0x46 then false
    else if data[8] != 0x57 || data[9] != 0x45 || data[10] != 0x42 || data[11] != 0x50 then false
    else if data[12] != 0x56 || data[13] != 0x50 || data[14] != 0x38 || data[15] != 0x58 then false
    else (data[20] / 2) % 2 == 1
  }

  /** Four bytes from offset `o`, as a sequence display. */
  lemma Slice4(data: seq<byte>, o: nat)
    requires o + 4 <= |data|
    ensures data[o..o + 4] == [data[o], data[o + 1], data[o + 2], data[o + 3]]
  {
  }

  /**
   * The byte-by-byte comparisons amount to the container layout: a RIFF
   * file of form type "WEBP" whose first chunk is "VP8X" with the
   * animation flag (bit 1 of the flags byte) set.
   */
  lemma CheckWebPHeaderSpec(data: seq<byte>)
    ensures CheckWebPHeader(data) <==>
      && |data| >= 24
      && data[0..4] == Riff && data[8..12] == WebpTag && data[12..16] == Vp8xTag
      && data[FlagsOffset] % 4 >= 2
  {
    if |data| >= 24 {
      Slice4(data, 0);
      Slice4(data, 8);
      Slice4(data, 12);
      assert (data[20] / 2) % 2 == 1 <==> data[20] % 4 >= 2;
    }
  }

  /**
   * Only bytes 0-3, 8-15 and 20 are looked at: two headers of at least 24
   * bytes that agree there are classified alike, whatever the rest holds.
   */
  lemma CheckWebPHeaderInspects(a: seq<byte>, b: seq<byte>)
    requires |a| >= 24 && |b| >= 24
    requires a[0..4] == b[0..4] && a[8..16] == b[8..16] && a[FlagsOffset] == b[FlagsOffset]
    ensures CheckWebPHeader(a) == CheckWebPHeader(b)
  {
    assert a[8..12] == a[8..16][0..4] && b[8..12] == b[8..16][0..4];
    assert a[12..16] == a[8..16][4..8] && b[12..16] == b[8..16][4..8];
  }

  /** `isWebP(src)`: the lower-cased URL mentions ".webp" anywhere. */
  predicate IsWebP(src: string)
  {
    Contains(ToLower(src), ".webp")
  }

  /** What `isTargetImage` asks of one extension, given the lower-cased `src` and `srcset`. */
  predicate MentionsFormat(src: string, srcset: string, ext: string)
  {
    || EndsWith(src, ext)
    || Contains(src, ext + "?")
    || Contains(src, ext + "#")
    || Contains(srcset, ext)
  }

  /**
   * `isTargetImage(img)`: the image's `src` (or "" when missing) ends in
   * ".gif" or ".webp" or has one of them right before a query or a fragment,
   * or its `srcset` mentions either, all compared in lower case.
   */
  predicate IsTargetImage(src: string, srcset: string)
  {
    var s, ss := ToLower(src), ToLower(srcset);
    MentionsFormat(s, ss, ".gif") || MentionsFormat(s, ss, ".webp")
  }

  /** The classification ignores letter case. */
  lemma IsTargetImageCaseBlind(src: string, srcset: string)
    ensures IsTargetImage(ToLower(src), ToLower(srcset)) == IsTargetImage(src, srcset)
  {
    ToLowerIdempotent(src);
    ToLowerIdempotent(srcset);
  }

  /** Containing `p + q` means containing `p`. */
  lemma ContainsPrefix(s: string, p: string, q: string)
    requires Contains(s, p + q)
    ensures Contains(s, p)
  {
    ContainsIff(s, p + q);
    var i: nat :| OccursAt(s, p + q, i);
    assert s[i..i + |p|] == s[i..i + |p + q|][..|p|];
    assert OccursAt(s, p, i);
    ContainsIff(s, p);
  }

  /**
   * An image taken over because of a ".webp" `src` is one the controller
   * then plays as WebP.
   */
  lemma WebPSourceIsWebP(src: string)
    requires MentionsFormat(ToLower(src), "", ".webp")
    ensures IsWebP(src)
  {
    var s := ToLower(src);
    if EndsWith(s, ".webp") {
      EndsWithContains(s, ".webp");
    } else if Contains(s, ".webp" + "?") {
      ContainsPrefix(s, ".webp", "?");
    } else if Contains(s, ".webp" + "#") {
      ContainsPrefix(s, ".webp", "#");
    } else {
      ContainsIff("", ".webp");
    }
  }

  /** `meetsMinSize(img)`: either natural dimension reaches its threshold. */
  predicate MeetsMinSize(naturalWidth: nat, naturalHeight: nat, minWidth: int, minHeight: int)
  {
    naturalWidth >= minWidth || naturalHeight >= minHeight
  }

  /**
   * An image that is at least as large in both dimensions as one that
   * qualifies qualifies too, and one dimension alone can qualify an image.
   */
  lemma MeetsMinSizeMonotone(w: nat, h: nat, w': nat, h': nat, minWidth: int, minHeight: int)
    requires MeetsMinSize(w, h, minWidth, minHeight) && w <= w' && h <= h'
    ensures MeetsMinSize(w', h', minWidth, minHeight)
    ensures MeetsMinSize(w', 0, minWidth, minHeight) || MeetsMinSize(0, h', minWidth, minHeight)
  {
  }
}

=== FILE: player.dfy ===
/**
 * The playback controller of the content script (`GifController`): the
 * canvas that accumulates frames, the frame counter, the disposal flag, the
 * play/pause state with its pending timer, and the speed ladder.
 *
 * The accumulation canvas is a list of rows of RGBA pixels. The timer is
 * either absent or armed with a delay in milliseconds; what happens in the
 * gap between the timer firing and the animation-frame callback is not
 * modelled. Speeds and delays are exact rationals (`real`) rather than
 * floating-point numbers.
 */
module Player {
  import opened Bits
  import opened Wrappers
  import Decompress
  import GifParser
  import Lzw

  datatype Pixel = Pixel(r: byte, g: byte, b: byte, a: byte)

  /** What `clearRect` leaves: transparent black. */
  const Cleared: Pixel := Pixel(0, 0, 0, 0)

  /** Rows of pixels, top row first. */
  type Canvas = seq<seq<Pixel>>

  predicate Sized(c: Canvas, width: nat, height: nat)
  {
    |c| == height && forall y :: 0 <= y < height ==> |c[y]| == width
  }

  /** A canvas of the given size with every pixel cleared. */
  function Blank(width: nat, height: nat): (c: Canvas)
    ensures Sized(c, width, height)
    ensures forall y, x :: 0 <= y < height && 0 <= x < width ==> c[y][x] == Cleared
  {
    seq(height, _ => seq(width, _ => Cleared))
  }

  /**
   * A frame as the controller holds it: a GIF frame from `decompressFrames`
   * (its patch and placement), or a WebP frame from the platform decoder (a
   * full composed image, when one was produced). Delays are in milliseconds.
   */
  datatype Frame =
    | GifFrame(delay: real, disposal: nat, dims: Decompress.Dims, patch: seq<byte>)
    | WebPFrame(delay: real, bitmap: Option<Canvas>)

  /**
   * A GIF frame covers at least one pixel (`createImageData` throws on a
   * zero width or height), its patch holds four bytes per pixel of its
   * rectangle and alpha is always 0 or 255 (what `decompressFrames`
   * produces). A WebP controller
   * holds only WebP frames and a GIF controller only GIF frames.
   */
  predicate FrameOk(isWebP: bool, f: Frame)
  {
    match f
    case GifFrame(_, _, dims, patch) =>
      && !isWebP
      && dims.width > 0 && dims.height > 0
      && |patch| == 4 * (dims.width * dims.height)
      && forall i :: 0 <= i < dims.width * dims.height ==> patch[4 * i + 3] == 0 || patch[4 * i + 3] == 255
    case WebPFrame(_, _) => isWebP
  }

  lemma {:induction false} MulMonotone(a: nat, b: nat, w: nat)
    requires a <= b
    ensures a * w <= b * w
    decreases b - a
  {
    if a < b {
      MulMonotone(a, b - 1, w);
      MulSucc(b - 1, w);
    }
  }

  /** Pixel `(x, y)` of a `width`-by-`height` rectangle stored row by row. */
  function PixelIndex(width: nat, height: nat, x: nat, y: nat): (k: nat)
    requires x < width && y < height
    ensures k < width * height
  {
    MulMonotone(y + 1, height, width);
    MulSucc(y, width);
    y * width + x
  }

  /** The patch rectangle placed at `(left, top)` covers canvas pixel `(x, y)`. */
  predicate Covers(dims: Decompress.Dims, x: nat, y: nat)
  {
    dims.left <= x < dims.left + dims.width && dims.top <= y < dims.top + dims.height
  }

  /**
   * The patch pixel that lands on canvas pixel `(x, y)`. A patch of the
   * right length (see `FrameOk`) always holds it; a shorter one would read
   * as cleared.
   */
  function PatchRgba(dims: Decompress.Dims, patch: seq<byte>, x: nat, y: nat): Pixel
    requires Covers(dims, x, y)
  {
    var k := PixelIndex(dims.width, dims.height, x - dims.left, y - dims.top);
    if 4 * k + 3 < |patch| then Pixel(patch[4 * k], patch[4 * k + 1], patch[4 * k + 2], patch[4 * k + 3])
    else Cleared
  }

  /**
   * `drawImage` of the patch at `(left, top)` with `source-over`: where the
   * patch pixel is opaque it replaces the canvas pixel, where it is
   * transparent the canvas shows through; pixels past the canvas edge are
   * dropped. `DrawGifPixels` states the result pixel by pixel.
   */
  function DrawGif(canvas: Canvas, dims: Decompress.Dims, patch: seq<byte>): Canvas
  {
    seq(|canvas|, y => GifRow(canvas, y, dims, patch))
  }

  /** Row `y` of `DrawGif`. */
  function GifRow(canvas: Canvas, y: int, dims: Decompress.Dims, patch: seq<byte>): seq<Pixel>
  {
    if 0 <= y < |canvas| then seq(|canvas[y]|, x => GifPixel(canvas[y], x, y, dims, patch)) else []
  }

  /** Pixel `(x, y)` of `DrawGif`. */
  function GifPixel(row: seq<Pixel>, x: int, y: nat, dims: Decompress.Dims, patch: seq<byte>): Pixel
  {
    if x < 0 || x >= |row| then Cleared
    else if Covers(dims, x, y) && PatchRgba(dims, patch, x, y).a != 0 then PatchRgba(dims, patch, x, y)
    else row[x]
  }

  /** A GIF draw keeps the canvas shape and changes exactly the covered pixels whose patch pixel is not transparent. */
  lemma DrawGifPixels(canvas: Canvas, dims: Decompress.Dims, patch: seq<byte>)
    ensures var r := DrawGif(canvas, dims, patch);
      && |r| == |canvas| && (forall y :: 0 <= y < |r| ==> |r[y]| == |canvas[y]|)
      && (forall y, x :: 0 <= y < |canvas| && 0 <= x < |canvas[y]| && !Covers(dims, x, y) ==>
            r[y][x] == canvas[y][x])
      && (forall y, x :: 0 <= y < |canvas| && 0 <= x < |canvas[y]| && Covers(dims, x, y) ==>
            r[y][x] == if PatchRgba(dims, patch, x, y).a == 0 then canvas[y][x] else PatchRgba(dims, patch, x, y))
  {
    var r := DrawGif(canvas, dims, patch);
    forall y | 0 <= y < |canvas|
      ensures r[y] == GifRow(canvas, y, dims, patch)
    {
    }
  }

  /**
   * The WebP branch: `clearRect` of the whole canvas, then `drawImage` of
   * the composed frame at `(0, 0)`; the canvas shows the frame where the
   * frame reaches and is cleared elsewhere.
   */
  function DrawBitmap(canvas: Canvas, bitmap: Canvas): Canvas
  {
    seq(|canvas|, y => BitmapRow(canvas, bitmap, y))
  }

  /** Row `y` of `DrawBitmap`. */
  function BitmapRow(canvas: Canvas, bitmap: Canvas, y: int): seq<Pixel>
  {
    if 0 <= y < |canvas| then seq(|canvas[y]|, x => BitmapPixel(bitmap, x, y)) else []
  }

  /** Pixel `(x, y)` of the bitmap, cleared where the bitmap does not reach. */
  function BitmapPixel(bitmap: Canvas, x: int, y: int): Pixel
  {
    if 0 <= y < |bitmap| && 0 <= x < |bitmap[y]| then bitmap[y][x] else Cleared
  }

  /** A WebP draw keeps the canvas shape; each pixel is the bitmap's where it reaches and cleared elsewhere. */
  lemma DrawBitmapPixels(canvas: Canvas, bitmap: Canvas)
    ensures var r := DrawBitmap(canvas, bitmap);
      && |r| == |canvas| && (forall y :: 0 <= y < |r| ==> |r[y]| == |canvas[y]|)
      && (forall y, x :: 0 <= y < |canvas| && 0 <= x < |canvas[y]| ==>
            r[y][x] == if y < |bitmap| && x < |bitmap[y]| then bitmap[y][x] else Cleared)
  {
    var r := DrawBitmap(canvas, bitmap);
    forall y | 0 <= y < |canvas|
      ensures r[y] == BitmapRow(canvas, bitmap, y)
    {
    }
  }

  /** `drawPatch(frame)` on the accumulation canvas; `CompositePixels` states what it leaves. */
  function DrawPatch(isWebP: bool, canvas: Canvas, f: Frame): Canvas
  {
    match f
    case WebPFrame(_, bitmap) => if bitmap.Some? then DrawBitmap(canvas, bitmap.value) else canvas
    case GifFrame(_, _, dims, patch) => DrawGif(canvas, dims, patch)
  }

  /** Drawing the same GIF patch twice leaves what drawing it once leaves. */
  lemma DrawGifIdempotent(canvas: Canvas, dims: Decompress.Dims, patch: seq<byte>)
    ensures DrawGif(DrawGif(canvas, dims, patch), dims, patch) == DrawGif(canvas, dims, patch)
  {
    var once := DrawGif(canvas, dims, patch);
    var twice := DrawGif(once, dims, patch);
    DrawGifPixels(canvas, dims, patch);
    DrawGifPixels(once, dims, patch);
    forall y | 0 <= y < |once|
      ensures twice[y] == once[y]
    {
      forall x | 0 <= x < |once[y]|
        ensures twice[y][x] == once[y][x]
      {
      }
    }
  }

  /** A WebP frame hides everything drawn before it: the result does not depend on the old canvas. */
  lemma DrawBitmapForgets(c1: Canvas, c2: Canvas, bitmap: Canvas, width: nat, height: nat)
    requires Sized(c1, width, height) && Sized(c2, width, height)
    ensures DrawBitmap(c1, bitmap) == DrawBitmap(c2, bitmap)
  {
    var r1, r2 := DrawBitmap(c1, bitmap), DrawBitmap(c2, bitmap);
    DrawBitmapPixels(c1, bitmap);
    DrawBitmapPixels(c2, bitmap);
    forall y | 0 <= y < height
      ensures r1[y] == r2[y]
    {
      assert |r1[y]| == |r2[y]| == width;
    }
  }

  /**
   * The frame `decompressFrames(gif, true)` hands the controller for one
   * parsed frame: the patch built from the LZW-decoded, deinterlaced colour
   * indices, with an alpha of 0 or 255 throughout.
   */
  function LoadGifFrame(raw: GifParser.RawFrame): (f: Frame)
    requires Decompress.Decodable(raw, true) && raw.width > 0 && raw.height > 0
    ensures FrameOk(false, f)
    ensures f.delay == raw.delay as real && f.disposal == raw.disposal
    ensures f.dims == Decompress.Dims(raw.width, raw.height, raw.left, raw.top)
    ensures f.patch == Decompress.DecompressFrame(raw, true).patch.value
    ensures f.patch == Decompress.FramePatch(Lzw.Decode(raw.minCodeSize, raw.data, raw.width * raw.height),
      raw.width, raw.height, raw.interlaced, if raw.colorTable.Some? then raw.colorTable.value else [], raw.transparent)
  {
    var d := Decompress.DecompressFrame(raw, true);
    GifFrame(d.delay as real, d.disposal, d.dims, d.patch.value)
  }

  // ---------------------------------------------------------------------------
  // Compositing one frame
  // ---------------------------------------------------------------------------

  /** The accumulation canvas and the flag saying it must be cleared before the next frame. */
  datatype Picture = Picture(canvas: Canvas, needsDisposal: bool)

  /** A GIF frame with disposal method 2 has the canvas cleared before the next frame. */
  predicate DisposesToClear(isWebP: bool, f: Frame)
  {
    !isWebP && f.GifFrame? && f.disposal == 2
  }

  /**
   * One frame composited onto the picture, as both `renderFrame` and the
   * loop of `seekToFrame` do it: the whole canvas is cleared first when the
   * flag is set, then the frame is drawn; the flag is then set exactly for
   * a GIF frame with disposal method 2 (methods 0, 1 and 3 all keep the
   * picture). `CompositePixels` states the result pixel by pixel.
   */
  function Composite(isWebP: bool, width: nat, height: nat, pic: Picture, f: Frame): (r: Picture)
    ensures r.needsDisposal <==> !isWebP && f.GifFrame? && f.disposal == 2
  {
    var base := if pic.needsDisposal then Blank(width, height) else pic.canvas;
    Picture(DrawPatch(isWebP, base, f), DisposesToClear(isWebP, f))
  }

  /** Compositing keeps a canvas of the screen size at that size. */
  lemma CompositeSized(isWebP: bool, width: nat, height: nat, pic: Picture, f: Frame)
    requires Sized(pic.canvas, width, height)
    ensures Sized(Composite(isWebP, width, height, pic, f).canvas, width, height)
  {
    var base := if pic.needsDisposal then Blank(width, height) else pic.canvas;
    match f
    case GifFrame(_, _, dims, patch) => DrawGifPixels(base, dims, patch);
    case WebPFrame(_, bitmap) => if bitmap.Some? { DrawBitmapPixels(base, bitmap.value); }
  }

  /**
   * The picture after compositing, pixel by pixel: where an opaque GIF
   * patch pixel lies, that pixel; elsewhere cleared if the flag was set and
   * unchanged otherwise. A WebP image shows where it reaches and leaves the
   * rest cleared.
   */
  lemma CompositePixels(isWebP: bool, width: nat, height: nat, pic: Picture, f: Frame)
    requires FrameOk(isWebP, f) && Sized(pic.canvas, width, height)
    ensures var r := Composite(isWebP, width, height, pic, f);
      && Sized(r.canvas, width, height)
      && (f.GifFrame? ==> forall y, x :: 0 <= y < height && 0 <= x < width ==>
            r.canvas[y][x] ==
              if Covers(f.dims, x, y) && PatchRgba(f.dims, f.patch, x, y).a == 255 then PatchRgba(f.dims, f.patch, x, y)
              else if pic.needsDisposal then Cleared
              else pic.canvas[y][x])
      && (f.WebPFrame? && f.bitmap.Some? ==> forall y, x :: 0 <= y < height && 0 <= x < width ==>
            r.canvas[y][x] == if y < |f.bitmap.value| && x < |f.bitmap.value[y]| then f.bitmap.value[y][x] else Cleared)
      && (f.WebPFrame? && f.bitmap.None? ==>
            r.canvas == if pic.needsDisposal then Blank(width, height) else pic.canvas)
  {
    CompositeSized(isWebP, width, height, pic, f);
    var base := if pic.needsDisposal then Blank(width, height) else pic.canvas;
    match f
    case GifFrame(_, _, dims, patch) => GifAlpha(f, base, width, height);
    case WebPFrame(_, bitmap) => if bitmap.Some? { DrawBitmapPixels(base, bitmap.value); }
  }

  /** Patch alpha is 0 or 255, so "not 0" and "255" pick the same pixels. */
  lemma GifAlpha(f: Frame, base: Canvas, width: nat, height: nat)
    requires FrameOk(false, f) && f.GifFrame? && Sized(base, width, height)
    ensures var drawn := DrawGif(base, f.dims, f.patch);
      forall y, x :: 0 <= y < height && 0 <= x < width ==>
        drawn[y][x] == if Covers(f.dims, x, y) && PatchRgba(f.dims, f.patch, x, y).a == 255
                       then PatchRgba(f.dims, f.patch, x, y) else base[y][x]
  {
    DrawGifPixels(base, f.dims, f.patch);
    forall y, x | 0 <= y < height && 0 <= x < width && Covers(f.dims, x, y)
      ensures PatchRgba(f.dims, f.patch, x, y).a == 0 || PatchRgba(f.dims, f.patch, x, y).a == 255
    {
      var k := PixelIndex(f.dims.width, f.dims.height, x - f.dims.left, y - f.dims.top);
      assert PatchRgba(f.dims, f.patch, x, y).a == f.patch[4 * k + 3];
    }
  }

  // ---------------------------------------------------------------------------
  // The controller
  // ---------------------------------------------------------------------------

  /** `getSpeedLevels()`. */
  const Levels: seq<real> := [0.1, 0.2, 0.4, 0.6, 1.0, 1.2, 1.5, 2.0, 2.5, 3.0, 4.0]

  /** The rung a new controller starts on: `playbackSpeed = 1.0`. */
  const InitialRung: nat := 4

  /**
   * The controller state. The speed is kept as its rung on the ladder,
   * `playbackSpeed == Levels[speedIndex]`; `timer` is the pending
   * `setTimeout` with its delay in milliseconds, `None` when there is none.
   */
  datatype Player = Player(
    frames: seq<Frame>,
    isWebP: bool,
    width: nat,
    height: nat,
    pic: Picture,
    frameIndex: nat,
    playing: bool,
    speedIndex: nat,
    timer: Option<real>)

  /** Frames to show, an index into them, a rung of the ladder. */
  predicate Core(p: Player)
  {
    && |p.frames| > 0
    && p.frameIndex < |p.frames|
    && p.speedIndex < |Levels|
  }

  /** A timer is pending exactly while the animation plays. */
  predicate Valid(p: Player)
  {
    Core(p) && (p.timer.Some? <==> p.playing)
  }

  /**
   * What drawing relies on: every frame is of the controller's kind with a
   * well-formed patch, and the canvas has the screen size. Kept apart from
   * `Valid` because no transition needs it to be defined.
   */
  predicate Drawable(p: Player)
  {
    && (forall i :: 0 <= i < |p.frames| ==> FrameOk(p.isWebP, p.frames[i]))
    && Sized(p.pic.canvas, p.width, p.height)
  }

  /** `playbackSpeed`. */
  function Speed(p: Player): real
    requires p.speedIndex < |Levels|
  {
    Levels[p.speedIndex]
  }

  /**
   * A controller whose frames have just been loaded, as `init` leaves it
   * before the optional `play`: frame 0 drawn on the fresh canvas, no clear
   * pending (even after a frame with disposal method 2), the counter still
   * at 0, paused at speed 1.0.
   */
  function Init(frames: seq<Frame>, isWebP: bool, width: nat, height: nat): (p: Player)
    requires |frames| > 0 && forall i :: 0 <= i < |frames| ==> FrameOk(isWebP, frames[i])
    ensures Valid(p) && Drawable(p)
    ensures !p.playing && p.frameIndex == 0 && Speed(p) == 1.0 && !p.pic.needsDisposal
    ensures p.pic.canvas == Composite(isWebP, width, height, Picture(Blank(width, height), false), frames[0]).canvas
    ensures p.frames == frames && p.isWebP == isWebP && p.width == width && p.height == height && p.timer.None?
  {
    CompositeSized(isWebP, width, height, Picture(Blank(width, height), false), frames[0]);
    Player(frames, isWebP, width, height, Picture(DrawPatch(isWebP, Blank(width, height), frames[0]), false),
           0, false, InitialRung, None)
  }

  /** `frame.delay || 100`: a zero delay counts as 100 ms. */
  function BaseDelay(f: Frame): (d: real)
    ensures d > 0.0 || (f.delay < 0.0 && d == f.delay)
  {
    if f.delay == 0.0 then 100.0 else f.delay
  }

  /** The index after `i` among `n` frames: the next one, or 0 after the last. */
  function NextIndex(i: nat, n: nat): nat
  {
    if i + 1 < n then i + 1 else 0
  }

  /** `NextIndex` is `(i + 1) % n`: it stays in range and wraps to 0 only past the last frame. */
  lemma CyclicNext(i: nat, n: nat)
    requires i < n
    ensures NextIndex(i, n) == (i + 1) % n && NextIndex(i, n) < n
  {
  }

  /**
   * `renderFrame()`: composite the current frame, advance the index
   * cyclically and, while playing, arm the timer with the delay of the
   * frame just drawn divided by the speed. Nothing else changes.
   */
  function RenderFrame(p: Player): (r: Player)
    requires Core(p)
    ensures Core(r)
    ensures r == p.(pic := r.pic, frameIndex := r.frameIndex, timer := r.timer)
    ensures r.frameIndex == NextIndex(p.frameIndex, |p.frames|)
    ensures r.pic == Composite(p.isWebP, p.width, p.height, p.pic, p.frames[p.frameIndex])
    ensures p.playing ==> r.timer == Some(BaseDelay(p.frames[p.frameIndex]) / Speed(p))
    ensures !p.playing ==> r.timer == p.timer
  {
    var frame := p.frames[p.frameIndex];
    var next := if p.frameIndex + 1 >= |p.frames| then 0 else p.frameIndex + 1;
    p.(pic := Composite(p.isWebP, p.width, p.height, p.pic, frame),
       frameIndex := next,
       timer := if p.playing then Some(BaseDelay(frame) / Levels[p.speedIndex]) else p.timer)
  }

  /** Rendering keeps the frames well formed and the canvas at the screen size. */
  lemma RenderFrameDrawable(p: Player)
    requires Core(p) && Drawable(p)
    ensures Drawable(RenderFrame(p))
  {
    CompositeSized(p.isWebP, p.width, p.height, p.pic, p.frames[p.frameIndex]);
  }

  /**
   * The pending timer fires: the frame the counter points at is composited,
   * the counter advances and the timer is re-armed; nothing else changes.
   */
  function Tick(p: Player): (r: Player)
    requires Valid(p) && p.timer.Some?
    ensures Valid(r) && r.playing && r.timer.Some?
    ensures r.pic == Composite(p.isWebP, p.width, p.height, p.pic, p.frames[p.frameIndex])
    ensures r.frameIndex == NextIndex(p.frameIndex, |p.frames|)
    ensures r.timer == Some(BaseDelay(p.frames[p.frameIndex]) / Speed(p))
    ensures r == p.(pic := r.pic, frameIndex := r.frameIndex, timer := r.timer)
  {
    RenderFrame(p.(timer := None))
  }

  /** `play()`: nothing when already playing; otherwise start playing and render a frame at once. */
  function Play(p: Player): (r: Player)
    requires Valid(p)
    ensures Valid(r) && r.playing
    ensures p.playing ==> r == p
    ensures !p.playing ==>
      && r.pic == Composite(p.isWebP, p.width, p.height, p.pic, p.frames[p.frameIndex])
      && r.frameIndex == NextIndex(p.frameIndex, |p.frames|)
      && r.timer == Some(BaseDelay(p.frames[p.frameIndex]) / Speed(p))
    ensures !p.playing ==> r == p.(playing := true, pic := r.pic, frameIndex := r.frameIndex, timer := r.timer)
  {
    if p.playing then p else RenderFrame(p.(playing := true))
  }

  /** `pause()`: stop playing and cancel the pending timer; the picture and the index stay. */
  function Pause(p: Player): (r: Player)
    requires Valid(p)
    ensures Valid(r) && !r.playing && r.timer.None?
    ensures r.pic == p.pic && r.frameIndex == p.frameIndex && r.speedIndex == p.speedIndex
  {
    p.(playing := false, timer := None)
  }

  /** `togglePlay()`: pause a playing controller, start a paused one. */
  function TogglePlay(p: Player): (r: Player)
    requires Valid(p)
    ensures Valid(r) && r.playing == !p.playing
    ensures p.playing ==> r == Pause(p)
    ensures !p.playing ==> r == Play(p)
  {
    if p.playing then Pause(p) else Play(p)
  }

  /**
   * With autoplay on, `init` calls `play` right after drawing frame 0, and
   * `renderFrame` draws frame 0 again: the picture is what one render of
   * frame 0 on a cleared canvas gives, so the early draw leaves no trace.
   */
  lemma AutoPlayDrawsFirstFrameOnce(frames: seq<Frame>, isWebP: bool, width: nat, height: nat)
    requires |frames| > 0 && forall i :: 0 <= i < |frames| ==> FrameOk(isWebP, frames[i])
    ensures var p := Play(Init(frames, isWebP, width, height));
      && p.playing && p.frameIndex == NextIndex(0, |frames|)
      && p.pic == Composite(isWebP, width, height, Picture(Blank(width, height), false), frames[0])
  {
    var blank := Blank(width, height);
    var f := frames[0];
    var drawn := DrawPatch(isWebP, blank, f);
    match f
    case GifFrame(_, _, dims, patch) =>
      DrawGifIdempotent(blank, dims, patch);
    case WebPFrame(_, bitmap) =>
      if bitmap.Some? {
        CompositeSized(isWebP, width, height, Picture(blank, false), f);
        DrawBitmapForgets(drawn, blank, bitmap.value, width, height);
      }
  }

  /** Toggling twice from playing comes back to a playing controller, one frame further on. */
  lemma ToggleTwice(p: Player)
    requires Valid(p) && p.playing
    ensures var r := TogglePlay(TogglePlay(p));
      r.playing && r.frameIndex == (p.frameIndex + 1) % |p.frames|
  {
    CyclicNext(p.frameIndex, |p.frames|);
  }

  // ---------------------------------------------------------------------------
  // Seeking
  // ---------------------------------------------------------------------------

  /** The redraw loop of `seekToFrame`: frames `i` up to `end` composited one after another. */
  function Replay(frames: seq<Frame>, isWebP: bool, width: nat, height: nat,
                  pic: Picture, i: nat, end: nat): Picture
    requires i <= end <= |frames|
    decreases end - i
  {
    if i == end then pic
    else Replay(frames, isWebP, width, height, Composite(isWebP, width, height, pic, frames[i]), i + 1, end)
  }

  /** The seek loop keeps the canvas at the screen size. */
  lemma {:induction false} ReplaySized(frames: seq<Frame>, isWebP: bool, width: nat, height: nat,
                                       pic: Picture, i: nat, end: nat)
    requires i <= end <= |frames| && Sized(pic.canvas, width, height)
    ensures Sized(Replay(frames, isWebP, width, height, pic, i, end).canvas, width, height)
    decreases end - i
  {
    if i < end {
      CompositeSized(isWebP, width, height, pic, frames[i]);
      ReplaySized(frames, isWebP, width, height, Composite(isWebP, width, height, pic, frames[i]), i + 1, end);
    }
  }

  /**
   * `seekToFrame(k)`: clear the canvas and the flag, composite frames 0 to
   * `k`, and leave the index at `k`; the play state and the timer are not
   * touched.
   */
  function SeekToFrame(p: Player, k: nat): (r: Player)
    requires Valid(p) && k < |p.frames|
    ensures Valid(r) && r.frameIndex == k
    ensures r == p.(pic := r.pic, frameIndex := k)
  {
    var pic := Replay(p.frames, p.isWebP, p.width, p.height, Picture(Blank(p.width, p.height), false), 0, k + 1);
    p.(pic := pic, frameIndex := k)
  }

  /** Seeking keeps the frames well formed and the canvas at the screen size. */
  lemma SeekToFrameDrawable(p: Player, k: nat)
    requires Valid(p) && Drawable(p) && k < |p.frames|
    ensures Drawable(SeekToFrame(p, k))
  {
    ReplaySized(p.frames, p.isWebP, p.width, p.height, Picture(Blank(p.width, p.height), false), 0, k + 1);
  }

  /** The progress bar's `input` handler: `pause()`, then `seekToFrame(k)`; no timer is left pending. */
  function SeekFromSlider(p: Player, k: nat): (r: Player)
    requires Valid(p) && k < |p.frames|
    ensures Valid(r) && !r.playing && r.timer.None? && r.frameIndex == k
    ensures r.pic == SeekToFrame(p, k).pic
    ensures r == p.(playing := false, timer := None, pic := r.pic, frameIndex := k)
  {
    SeekToFrame(Pause(p), k)
  }

  /** `m` calls of `renderFrame` in a row. */
  function Renders(p: Player, m: nat): (r: Player)
    requires Core(p)
    ensures Core(r)
    decreases m
  {
    if m == 0 then p else Renders(RenderFrame(p), m - 1)
  }

  /**
   * Rendering `m` frames from index `i`, without passing the end of the
   * list, composites what the seek loop composites for frames `i` to
   * `i + m`, and leaves the index at `i + m`, cyclically.
   */
  lemma {:induction false} RendersReplay(p: Player, m: nat)
    requires Core(p) && p.frameIndex + m <= |p.frames|
    ensures var r := Renders(p, m);
      && r.frameIndex == (if p.frameIndex + m < |p.frames| then p.frameIndex + m else 0)
      && r.frames == p.frames
      && r.pic == Replay(p.frames, p.isWebP, p.width, p.height, p.pic, p.frameIndex, p.frameIndex + m)
    decreases m
  {
    if m > 0 {
      var q := RenderFrame(p);
      assert Renders(p, m) == Renders(q, m - 1);
      var i, end := p.frameIndex, p.frameIndex + m;
      ReplayStep(p.frames, p.isWebP, p.width, p.height, p.pic, i, end);
      if i + 1 < |p.frames| {
        RendersReplay(q, m - 1);
      }
    }
  }

  /** The seek loop starts by compositing frame `i`. */
  lemma ReplayStep(frames: seq<Frame>, isWebP: bool, width: nat, height: nat, pic: Picture, i: nat, end: nat)
    requires i < end <= |frames|
    ensures Replay(frames, isWebP, width, height, pic, i, end)
         == Replay(frames, isWebP, width, height, Composite(isWebP, width, height, pic, frames[i]), i + 1, end)
  {
  }

  /** The state `seekToFrame` redraws from: cleared canvas, no pending disposal, index 0, paused. */
  function Rewound(p: Player): (r: Player)
    requires Core(p)
    ensures Core(r) && r.frameIndex == 0 && !r.pic.needsDisposal
  {
    p.(pic := Picture(Blank(p.width, p.height), false), frameIndex := 0, playing := false, timer := None)
  }

  /**
   * Seeking to frame `k` shows the same picture, with the same pending
   * disposal, as rendering `k + 1` frames from the start on a cleared
   * canvas; the rendering would leave the index at `k + 1` (cyclically),
   * seeking leaves it at `k`.
   */
  lemma SeekMatchesRenders(p: Player, k: nat)
    requires Valid(p) && k < |p.frames|
    ensures var s, r := SeekToFrame(p, k), Renders(Rewound(p), k + 1);
      && s.pic == r.pic
      && s.frameIndex == k && r.frameIndex == (k + 1) % |p.frames|
  {
    var q := Rewound(p);
    RendersReplay(q, k + 1);
    CyclicNext(k, |p.frames|);
  }

  // ---------------------------------------------------------------------------
  // Speed
  // ---------------------------------------------------------------------------

  /** `increaseSpeed()`: one rung up the ladder, nothing at the top. */
  function IncreaseSpeed(p: Player): (r: Player)
    requires Valid(p)
    ensures Valid(r) && r.(speedIndex := p.speedIndex) == p
    ensures Speed(p) == 4.0 <==> r == p
  {
    if p.speedIndex < |Levels| - 1 then p.(speedIndex := p.speedIndex + 1) else p
  }

  /** `decreaseSpeed()`: one rung down the ladder, nothing at the bottom. */
  function DecreaseSpeed(p: Player): (r: Player)
    requires Valid(p)
    ensures Valid(r) && r.(speedIndex := p.speedIndex) == p
    ensures Speed(p) == 0.1 <==> r == p
  {
    if p.speedIndex > 0 then p.(speedIndex := p.speedIndex - 1) else p
  }

  /** The ladder rises strictly. */
  predicate Increasing(levels: seq<real>)
  {
    forall i, j :: 0 <= i < j < |levels| ==> levels[i] < levels[j]
  }

  lemma LevelsIncreasing()
    ensures Increasing(Levels)
  {
  }

  /** `levels.indexOf(speed)`: the first position holding `speed`, or -1. */
  function IndexOf(levels: seq<real>, speed: real): (i: int)
    ensures -1 <= i < |levels|
    ensures i >= 0 ==> levels[i] == speed && forall j :: 0 <= j < i ==> levels[j] != speed
    ensures i == -1 ==> speed !in levels
  {
    if |levels| == 0 then -1
    else if levels[0] == speed then 0
    else var rest := IndexOf(levels[1..], speed); if rest == -1 then -1 else rest + 1
  }

  /**
   * On a strictly rising ladder `indexOf` finds each rung at its own
   * position, so keeping the rung instead of the speed loses nothing.
   */
  lemma IndexOfRung(levels: seq<real>, i: nat)
    requires Increasing(levels) && i < |levels|
    ensures IndexOf(levels, levels[i]) == i
  {
    assert levels[i] in levels;
  }

  /**
   * Up one rung exactly: the new speed is the smallest level above the old
   * one, and at 4.0 nothing changes.
   */
  lemma IncreaseSpeedStep(p: Player)
    requires Valid(p)
    ensures var r := IncreaseSpeed(p);
      && (Speed(p) < 4.0 ==> Speed(p) < Speed(r) && forall j :: 0 <= j < |Levels| && Speed(p) < Levels[j] ==> Speed(r) <= Levels[j])
      && (Speed(p) == 4.0 ==> r == p)
  {
    LevelsIncreasing();
    var i := p.speedIndex;
    if i < |Levels| - 1 {
      forall j | 0 <= j < |Levels| && Speed(p) < Levels[j]
        ensures Levels[i + 1] <= Levels[j]
      {
        if j > i + 1 {
          assert Levels[i + 1] < Levels[j];
        }
      }
    }
  }

  /**
   * Down one rung exactly: the new speed is the largest level below the old
   * one, and at 0.1 nothing changes.
   */
  lemma DecreaseSpeedStep(p: Player)
    requires Valid(p)
    ensures var r := DecreaseSpeed(p);
      && (Speed(p) > 0.1 ==> Speed(r) < Speed(p) && forall j :: 0 <= j < |Levels| && Levels[j] < Speed(p) ==> Levels[j] <= Speed(r))
      && (Speed(p) == 0.1 ==> r == p)
  {
    LevelsIncreasing();
    var i := p.speedIndex;
    if i > 0 {
      forall j | 0 <= j < |Levels| && Levels[j] < Speed(p)
        ensures Levels[j] <= Levels[i - 1]
      {
        if j < i - 1 {
          assert Levels[j] < Levels[i - 1];
        }
      }
    }
  }

  /** Below the top, one rung up and one rung down return to the starting speed. */
  lemma SpeedRoundTrip(p: Player)
    requires Valid(p) && Speed(p) != 4.0
    ensures DecreaseSpeed(IncreaseSpeed(p)) == p
  {
  }

  /** However often the speed is raised it ends at 4.0 and stays there. */
  lemma {:induction false} IncreaseSpeedSaturates(p: Player, n: nat)
    requires Valid(p) && p.speedIndex + n >= |Levels| - 1
    ensures Speed(IncreaseTimes(p, n)) == 4.0
    decreases n
  {
    if n > 0 && p.speedIndex < |Levels| - 1 {
      IncreaseSpeedSaturates(IncreaseSpeed(p), n - 1);
    } else if n > 0 {
      assert IncreaseSpeed(p) == p;
      IncreaseSpeedSaturates(p, n - 1);
    }
  }

  function IncreaseTimes(p: Player, n: nat): (r: Player)
    requires Valid(p)
    ensures Valid(r)
    decreases n
  {
    if n == 0 then p else IncreaseTimes(IncreaseSpeed(p), n - 1)
  }
}

=== FILE: popup.dfy ===
/**
 * The logic of the settings popup: the translation lookup `t` with its
 * `{param}` substitution, the choice of UI language, the update of the
 * disabled-domain list when the domain toggle changes, and the import of a
 * pasted configuration, which keeps only correctly typed fields. The DOM,
 * `chrome.storage` and `JSON.parse` are parameters.
 */
module Popup {
  import opened Wrappers
  import opened Text
  import opened Config

  // ---------------------------------------------------------------------
  // Translation
  // ---------------------------------------------------------------------

  /** One language's strings: translation key to text. */
  type Strings = map<string, string>

  /** The `translations` object: language tag to that language's strings. */
  type Translations = map<string, Strings>

  /**
   * `detectLanguage`: Chinese in any variant gives the `zh-CN` strings,
   * every other browser language the English ones.
   */
  function DetectLanguage(browserLang: string): (lang: string)
    ensures lang == "zh-CN" || lang == "en"
    ensures lang == "zh-CN" <==> StartsWith(browserLang, "zh")
  {
    if StartsWith(browserLang, "zh") then "zh-CN" else "en"
  }

  /**
   * `strings[key]` in a truthiness test: a missing key reads as
   * `undefined`, which is falsy exactly like the empty string.
   */
  function Entry(strings: Strings, key: string): (text: string)
  {
    if key in strings then strings[key] else ""
  }

  /**
   * The text `t` starts from: the current language's string, else the
   * English string, else the key itself. Each step of the `||` chain is
   * skipped when its string is missing or empty.
   */
  function Template(table: Translations, lang: string, key: string): (text: string)
    requires lang in table && "en" in table
  {
    var current := Entry(table[lang], key);
    if current != "" then current
    else
      var english := Entry(table["en"], key);
      if english != "" then english else key
  }

  /**
   * With the two bundled languages present, the detected language is always
   * a key of the table: a "zh" browser gets its Chinese string when it has
   * one, and any other browser gets the English string, else the key.
   */
  lemma DetectedTemplate(table: Translations, browserLang: string, key: string)
    requires "zh-CN" in table && "en" in table
    ensures DetectLanguage(browserLang) in table
    ensures StartsWith(browserLang, "zh") && Entry(table["zh-CN"], key) != "" ==>
      Template(table, DetectLanguage(browserLang), key) == Entry(table["zh-CN"], key)
    ensures !StartsWith(browserLang, "zh") ==>
      Template(table, DetectLanguage(browserLang), key)
        == if Entry(table["en"], key) != "" then Entry(table["en"], key) else key
  {
  }

  /** The placeholder a parameter named `name` fills: `{name}`. */
  function Placeholder(name: string): (ph: string)
  {
    "{" + name + "}"
  }

  /**
   * The `forEach` over `Object.keys(params)`, in key order: each parameter
   * replaces the first occurrence of its placeholder in the text as it
   * stands after the earlier parameters.
   */
  function Substitute(text: string, params: seq<(string, string)>): (r: string)
    decreases |params|
  {
    if params == [] then text
    else Substitute(ReplaceFirst(text, Placeholder(params[0].0), params[0].1), params[1..])
  }

  /** `t(key, params)` with `currentLang == lang`. */
  function T(table: Translations, lang: string, key: string, params: seq<(string, string)>): (text: string)
    requires lang in table && "en" in table
  {
    Substitute(Template(table, lang, key), params)
  }

  /**
   * The `||` chain picks the first truthy candidate: a non-empty current
   * string wins; otherwise a non-empty English string; otherwise the key.
   */
  lemma TemplateChoice(table: Translations, lang: string, key: string)
    requires lang in table && "en" in table
    ensures key in table[lang] && table[lang][key] != "" ==> Template(table, lang, key) == table[lang][key]
    ensures (key !in table[lang] || table[lang][key] == "") && key in table["en"] && table["en"][key] != ""
      ==> Template(table, lang, key) == table["en"][key]
    ensures (key !in table[lang] || table[lang][key] == "") && (key !in table["en"] || table["en"][key] == "")
      ==> Template(table, lang, key) == key
  {
  }

  /**
   * `t` never shows an empty label for a non-empty key: whatever the
   * tables hold, the lookup falls back to something non-empty.
   */
  lemma TemplateNonEmpty(table: Translations, lang: string, key: string)
    requires lang in table && "en" in table
    requires key != ""
    ensures Template(table, lang, key) != ""
  {
  }

  /**
   * The text `t` starts from is always one of the three candidates: a
   * string of the current language, an English string, or the key.
   */
  lemma TemplateIsCandidate(table: Translations, lang: string, key: string)
    requires lang in table && "en" in table
    ensures var text := Template(table, lang, key);
      || (key in table[lang] && text == table[lang][key])
      || (key in table["en"] && text == table["en"][key])
      || text == key
  {
  }

  /** When the language is English, the fallback changes nothing: the English table alone decides. */
  lemma EnglishNeedsNoFallback(table: Translations, key: string)
    requires "en" in table
    ensures Template(table, "en", key) == (if Entry(table["en"], key) != "" then table["en"][key] else key)
  {
  }

  /**
   * A text without any of the parameters' placeholders comes back from
   * the substitution as it is.
   */
  lemma {:induction false} SubstituteNoPlaceholder(text: string, params: seq<(string, string)>)
    requires forall i :: 0 <= i < |params| ==> !Contains(text, Placeholder(params[i].0))
    ensures Substitute(text, params) == text
    decreases |params|
  {
    if params != [] {
      var ph := Placeholder(params[0].0);
      ContainsIff(text, ph);
      ReplaceFirstSpec(text, ph, params[0].1, 0);
      assert ReplaceFirst(text, ph, params[0].1) == text;
      forall i | 0 <= i < |params[1..]| ensures !Contains(text, Placeholder(params[1..][i].0)) {
        assert params[1..][i] == params[i + 1];
      }
      SubstituteNoPlaceholder(text, params[1..]);
    }
  }

  /** Without parameters `t` is the bare lookup. */
  lemma TWithoutParams(table: Translations, lang: string, key: string)
    requires lang in table && "en" in table
    ensures T(table, lang, key, []) == Template(table, lang, key)
    ensures key != "" ==> T(table, lang, key, []) != ""
  {
    if key != "" {
      TemplateNonEmpty(table, lang, key);
    }
  }

  /**
   * One parameter fills the leftmost occurrence of its placeholder, and
   * only that one: the text around it is kept.
   */
  lemma SubstituteOne(before: string, name: string, value: string, after: string)
    requires !Contains(before + Placeholder(name)[..|Placeholder(name)| - 1], Placeholder(name))
    ensures Substitute(before + Placeholder(name) + after, [(name, value)]) == before + value + after
  {
    var ph := Placeholder(name);
    var s := before + ph + after;
    var i := |before|;
    assert s[i..i + |ph|] == ph;
    var prefix := before + ph[..|ph| - 1];
    assert s[..|prefix|] == prefix;
    ContainsIff(prefix, ph);
    forall j | 0 <= j < i ensures !OccursAt(s, ph, j) {
      if OccursAt(s, ph, j) {
        assert prefix[j..j + |ph|] == s[j..j + |ph|];
        assert OccursAt(prefix, ph, j);
      }
    }
    ReplaceFirstSpec(s, ph, value, i);
    assert s[..i] == before && s[i + |ph|..] == after;
    assert [(name, value)][1..] == [];
  }

  /**
   * A placeholder that appears twice is filled once: after `t` with that
   * single parameter the text still contains the placeholder.
   */
  lemma SubstituteFillsOnlyFirst(text: string, name: string, value: string, i: nat, j: nat)
    requires OccursAt(text, Placeholder(name), i) && OccursAt(text, Placeholder(name), j)
    requires i + |Placeholder(name)| <= j
    ensures Contains(Substitute(text, [(name, value)]), Placeholder(name))
  {
    ReplaceFirstKeepsLater(text, Placeholder(name), value, i, j);
    assert [(name, value)][1..] == [];
  }

  // ---------------------------------------------------------------------
  // Disabled domains
  // ---------------------------------------------------------------------

  /** No element appears twice. */
  predicate NoDuplicates<T(==)>(s: seq<T>)
  {
    forall i, j :: 0 <= i < j < |s| ==> s[i] != s[j]
  }

  /** `s.filter(x => x !== d)`. */
  function RemoveAll<T(==)>(s: seq<T>, d: T): (r: seq<T>)
  {
    if s == [] then [] else (if s[0] == d then [] else [s[0]]) + RemoveAll(s[1..], d)
  }

  /**
   * The `disabledDomains` update in the domain toggle's `change` handler:
   * switching the toggle on appends the current domain unless it is
   * already listed; switching it off filters out every occurrence.
   */
  function ToggleDomain<T(==)>(domains: seq<T>, domain: T, disabled: bool): (r: seq<T>)
  {
    if disabled then
      if domain in domains then domains else domains + [domain]
    else RemoveAll(domains, domain)
  }

  /**
   * Filtering removes every occurrence of `d` and keeps every other
   * element, as often as it appeared.
   */
  lemma {:induction false} RemoveAllCounts<T>(s: seq<T>, d: T)
    ensures d !in RemoveAll(s, d)
    ensures forall x :: x != d ==> multiset(RemoveAll(s, d))[x] == multiset(s)[x]
  {
    if s != [] {
      RemoveAllCounts(s[1..], d);
      assert s == [s[0]] + s[1..];
    }
  }

  /** Filtering works piecewise, so it keeps the order of what it keeps. */
  lemma {:induction false} RemoveAllAppend<T>(a: seq<T>, b: seq<T>, d: T)
    ensures RemoveAll(a + b, d) == RemoveAll(a, d) + RemoveAll(b, d)
  {
    if a != [] {
      assert (a + b)[1..] == a[1..] + b;
      RemoveAllAppend(a[1..], b, d);
    } else {
      assert a + b == b;
    }
  }

  /** Filtering out a value that is not there changes nothing. */
  lemma {:induction false} RemoveAllAbsent<T>(s: seq<T>, d: T)
    requires d !in s
    ensures RemoveAll(s, d) == s
  {
    if s != [] {
      RemoveAllAbsent(s[1..], d);
    }
  }

  /**
   * Disabling lists the domain, adds nothing else, keeps the list free of
   * duplicates when it was, and leaves the existing entries in place.
   */
  lemma DisableDomain<T>(domains: seq<T>, domain: T)
    ensures var r := ToggleDomain(domains, domain, true);
      && domain in r
      && (forall x :: x in r <==> x in domains || x == domain)
      && r[..|domains|] == domains
      && (NoDuplicates(domains) ==> NoDuplicates(r))
  {
  }

  /**
   * Enabling unlists the domain completely and keeps every other domain,
   * as often as it was listed and in the same order.
   */
  lemma EnableDomain<T>(domains: seq<T>, domain: T)
    ensures var r := ToggleDomain(domains, domain, false);
      && domain !in r
      && (forall x :: x != domain ==> multiset(r)[x] == multiset(domains)[x])
      && (forall a, b :: domains == a + b ==> r == RemoveAll(a, domain) + RemoveAll(b, domain))
  {
    RemoveAllCounts(domains, domain);
    forall a, b | domains == a + b ensures ToggleDomain(domains, domain, false) == RemoveAll(a, domain) + RemoveAll(b, domain) {
      RemoveAllAppend(a, b, domain);
    }
  }

  /** Switching the toggle on and off again restores a list that did not hold the domain. */
  lemma DisableThenEnable<T>(domains: seq<T>, domain: T)
    requires domain !in domains
    ensures ToggleDomain(ToggleDomain(domains, domain, true), domain, false) == domains
  {
    RemoveAllAppend(domains, [domain], domain);
    RemoveAllAbsent(domains, domain);
  }

  /** Switching the toggle on twice lists the domain once. */
  lemma DisableIdempotent<T>(domains: seq<T>, domain: T)
    ensures var once := ToggleDomain(domains, domain, true);
      ToggleDomain(once, domain, true) == once
  {
  }

  // ---------------------------------------------------------------------
  // Import
  // ---------------------------------------------------------------------

  /** Why an import is refused; nothing is written in either case. */
  datatype ImportError =
    | EmptyInput     // the trimmed text is empty: the "paste a configuration" toast
    | InvalidFormat  // `JSON.parse` threw, or it gave `null` and reading a field threw

  /** The `typeof`/`Array.isArray` test a field must pass to be imported. */
  datatype Kind = NumberKind | BooleanKind | ArrayKind

  /** The fields the import looks at, in the order it tests them, with the type each must have. */
  const ImportFields: seq<(string, Kind)> := [
    ("minWidth", NumberKind),
    ("minHeight", NumberKind),
    ("maxAutoLoadCount", NumberKind),
    ("autoPlayEnabled", BooleanKind),
    ("autoLoadEnabled", BooleanKind),
    ("disabledDomains", ArrayKind)
  ]

  predicate HasKind(v: Value, kind: Kind)
  {
    match kind
    case NumberKind => v.Number?
    case BooleanKind => v.Bool?
    case ArrayKind => v.Array?
  }

  /** Some entry of `fields` names `key`, and `data` holds a value of that entry's type under it. */
  predicate Accepts(data: map<string, Value>, fields: seq<(string, Kind)>, key: string)
  {
    key in data && exists i :: 0 <= i < |fields| && fields[i].0 == key && HasKind(data[key], fields[i].1)
  }

  /**
   * The chain of `if (typeof importData.f === …) saveConfig('f', …)`:
   * each field is written to storage when the parsed object holds a value
   * of the expected type under its name.
   */
  function ApplyFields(config: Settings, data: map<string, Value>, fields: seq<(string, Kind)>): (r: Settings)
    decreases |fields|
  {
    if fields == [] then config
    else
      var (name, kind) := fields[0];
      var next := if name in data && HasKind(data[name], kind) then config[name := data[name]] else config;
      ApplyFields(next, data, fields[1..])
  }

  /**
   * `r` is `config` after importing `data` through `fields`: a field passing
   * its test holds the imported value; every other setting keeps its
   * stored value, or stays absent.
   */
  ghost predicate Imported(config: Settings, data: map<string, Value>, fields: seq<(string, Kind)>, r: Settings)
  {
    forall k :: (Accepts(data, fields, k) ==> k in r && r[k] == data[k])
      && (!Accepts(data, fields, k) ==> (k in r <==> k in config) && (k in r ==> r[k] == config[k]))
  }

  /** The chain of field tests imports exactly the fields that pass. */
  lemma {:induction false} ApplyFieldsSpec(config: Settings, data: map<string, Value>, fields: seq<(string, Kind)>)
    ensures Imported(config, data, fields, ApplyFields(config, data, fields))
    decreases |fields|
  {
    if fields != [] {
      var (name, kind) := fields[0];
      var next := if name in data && HasKind(data[name], kind) then config[name := data[name]] else config;
      ApplyFieldsSpec(next, data, fields[1..]);
      forall k ensures Accepts(data, fields, k) <==> Accepts(data, fields[1..], k) || (k == name && name in data && HasKind(data[name], kind)) {
        if Accepts(data, fields, k) {
          var i :| 0 <= i < |fields| && fields[i].0 == k && HasKind(data[k], fields[i].1);
          if i > 0 { assert fields[1..][i - 1] == fields[i]; }
        }
        if Accepts(data, fields[1..], k) {
          var i :| 0 <= i < |fields[1..]| && fields[1..][i].0 == k && HasKind(data[k], fields[1..][i].1);
          assert fields[i + 1] == fields[1..][i];
        }
        if k == name && name in data && HasKind(data[name], kind) {
          assert fields[0] == (name, kind);
        }
      }
    }
  }

  /**
   * The import button's handler, for a given list of typed fields. `text`
   * is the textarea's content and `parsed` what `JSON.parse` makes of it
   * after trimming (`None` when it throws). The result is storage after
   * the handler, or the reason it refused; a refused import writes
   * nothing.
   */
  function ImportWith(config: Settings, text: string, parsed: Option<Value>, fields: seq<(string, Kind)>)
    : (r: Result<Settings, ImportError>)
    ensures r.Failure? <==> Trim(text) == [] || parsed.None? || parsed == Some(Null)
    ensures r.Failure? && Trim(text) == [] ==> r.error == EmptyInput
  {
    if Trim(text) == [] then Failure(EmptyInput)
    else
      match parsed
      case None => Failure(InvalidFormat)
      case Some(Null) => Failure(InvalidFormat)
      case Some(Object(data)) => Success(ApplyFields(config, data, fields))
      case Some(_) => Success(config)
  }

  /** The handler as shipped, with its six typed fields. */
  function Import(config: Settings, text: string, parsed: Option<Value>): (r: Result<Settings, ImportError>)
  {
    ImportWith(config, text, parsed, ImportFields)
  }

  /** Blank input, made only of the characters `trim` strips, is refused as empty. */
  lemma ImportBlank(config: Settings, text: string, parsed: Option<Value>)
    requires Blank(text)
    ensures Import(config, text, parsed) == Failure(EmptyInput)
  {
    TrimEmptyIff(text);
  }

  /**
   * An imported object overwrites exactly the settings among the typed
   * fields whose value has the right type; any other field of the object,
   * and any field of the wrong type, is ignored. (Which fields pass for
   * the shipped list is spelled out by `AcceptsImportFields`.)
   */
  lemma ImportObject(config: Settings, text: string, data: map<string, Value>, fields: seq<(string, Kind)>)
    requires Trim(text) != []
    ensures var r := ImportWith(config, text, Some(Object(data)), fields);
      r.Success? && Imported(config, data, fields, r.value)
  {
    ApplyFieldsSpec(config, data, fields);
  }

  /** A parsed value other than an object or `null` (a number, a string, an array) is accepted and changes nothing. */
  lemma ImportNonObject(config: Settings, text: string, v: Value)
    requires Trim(text) != [] && !v.Object? && !v.Null?
    ensures Import(config, text, Some(v)) == Success(config)
  {
  }

  /**
   * The field tests, spelled out: a field is imported exactly when it is
   * one of the six and has its type — numbers for the sizes and the load
   * count, booleans for the two switches, an array for the domain list.
   */
  lemma AcceptsImportFields(data: map<string, Value>, key: string)
    ensures Accepts(data, ImportFields, key) <==>
      (key in data && (
        || (key in {"minWidth", "minHeight", "maxAutoLoadCount"} && data[key].Number?)
        || (key in {"autoPlayEnabled", "autoLoadEnabled"} && data[key].Bool?)
        || (key == "disabledDomains" && data[key].Array?)))
  {
    if key in data {
      if Accepts(data, ImportFields, key) {
        var i :| 0 <= i < |ImportFields| && ImportFields[i].0 == key && HasKind(data[key], ImportFields[i].1);
        assert i == 0 || i == 1 || i == 2 || i == 3 || i == 4 || i == 5;
      }
      if key == "minWidth" && data[key].Number? { assert ImportFields[0] == (key, NumberKind); }
      if key == "minHeight" && data[key].Number? { assert ImportFields[1] == (key, NumberKind); }
      if key == "maxAutoLoadCount" && data[key].Number? { assert ImportFields[2] == (key, NumberKind); }
      if key == "autoPlayEnabled" && data[key].Bool? { assert ImportFields[3] == (key, BooleanKind); }
      if key == "autoLoadEnabled" && data[key].Bool? { assert ImportFields[4] == (key, BooleanKind); }
      if key == "disabledDomains" && data[key].Array? { assert ImportFields[5] == (key, ArrayKind); }
    }
  }
}

=== FILE: text.dfy ===
/**
 * The string operations the extension's scripts use: ASCII `toLowerCase`,
 * `startsWith`, `endsWith`, `includes`, and `replace` with a string pattern
 * (which replaces the first occurrence only).
 */
module Text {
  import opened Wrappers

  /** `p` occurs in `s` at position `i`. */
  predicate OccursAt(s: string, p: string, i: nat)
  {
    i + |p| <= |s| && s[i..i + |p|] == p
  }

  predicate StartsWith(s: string, p: string)
  {
    OccursAt(s, p, 0)
  }

  predicate EndsWith(s: string, p: string)
  {
    |p| <= |s| && OccursAt(s, p, |s| - |p|)
  }

  /** The first position at or after `from` where `p` occurs, searching left to right. */
  function FindFrom(s: string, p: string, from: nat): (r: Option<nat>)
    ensures r.Some? ==> from <= r.value && OccursAt(s, p, r.value)
    ensures r.Some? ==> forall j :: from <= j < r.value ==> !OccursAt(s, p, j)
    ensures r.None? ==> forall j :: from <= j ==> !OccursAt(s, p, j)
    decreases |s| + 1 - from
  {
    if from + |p| > |s| then None
    else if s[from..from + |p|] == p then Some(from)
    else FindFrom(s, p, from + 1)
  }

  /** `s.indexOf(p)`: the first occurrence of `p`, if any. */
  function Find(s: string, p: string): (r: Option<nat>)
  {
    FindFrom(s, p, 0)
  }

  /** `s.includes(p)`. */
  predicate Contains(s: string, p: string)
  {
    Find(s, p).Some?
  }

  /** `includes` holds exactly when some position holds an occurrence. */
  lemma ContainsIff(s: string, p: string)
    ensures Contains(s, p) <==> exists i :: OccursAt(s, p, i)
  {
    var r := Find(s, p);
    if r.Some? {
      assert OccursAt(s, p, r.value);
    }
  }

  /** A string contains its own suffix. */
  lemma EndsWithContains(s: string, p: string)
    requires EndsWith(s, p)
    ensures Contains(s, p)
  {
    ContainsIff(s, p);
  }

  /** A string that has `p` somewhere in the middle contains `p`. */
  lemma ContainsMiddle(a: string, p: string, b: string)
    ensures Contains(a + p + b, p)
  {
    assert (a + p + b)[|a|..|a| + |p|] == p;
    assert OccursAt(a + p + b, p, |a|);
    ContainsIff(a + p + b, p);
  }

  /** ASCII case folding: `A`-`Z` become `a`-`z`, everything else is kept. */
  function Lower(c: char): (l: char)
  {
    if 'A' <= c <= 'Z' then (c as int - 'A' as int + 'a' as int) as char else c
  }

  /** `s.toLowerCase()` on ASCII letters. */
  function ToLower(s: string): (r: string)
    ensures |r| == |s|
    ensures forall i :: 0 <= i < |s| ==> r[i] == Lower(s[i])
  {
    seq(|s|, i requires 0 <= i < |s| => Lower(s[i]))
  }

  /** Lower-casing twice is lower-casing once. */
  lemma ToLowerIdempotent(s: string)
    ensures ToLower(ToLower(s)) == ToLower(s)
  {
  }

  /**
   * Lower-casing changes exactly the ASCII capitals, each to the letter 32
   * code points above it, and leaves no capital behind.
   */
  lemma ToLowerChangesCapitals(s: string)
    ensures forall i :: 0 <= i < |s| ==> (ToLower(s)[i] != s[i] <==> 'A' <= s[i] <= 'Z')
    ensures forall i :: 0 <= i < |s| && 'A' <= s[i] <= 'Z' ==> ToLower(s)[i] as int == s[i] as int + 32
    ensures forall i :: 0 <= i < |s| ==> !('A' <= ToLower(s)[i] <= 'Z')
  {
  }

  /**
   * `s.replace(p, rep)` with a string pattern: the first occurrence of `p`
   * is replaced and nothing else changes; without an occurrence `s` is
   * returned as it is.
   */
  function ReplaceFirst(s: string, p: string, rep: string): (r: string)
  {
    match Find(s, p)
    case None => s
    case Some(i) => s[..i] + rep + s[i + |p|..]
  }

  /**
   * What `replace` does, stated without `Find`: with no occurrence `s` is
   * returned as it is; otherwise the leftmost occurrence is the one
   * replaced.
   */
  lemma ReplaceFirstSpec(s: string, p: string, rep: string, i: nat)
    ensures (forall k: nat :: !OccursAt(s, p, k)) ==> ReplaceFirst(s, p, rep) == s
    ensures OccursAt(s, p, i) && (forall j :: 0 <= j < i ==> !OccursAt(s, p, j)) ==>
      ReplaceFirst(s, p, rep) == s[..i] + rep + s[i + |p|..]
  {
    if OccursAt(s, p, i) && (forall j :: 0 <= j < i ==> !OccursAt(s, p, j)) {
      var f := Find(s, p).value;
      assert !(f < i) && !(i < f);
    }
  }

  /** After a replacement, the text before the replaced occurrence has no occurrence of the pattern. */
  lemma ReplaceFirstIsFirst(s: string, p: string, rep: string)
    requires Contains(s, p)
    ensures var i := Find(s, p).value;
      && ReplaceFirst(s, p, rep)[..i] == s[..i]
      && (forall j :: 0 <= j < i && j + |p| <= i ==> !OccursAt(s[..i], p, j))
  {
    var i := Find(s, p).value;
    forall j | 0 <= j < i && j + |p| <= i
      ensures !OccursAt(s[..i], p, j)
    {
      assert !OccursAt(s, p, j);
      assert s[..i][j..j + |p|] == s[j..j + |p|];
    }
  }

  /** An occurrence is still one after dropping a prefix before it. */
  lemma OccursInSuffix(s: string, p: string, k: nat, j: nat)
    requires k <= j && OccursAt(s, p, j)
    ensures OccursAt(s[k..], p, j - k)
  {
    assert s[k..][j - k..j - k + |p|] == s[j..j + |p|];
  }

  /** An occurrence is still one after putting text in front. */
  lemma OccursAfterPrefix(u: string, t: string, p: string, j: nat)
    requires OccursAt(t, p, j)
    ensures OccursAt(u + t, p, |u| + j)
  {
    assert (u + t)[|u| + j..|u| + j + |p|] == t[j..j + |p|];
  }

  /**
   * Later occurrences survive `replace`: when `p` occurs twice without
   * overlap, the result still contains it.
   */
  lemma ReplaceFirstKeepsLater(s: string, p: string, rep: string, i: nat, j: nat)
    requires OccursAt(s, p, i) && OccursAt(s, p, j) && i + |p| <= j
    ensures Contains(ReplaceFirst(s, p, rep), p)
  {
    FindAtMost(s, p, i);
    var f := Find(s, p).value;
    var u, t := s[..f] + rep, s[f + |p|..];
    assert ReplaceFirst(s, p, rep) == u + t;
    OccursInSuffix(s, p, f + |p|, j);
    OccursAfterPrefix(u, t, p, j - f - |p|);
    ContainsIff(u + t, p);
  }

  /** An occurrence at `i` means `indexOf` finds one, at `i` or before. */
  lemma FindAtMost(s: string, p: string, i: nat)
    requires OccursAt(s, p, i)
    ensures Find(s, p).Some? && Find(s, p).value <= i
  {
  }

  /**
   * The characters `String.prototype.trim` strips: the ECMAScript
   * WhiteSpace code points (tab, vertical tab, form feed, space, no-break
   * space, the byte order mark and the Unicode space separators) and the
   * LineTerminator code points.
   */
  predicate IsSpace(c: char)
  {
    || c == '\t' || c == '\n' || c == '\U{000B}' || c == '\U{000C}' || c == '\r' || c == ' '
    || c == '\U{00A0}' || c == '\U{1680}' || ('\U{2000}' <= c <= '\U{200A}')
    || c == '\U{2028}' || c == '\U{2029}' || c == '\U{202F}' || c == '\U{205F}'
    || c == '\U{3000}' || c == '\U{FEFF}'
  }

  /** Every character of `s` is one `trim` strips. */
  predicate Blank(s: string)
  {
    forall i :: 0 <= i < |s| ==> IsSpace(s[i])
  }

  /** `s.trimStart()`: drops leading spaces; `TrimStartSpec` states what is left. */
  function TrimStart(s: string): (r: string)
    ensures |r| <= |s|
  {
    if s != [] && IsSpace(s[0]) then TrimStart(s[1..]) else s
  }

  /** `s.trimEnd()`: drops trailing spaces; `TrimEndSpec` states what is left. */
  function TrimEnd(s: string): (r: string)
    ensures |r| <= |s|
  {
    if s != [] && IsSpace(s[|s| - 1]) then TrimEnd(s[..|s| - 1]) else s
  }

  /** `trimStart` keeps the longest suffix not starting with a space: what it drops is blank. */
  lemma {:induction false} TrimStartSpec(s: string)
    ensures var r := TrimStart(s);
      && r == s[|s| - |r|..]
      && Blank(s[..|s| - |r|])
      && (r == [] || !IsSpace(r[0]))
    decreases |s|
  {
    if s != [] && IsSpace(s[0]) {
      var r := TrimStart(s[1..]);
      TrimStartSpec(s[1..]);
      assert s[1..][|s[1..]| - |r|..] == s[|s| - |r|..];
      assert s[..|s| - |r|] == [s[0]] + s[1..][..|s[1..]| - |r|];
    }
  }

  /** `trimEnd` keeps the longest prefix not ending with a space: what it drops is blank. */
  lemma {:induction false} TrimEndSpec(s: string)
    ensures var r := TrimEnd(s);
      && r == s[..|r|]
      && Blank(s[|r|..])
      && (r == [] || !IsSpace(r[|r| - 1]))
    decreases |s|
  {
    if s != [] && IsSpace(s[|s| - 1]) {
      var r := TrimEnd(s[..|s| - 1]);
      TrimEndSpec(s[..|s| - 1]);
      assert s[..|s| - 1][..|r|] == s[..|r|];
      assert s[|r|..] == s[..|s| - 1][|r|..] + [s[|s| - 1]];
    }
  }

  /** `s.trim()`. */
  function Trim(s: string): (r: string)
  {
    TrimEnd(TrimStart(s))
  }

  /**
   * `trim` removes only surrounding spaces: the result sits inside `s` with
   * blank text on either side.
   */
  lemma TrimInside(s: string)
    ensures exists k :: 0 <= k <= |s| - |Trim(s)| && s[k..k + |Trim(s)|] == Trim(s)
                     && Blank(s[..k]) && Blank(s[k + |Trim(s)|..])
  {
    var t := TrimStart(s);
    var r := TrimEnd(t);
    TrimStartSpec(s);
    TrimEndSpec(t);
    var k := |s| - |t|;
    assert s[k..k + |r|] == t[..|r|];
    assert s[k + |r|..] == t[|r|..];
  }

  /** `trim` removes all surrounding spaces: the result neither starts nor ends with one. */
  lemma TrimEdges(s: string)
    ensures Trim(s) == [] || (!IsSpace(Trim(s)[0]) && !IsSpace(Trim(s)[|Trim(s)| - 1]))
  {
    var t := TrimStart(s);
    var r := TrimEnd(t);
    TrimStartSpec(s);
    TrimEndSpec(t);
    if r != [] {
      assert r[0] == t[0];
    }
  }

  /** The trimmed text is empty exactly when `s` is blank. */
  lemma TrimEmptyIff(s: string)
    ensures Trim(s) == [] <==> Blank(s)
  {
    var t := TrimStart(s);
    var r := TrimEnd(t);
    TrimStartSpec(s);
    TrimEndSpec(t);
    var k := |s| - |t|;
    if r == [] {
      assert t == [];
      forall i | 0 <= i < |s| ensures IsSpace(s[i]) {
        assert s[i] == s[..k][i];
      }
    }
  }
}

=== FILE: wrappers.dfy ===
/** Failure-carrying wrappers shared by the decoder, the player and the settings code. */
module Wrappers {

  /** A value that may be absent: JavaScript's `null` / `undefined`. */
  datatype Option<+T> = None | Some(value: T)

  /** The outcome of an operation that can throw. */
  datatype Result<+R, +E> = Success(value: R) | Failure(error: E)
}
